=== FILE: README.md ===
# PodcastHub front end, modelled in Dafny

This project models the logic of the PodcastHub web client, a Next.js and React
podcast app. It covers the REST client and its token store, the data hooks
(auth, notifications, listening history, subscriptions, latest episodes,
podcast details, profile, search), and the list views built on them. It also
covers the search history with its pagination, the formatters (durations,
player times, relative dates, slugs, badge labels), and the small state
machines of the player, the category strip, the route guard, the profile
editor and the three sign-in forms.

**How the model is shaped**
- A hook is a pure transition function from its state to its next state.
- What the network did is an input: `ApiClient.Call` is either the
  envelope the client resolved to, or a thrown error.
- Browser storage and navigation targets are ordinary values in the results.
- One Dafny module stands for each source file. The shared parts are:
  - `Common`: optional values, JSON, JavaScript truthiness;
  - `Text`: JavaScript white space, trimming, ASCII case, decimal digits;
  - `Seqs`: filter, subsequence, a stable insertion sort, slicing.

## Model

| member | source | states |
|---|---|---|
| ApiClient.GetHeaders | lib/api.ts:119-132 | The content type is always JSON. A bearer header is present exactly when auth is requested and a non-empty token is stored, and it carries that token. |
| ApiClient.FetchApi | lib/api.ts:135-171 | The request goes to the base URL plus the endpoint, with the headers for its auth flag. A non-ok reply fails with the server's message or "请求失败" and never stores a token. An ok reply returns the whole body and stores its token when the token is non-empty. A thrown fetch or unreadable body gives the network-error envelope and leaves storage untouched. |
| ApiClient.RouteOf | lib/api.ts:174-319 | A method sends the token exactly when it is not one of the public methods, and a GET never carries a body. |
| ApiClient.AuthorizationPolicy | lib/api.ts:174-190 | A request carries Authorization exactly when its method is non-public and a token is stored. Login and register never send it. |
| ApiClient.Logout | lib/api.ts:222-224 | After logout no token is stored. |
| ApiClient.LogoutInvalidates | lib/api.ts:227-234 | After logout `validateToken` is false, and no later request carries a token. |
| ApiClient.TokenStoreOnlyGrows | lib/api.ts:146-163 | The token slot changes only on a successful reply that carries a token, and it then holds that token. A valid session stays valid across any request. |
| Duration.Decomposition | lib/utils.ts:17-19 | 3600·hours + 60·minutes + seconds rebuilds the duration, and minutes and seconds are below 60. |
| Duration.Component | lib/utils.ts:22-24 | A component is present exactly when its count is positive. It is digits without a leading zero, followed by its unit letter, and holds no space. |
| Duration.FormatDuration | lib/utils.ts:15-28 | The rendering is empty exactly for a zero duration. |
| Duration.PartsShape | lib/utils.ts:21-26 | At most three parts survive the filter, each a well-formed token, in strictly decreasing unit order (h, then m, then s). |
| Duration.SplitJoin | lib/utils.ts:27 | Splitting at the separator undoes the join when no part is empty or holds the separator. |
| Duration.ComponentValue | lib/utils.ts:22-24 | Reading a rendered component back gives its count times the seconds of its unit. |
| Duration.SumParts | lib/utils.ts:17-26 | The values of the rendered parts add up to the duration. |
| Duration.ParseFormatDuration | lib/utils.ts:15-28 | Round trip: reading the rendered duration back gives the number of seconds. |
| Duration.FormatDurationInjective | lib/utils.ts:15-28 | Different durations never render alike. |
| AudioPlayer.Pad | components/audio-player.tsx:41 | The seconds field is exactly two digits that read back as the seconds. |
| AudioPlayer.FormatTime | components/audio-player.tsx:38-42 | The text is digits, a colon, then two digits. |
| AudioPlayer.FormatTimeRoundTrip | components/audio-player.tsx:38-42 | Reading `m:ss` back gives the time: minutes times 60 plus the padded seconds. |
| AudioPlayer.FormatTimeInjective | components/audio-player.tsx:38-42 | Two different times never show the same text. |
| AudioPlayer.IconFor | components/audio-player.tsx:45-49 | Muted exactly at 0, low exactly below 50 (other than 0), high otherwise. The three cases are disjoint and cover every volume. |
| AudioPlayer.ShownDuration | components/audio-player.tsx:208-213 | The slider maximum and the shown total are the duration when non-zero, and always positive (2732 otherwise). |
| AudioPlayer.Step | components/audio-player.tsx:174-252 | A control keeps a valid player valid. Each flag flips exactly under its own toggle. Every other field changes only under its own control: to the seek time, to a volume in 0..100, or to the chosen rate. The duration never changes. |
| AudioPlayer.TogglesAreInvolutions | components/audio-player.tsx:73 | Play/pause, favorite and fullscreen each undo themselves. |
| AudioPlayer.RunKeepsValid | components/audio-player.tsx:29-35 | Starting from a valid state (such as the initial one), any run of control events keeps the volume within 0..100 and the speed within the rate menu. |
| AudioPlayer.VolumeSliderRoundTrip | components/audio-player.tsx:231-235 | The volume slider shows the value it set, and the icon is muted exactly when it was set to 0. |
| AuthHook.CheckAuth | hooks/use-auth.tsx:24-41 | Loading ends, and the error is kept. The user changes only when a token and a non-empty stored user exist, and then it becomes the parsed stored user. |
| AuthHook.StoredToken | lib/api.ts:153-156 | The token slot after a reply changes only on an ok reply, to the token it carried. Any ok reply with a non-empty token is stored. |
| AuthHook.SignIn | hooks/use-auth.tsx:47-91 | Login and register succeed exactly when the call delivers a user. On success the error is cleared, the user is set and serialised to storage. A refusal leaves user and stored user, with the server message or the default. A throw gives the fixed message. On every path the token slot is what the client left after the reply. |
| AuthHook.LoginKeepsClientToken | lib/api.ts:135-171 | Whatever the network did, the token slot after a login is the one the client's login exchange left. |
| AuthHook.Logout | hooks/use-auth.tsx:94-98 | Logout clears the user, removes the stored user, and leaves no valid token. |
| AuthHook.LoginSurvivesReload | hooks/use-auth.tsx:24-68 | After a successful login, a fresh start restores the same user exactly when a token is then stored: one already was, or the reply carried one. This holds when the serialisation reads back. |
| AuthHook.LogoutSurvivesReload | hooks/use-auth.tsx:24-98 | After logout, a fresh start restores nobody, whatever storage held. |
| AuthHook.UseAuth | hooks/use-auth.tsx:105-111 | Inside the provider the context is returned; outside it the hook throws its fixed message. |
| SearchHistory.Add | app/search/page.tsx:88-89 | The query becomes the head and occurs nowhere else. The list holds at most 10 entries. The older entries kept are a subsequence of the old list, so their order is preserved. |
| SearchHistory.AddOnce | app/search/page.tsx:89 | After adding, the query occurs exactly once. |
| SearchHistory.AddKeepsWhileRoom | app/search/page.tsx:89 | While fewer than 10 entries are stored, adding loses no earlier entry. |
| SearchHistory.AddKeepsNoDup | app/search/page.tsx:89 | A duplicate-free history stays duplicate-free. |
| SearchHistory.AddIdempotent | app/search/page.tsx:89 | Re-adding the head of a duplicate-free history of at most 10 entries changes nothing. |
| SearchHistory.AddTwice | app/search/page.tsx:89 | Adding the same query twice in a row is the same as adding it once. |
| SearchHistory.Remove | app/search/page.tsx:102-106 | Every copy of the item goes, every other entry keeps its count, and the order is kept. |
| SearchHistory.Mount | app/search/page.tsx:45-51 | The mounted list is what storage holds under the key (empty when absent), and storage is untouched. |
| SearchHistory.AddEntry | app/search/page.tsx:88-93 | The list becomes `Add(list, q)`. It is written through to its key, and every other key is untouched. |
| SearchHistory.RemoveEntry | app/search/page.tsx:102-106 | The list loses the item, is written through to its key, and other keys are untouched. |
| SearchHistory.ClearEntries | app/search/page.tsx:96-99 | The list becomes empty, the stored item is removed, and other keys are untouched. |
| SearchHistory.EditsKeepInvariant | components/search/search-dialog.tsx:71-92 | After any run of add, remove and clear, the list is still duplicate-free and at most 10 long. It still equals what storage gives back, and other keys are untouched. |
| SearchHook.Search | hooks/use-search.tsx:11-34 | A blank query clears the results and nothing else. Otherwise loading ends. A delivery sets the results and clears the error. A refusal keeps the results and sets the server's message or "搜索失败". A throw sets "搜索过程中发生错误". |
| SearchHook.BlankQueryIssuesNothing | hooks/use-search.tsx:12-15 | A white-space query gives the same state whatever the API would answer, and leaves the loading flag untouched. |
| SearchHook.VisibleQuerySearches | hooks/use-search.tsx:20-24 | A query with a visible character does reach the API: a delivered answer becomes the results. |
| Text.TrimBlank | hooks/use-search.tsx:12 | Trimming removes exactly a white-space prefix and suffix. What is left starts and ends with a visible character, and is empty exactly for a blank string. |
| SearchPage.Dispatch | app/search/page.tsx:72-84 | The podcasts, episodes and creators tabs call their own search, and every other tab calls `searchAll`. Category is passed only by podcasts and all. |
| SearchPage.PerformSearch | app/search/page.tsx:67-85 | The page always goes back to 1. A request is made exactly for a non-blank query, and it carries that query. |
| SearchPage.FirstRender | app/search/page.tsx:32-39 | The first render is on page 1 with an empty history list. |
| SearchPage.MountEffects | app/search/page.tsx:45-64 | As intended: the list matches storage, and the page is 1. A non-blank URL query is searched and added in front of the stored history; a blank one leaves it. The request is the one the page makes as written. |
| SearchPage.MountForgetsStoredHistory | app/search/page.tsx:45-64 | Opening `?q=b` with "a" stored leaves `["b"]` in memory and storage. The intended effects give `["b", "a"]`. |
| SearchPage.QueryEffect | app/search/page.tsx:54-64 | An empty URL query does nothing. Otherwise the query is taken and the page reset. A request and a history entry happen exactly for a non-blank query. |
| SearchPage.Submit | app/search/page.tsx:109-114 | Navigation happens exactly for a non-blank query, to `/search?q=` plus the encoded trimmed query. |
| SearchPage.TabChange | app/search/page.tsx:117-122 | As intended: the tab is set. A search runs exactly when a non-blank URL query exists, and it is the dispatch for the new tab. |
| SearchPage.TabChangeUsesOldTab | app/search/page.tsx:117-122 | As written, switching from "all" to "podcasts" still calls `searchAll`. The intended version calls the podcast search. |
| SearchPage.TotalPages | app/search/page.tsx:135 | The fewest pages of nine that hold every result: enough pages, and one fewer would not do. |
| SearchPage.PageItems | app/search/page.tsx:132 | Page p shows at most nine results: those at positions (p-1)·9 onward, in order. It is empty exactly past the last page. |
| SearchPage.EveryResultHasAPage | app/search/page.tsx:132-135 | Result k appears on page k/9+1, at position k mod 9, and that page is within the page count. |
| SearchPage.NavigateKeepsRange | app/search/page.tsx:336-362 | Previous, next and the numbered links keep the page between 1 and the page count. Previous steps back only above 1, and next steps on only below the last page. |
| SearchPage.PageInRangeShowsResults | app/search/page.tsx:132-135 | On any page in range the page shows something, unless there are no results. |
| SearchPage.Navigate | app/search/page.tsx:336-362 | A numbered link lands on the page it names. Previous and next step by one or stay, never past the first or the last page, and an in-range page stays in range. |
| SearchDialog.Opened | components/search/search-dialog.tsx:50-56 | The dialog opens on the stored history, not yet having searched. |
| SearchDialog.Close | components/search/search-dialog.tsx:58-68 | Closing resets query, searched flag, filters, tab, category and sort, and keeps the history. |
| SearchDialog.CloseForgetsSearch | components/search/search-dialog.tsx:58-68 | Closing and reopening is the same as opening fresh on the current history. |
| SearchDialog.AddGuarded | components/search/search-dialog.tsx:71-78 | A blank query leaves the history as it is; any other is added and written through. |
| SearchDialog.Dispatch | components/search/search-dialog.tsx:101-113 | The episodes and creators tabs search nothing. Podcasts calls the podcast search, and every other tab calls `searchAll`. |
| SearchDialog.PerformSearch | components/search/search-dialog.tsx:95-114 | A blank query changes nothing and requests nothing. Otherwise the dialog is marked searched, the query is added to history, and the active tab's dispatch is made. |
| SearchDialog.PerformSearchKeepsHistory | components/search/search-dialog.tsx:95-99 | A search keeps the history duplicate-free, at most 10 long and in step with storage, with the query at its head. |
| SearchDialog.TabChange | components/search/search-dialog.tsx:123-128 | As intended: the tab is set. Before any search nothing else happens; after one, the dispatch is for the new tab. |
| SearchDialog.TabChangeUsesOldTab | components/search/search-dialog.tsx:123-128 | As written, switching from podcasts to episodes still searches podcasts. The intended version searches nothing. |
| SearchDialog.CategoryOf | components/search/search-dialog.tsx:163 | The first category value when it is non-empty, else "未分类". Never empty. |
| SearchDialog.ToCard | components/search/search-dialog.tsx:156-165 | The card copies id, title, description, author and episode count. It takes artwork when truthy, else image, and the category rule. |
| SearchDialog.MapCards | components/search/search-dialog.tsx:155-166 | One card per feed, in order. |
| SearchDialog.ListOrEmpty | components/search/search-dialog.tsx:169-171 | An array passes through item by item; anything else gives no results. |
| SearchDialog.CurrentResults | components/search/search-dialog.tsx:152-174 | Podcasts and all show mapped feeds (none when absent). Episodes and creators show their lists, and any other tab shows nothing. A result is a podcast card exactly on the podcast tabs. |
| SearchDialog.DisplayCapSplit | components/search/search-dialog.tsx:402-462 | At most nine cards are shown, the first results in order. The more button appears exactly when results were left out. |
| SearchDialog.MoreResults | components/search/search-dialog.tsx:466-468 | The more button goes to the search page for the raw encoded query, and closes the dialog. |
| SearchDialog.CardTarget | components/search/search-dialog.tsx:408 | A podcast card goes to `/podcast/<id>` and closes the dialog. |
| NotificationsHook.Fetch | hooks/use-notifications.tsx:24-48 | Unauthenticated: the list empties and loading ends. Otherwise loading ends. A delivery replaces the list and clears the error. A refusal keeps the list and sets the message or "获取通知失败". A throw sets the fixed message. |
| NotificationsHook.Mutate | hooks/use-notifications.tsx:51-116 | An acknowledged call applies the change and answers true. A refusal changes nothing and answers false. A throw changes nothing and is thrown again. |
| NotificationsHook.MarkRead | hooks/use-notifications.tsx:55-60 | Exactly the entries with the id become read. Length, order and every other entry are kept. |
| NotificationsHook.MarkAllRead | hooks/use-notifications.tsx:75-77 | Every entry becomes read, with length and order kept. |
| NotificationsHook.Delete | hooks/use-notifications.tsx:91-93 | Exactly the entries with the id go. Every other entry keeps its count, and the order is kept. |
| NotificationsHook.UnreadCount | hooks/use-notifications.tsx:119-121 | The unread count never exceeds the list length. |
| NotificationsHook.UnreadCountIsFilterLength | hooks/use-notifications.tsx:119-121 | The count equals the length of the list filtered to unread entries. |
| NotificationsHook.MarkReadCount | hooks/use-notifications.tsx:55-60 | Marking one id read lowers the unread count by exactly the unread entries with that id. |
| NotificationsHook.MarkAllReadCount | hooks/use-notifications.tsx:75-77 | After marking all read nothing is unread. |
| NotificationsHook.DeleteCount | hooks/use-notifications.tsx:91-93 | Deleting an id lowers the unread count by exactly the unread entries with that id. |
| NotificationsHook.MutationsAndUnreadCount | hooks/use-notifications.tsx:51-121 | Unacknowledged mutations leave the state. Acknowledged ones have these counts: mark-all and clear give 0, and mark-one and delete subtract the unread entries with that id. |
| NotificationsPage.Filtered | app/notifications/page.tsx:64-75 | Keeps exactly the entries the tab keeps that match the search, with their counts and order. "all" keeps everything, unread and read keep by flag, and any other tab keeps by type. |
| NotificationsPage.ReadTabsPartitionAll | app/notifications/page.tsx:64-75 | For any search, the unread and read tabs split the "all" tab between them. |
| NotificationsPage.EmptySearchShowsAll | app/notifications/page.tsx:64-75 | An empty search on "all" shows every notification. |
| NotificationsPage.SortByDate | app/notifications/page.tsx:78-82 | A permutation of the filtered list, non-increasing by creation time for newest and non-decreasing for oldest. |
| NotificationsPage.ShowsMarkAllIffUnread | app/notifications/page.tsx:239 | The mark-all button is shown exactly when some notification is unread. |
| NotificationsPage.IconFor | app/notifications/page.tsx:157-168 | System, episode and podcast get their own icons; every other type gets the bell. |
| NotificationsPage.FormatDate | app/notifications/page.tsx:171-191 | Minutes are below 60, hours 1 to 23 and days 1 to 6. The date itself is shown only from 559 770 000 ms (about 6.5 days) on, and it is the creation date. |
| NotificationsPage.FormatDateBuckets | app/notifications/page.tsx:171-191 | With rounding at each stage, the minutes bucket is below 59.5 minutes and the hours bucket below 23.5 hours. The days bucket is below 6.5 days, after which the date itself is shown. The numbers shown stay within 0..59, 1..23 and 1..6. |
| NotificationsPage.FormatDateMonotone | app/notifications/page.tsx:171-191 | An older notification never shows a finer unit than a newer one. |
| HistoryHook.Fetch | hooks/use-history.tsx:30-54 | No user: the list empties and loading ends. Otherwise loading ends. A delivery replaces the list. A refusal keeps it with the message or "获取历史记录失败", and a throw with the fixed message. |
| HistoryHook.Mutate | hooks/use-history.tsx:57-176 | A mutation answers true exactly when signed in and acknowledged, and then applies its change. Without a user nothing changes. A refusal sets the message or default, and a throw the fixed message, leaving the list. |
| HistoryHook.SignedOutMakesNoCall | hooks/use-history.tsx:58-138 | Without a user every mutation answers false with the same state, whatever the server would answer. |
| HistoryHook.Remove | hooks/use-history.tsx:64-65 | Exactly the items with the id go. Every other item keeps its count, and the order is kept. |
| HistoryHook.MarkCompleted | hooks/use-history.tsx:144-147 | Exactly the items with the id become completed at progress 100. Length, order and other items are kept. |
| HistoryHook.CompletedCount | app/history/page.tsx:269 | The completed count never exceeds the list length. |
| HistoryHook.MarkCompletedCount | hooks/use-history.tsx:144-147 | Marking completed adds exactly the open items with that id to the completed count. |
| HistoryPage.FilteredHistory | app/history/page.tsx:52-62 | Exactly the items matching title or podcast title, with their counts. Non-increasing by listening time for newest, non-decreasing for oldest. |
| HistoryPage.ToggleSort | app/history/page.tsx:138 | The sort button always flips the order. |
| HistoryPage.TabItems | app/history/page.tsx:65-70 | The completed tab holds only completed items and in-progress only the rest. Any other tab is the filtered list. Each is a subsequence of the filtered list. |
| HistoryPage.TabsPartition | app/history/page.tsx:65-70 | The completed and in-progress tabs split the filtered list, and the completed tab's size is the completed count. |
| HistoryPage.CompletedCountIsFilterLength | app/history/page.tsx:269 | The completed count equals the length of the list filtered to completed items. |
| HistoryPage.TotalHours | app/history/page.tsx:245 | The figure is the floor of the summed seconds (missing counted as 0) divided by 3600. |
| HistoryPage.TotalSecondsOfSubsequence | app/history/page.tsx:245 | Dropping items never raises the summed seconds when none is negative. |
| HistoryPage.HoursAfterMutations | app/history/page.tsx:245 | A removal never raises the hours figure, marking completed keeps it, and clearing gives 0. |
| HistoryPage.MarkCompletedKeepsSeconds | app/history/page.tsx:245 | Marking completed does not change the summed seconds. |
| HistoryPage.MarkedRowsShowNoProgress | app/history/page.tsx:364-394 | After marking an id completed, its rows show neither the progress bar nor the percent. Every other row shows what it showed before. |
| SubscriptionsHook.Fetch | hooks/use-subscriptions.tsx:14-38 | No user: empty and not loading. With a user the loading flag stays raised on every path. A delivery replaces the list. Any other outcome empties it and sets the message or the default. |
| SubscriptionsHook.Subscribe | hooks/use-subscriptions.tsx:41-60 | True exactly when signed in and acknowledged, and then the list is refetched rather than extended. No user: nothing changes. A refusal or throw sets its message. |
| SubscriptionsHook.Drop | hooks/use-subscriptions.tsx:70-71 | Exactly the podcasts with the id go. The others keep their counts, and the order is kept. |
| SubscriptionsHook.Unsubscribe | hooks/use-subscriptions.tsx:63-82 | True exactly when signed in and acknowledged, and then the id is dropped. No user: nothing changes. A refusal or throw sets its message. |
| SubscriptionsHook.SignedOutMakesNoCall | hooks/use-subscriptions.tsx:42-64 | Without a user both mutations answer false with the same state, whatever the server would answer. |
| SubscriptionsHook.UnsubscribeEndsMembership | hooks/use-subscriptions.tsx:85-87 | After an acknowledged unsubscription the id is no longer subscribed, and membership of every other id is unchanged. |
| SubscriptionsPage.ByTitleOrders | app/subscriptions/page.tsx:53-54 | A total, transitive order on titles gives a total, transitive order on podcasts. |
| SubscriptionsPage.SortSubscriptions | app/subscriptions/page.tsx:49-58 | Always a permutation. "recent" orders by numeric id descending, "name" by the title order, and "most-episodes" by episode count (missing as 0) descending. Any other choice keeps the order. |
| SubscriptionsPage.FilteredSubscriptions | app/subscriptions/page.tsx:42-60 | A non-array value gives nothing. Otherwise exactly the podcasts whose title or author matches, with their counts; every element shown matches. |
| SubscriptionsPage.TabList | app/subscriptions/page.tsx:374-383 | A tab shows a subsequence of the list. |
| SubscriptionsPage.KeptStep | app/subscriptions/page.tsx:374-383 | A position adds one to a tab's count exactly when the tab keeps that index. |
| SubscriptionsPage.TabListLength | app/subscriptions/page.tsx:374-383 | Unplayed shows n − ⌈n/3⌉ entries, in-progress ⌈n/4⌉, favorites ⌈n/2⌉, and all n. |
| SubscriptionsPage.FavoritesAreEvenPositions | app/subscriptions/page.tsx:382 | The favorites tab shows exactly the podcasts at even positions, in order. |
| SubscriptionsPage.HandleUnsubscribe | app/subscriptions/page.tsx:65-72 | The marker names the podcast during the call and is cleared afterwards, even on failure. The hook's unsubscription is applied. |
| SubscriptionsPage.OnlyTheUnsubscribedRowIsDisabled | app/subscriptions/page.tsx:454 | During the call exactly the rows with that id are disabled; afterwards none is. |
| LatestEpisodes.Contributions | hooks/use-latest-episodes.tsx:29-31 | Every merged episode comes from some podcast whose answer succeeded with an array. |
| LatestEpisodes.DeliveredEpisodesContribute | hooks/use-latest-episodes.tsx:29-31 | A podcast whose answer succeeded contributes all its episodes. |
| LatestEpisodes.Newest | hooks/use-latest-episodes.tsx:32-37 | The ten newest (or all, when fewer), newest first, drawn from the merged list. |
| LatestEpisodes.NewestKeepsNewest | hooks/use-latest-episodes.tsx:32-37 | No episode left out is newer than an episode kept. |
| LatestEpisodes.Fetch | hooks/use-latest-episodes.tsx:9-46 | Loading always ends. No subscriptions: empty. Any thrown request: the fixed error. Otherwise the newest ten of the successful answers, with no error. |
| LatestEpisodes.NoSubscriptionsNoRequests | hooks/use-latest-episodes.tsx:11-15 | Without subscriptions the result is the same whatever the server would answer. |
| LatestEpisodes.LatestComeFromSuccessfulAnswers | hooks/use-latest-episodes.tsx:29-39 | At most ten episodes are shown, each from a podcast whose answer succeeded with an array. |
| PodcastHook.FetchDetails | hooks/use-podcast.tsx:17-48 | Loading always ends. A failed details call sets its error and keeps the episodes. Delivered details set the podcast. Then delivered episodes replace the list; a refused or thrown episodes call keeps it and sets its error. |
| PodcastHook.NoEpisodesWithoutDetails | hooks/use-podcast.tsx:26-31 | When the details do not arrive, the episodes request is never made: its answer cannot matter. |
| PodcastHook.Mount | hooks/use-podcast.tsx:68-72 | An empty id fetches nothing and stays loading. Any other id fetches, and loading ends. Delivered details become the podcast shown, and delivered episodes after them become the episode list. A failed details request leaves no podcast, no episodes and an error. |
| PodcastHook.MountErrorFreeIffBothDelivered | hooks/use-podcast.tsx:22-72 | Mounted on a podcast, the page shows no error exactly when both the details and the episodes were delivered. |
| PodcastHook.Subscribe | hooks/use-podcast.tsx:51-54 | No user: false and nothing changes. Otherwise true exactly when acknowledged. |
| PodcastHook.Unsubscribe | hooks/use-podcast.tsx:57-60 | No user: false and nothing changes. Otherwise true exactly when acknowledged, and then the podcast is no longer subscribed. |
| ProfileHook.Fetch | hooks/use-profile.ts:48-84 | Loading always ends. No user: only that. A thrown profile call falls back to the user with the fixed error. A refused one falls back with its message, and a delivered one sets the profile. Delivered podcasts replace the list, and a thrown podcasts call sets the fixed error. |
| ProfileHook.FetchShowsServerOrUser | hooks/use-profile.ts:48-84 | With a user, the profile shown is the server's when it was delivered and the podcasts call returned, and the auth user otherwise. |
| ProfileHook.UpdateAfterFetch | hooks/use-profile.ts:60-95 | After a delivered fetch and a delivered update, the profile is the fetched one with the answer merged over it. Every field the answer leaves out keeps its fetched value. |
| ProfileHook.ExposedLoading | hooks/use-profile.ts:125 | The exposed flag is the hook's own loading or the auth hook's. |
| ProfileHook.Merge | hooks/use-profile.ts:95 | Right-biased merge: the keys of both, each taking the response's value when present, else the previous one. |
| ProfileHook.MergeIdempotent | hooks/use-profile.ts:95 | Merging the same response twice gives what merging it once gave. |
| ProfileHook.Update | hooks/use-profile.ts:87-120 | No user: false and nothing changes. True exactly when the call delivers, and then the profile is merged. A failure changes nothing, and the updating flag ends lowered. |
| ProfileHook.UpdateKeepsUnsentFields | hooks/use-profile.ts:94-100 | A successful update takes every field sent and keeps every field not sent. |
| EditProfile.Pick | components/profile/edit-profile-dialog.tsx:35-40 | One entry per listed key, each the source member or "" when falsy. |
| EditProfile.InitialForm | components/profile/edit-profile-dialog.tsx:30-41 | The form has exactly the four text fields and `socialLinks`. Each text field is the profile value when truthy, else "". The links are an object of exactly the four link fields, read the same way. |
| EditProfile.SplitName | components/profile/edit-profile-dialog.tsx:47 | Parent is the text before the first dot. Child is the dot-free start of the rest. |
| EditProfile.IndexMembers | components/profile/edit-profile-dialog.tsx:51 | Spreading an indexed value gives each item under its decimal index key, and no other key. |
| EditProfile.Spread | components/profile/edit-profile-dialog.tsx:51 | Spreading an object gives its members. A string gives its characters and an array its items, under their index keys. A missing member, `null`, a boolean or a number gives nothing. |
| EditProfile.HandleChange | components/profile/edit-profile-dialog.tsx:43-61 | Only one top-level field changes: the named one, or the parent of a dotted name. The child is set inside the parent next to what spreading the old parent gave: its members for an object, its index keys for a string or an array, nothing otherwise. |
| EditProfile.StringParentKeepsCharacters | components/profile/edit-profile-dialog.tsx:46-54 | A dotted name under a string field keeps the string's characters under `"0"`, `"1"`, ... beside the new member. |
| EditProfile.DottedChangeIsLocal | components/profile/edit-profile-dialog.tsx:46-54 | A dotted change sets only that nested child. Siblings and every other top-level field are unchanged. |
| EditProfile.PlainChangeIsLocal | components/profile/edit-profile-dialog.tsx:55-60 | A plain change sets only that top-level field. |
| EditProfile.AfterSubmit | components/profile/edit-profile-dialog.tsx:63-69 | The dialog closes when the save answered true, and otherwise stays as it was. |
| ProfilePage.LoginRedirect | app/profile/page.tsx:40-44 | The page navigates exactly when there is no user once auth has settled, and then to `/login` with no return path. |
| ProfilePage.LogoutLeadsToLogin | app/profile/page.tsx:40-44 | After logout, once auth has settled, the profile page sends the visitor to `/login`. |
| ProfilePage.RecentHistory | app/profile/page.tsx:56 | A missing or null `data`, or `""`, gives `[]`. An array gives its first two records, and a non-empty string its first two characters. Any other value makes the slice throw. |
| ProfilePage.LoadHistory | app/profile/page.tsx:47-66 | Without a user or an acknowledged call the held value is kept. Otherwise it is at most two records or at most two characters, or it is kept. |
| ProfilePage.SyncProfile | app/profile/page.tsx:118-133 | A PUT is sent exactly when there is a user and the profile read delivers, and its payload is the body's `data`. Without it nothing changes. With it the server's answer is merged into the profile hook's profile, or only the updating flag is lowered. |
| ProfilePage.MountWritesBackFetchedProfile | app/profile/page.tsx:118-133 | After the profile hook's own delivered fetch, the page's effect still writes the profile back. When the server echoes the fetched profile, the profile shown stays the fetched one. |
| ProfilePage.LoadFollowing | app/profile/page.tsx:69-88 | A delivered answer replaces the list, and anything else keeps it. |
| ProfilePage.Unfollow | app/profile/page.tsx:90-116 | An acknowledged unfollow removes exactly the entries with the id, keeping order. Anything else keeps the list. |
| ProfilePage.UnfollowAbsentIsNoop | app/profile/page.tsx:90-116 | Unfollowing someone not followed changes nothing. |
| ProfilePage.Initials | app/profile/page.tsx:163 | The first two characters of the username, upper-cased, or "U" when there is none. One or two characters. |
| ProfilePage.InitialsAreUpperCase | app/profile/page.tsx:163 | The initials hold no lower-case ASCII letter. |
| LegacyApi.ListUnder | src/api/index.ts:27-33 | An array body is returned as is, and an object's array under the key is returned. Anything else gives an empty list. |
| LegacyApi.GetPodcasts | src/api/index.ts:18-40 | A rejection gives an empty list, and a body is normalised under `podcasts`. |
| LegacyApi.GetEpisodeTrending | src/api/index.ts:59-81 | A rejection gives an empty list, and a body is normalised under `episodes`. |
| LegacyApi.GetEpisodes | src/api/index.ts:43-57 | A body is returned unchanged, and a rejection gives an empty list. |
| LegacyApi.ListUnderShapes | src/api/index.ts:27-30 | Both shapes the server may use carry the same list, and normalising twice changes nothing. |
| TrendingPodcasts.Adapt | components/TrendingPodcasts.tsx:33-42 | Seven fields are copied as they are. The image is `image` when truthy, else `artwork`. Adapting `null` throws. |
| TrendingPodcasts.AdaptAll | components/TrendingPodcasts.tsx:33-42 | Adapting succeeds exactly when no entry is null, and then gives one adapted entry per item, in order. |
| TrendingPodcasts.FetchData | components/TrendingPodcasts.tsx:27-53 | Loading always ends. A delivered array is adapted. A refusal sets the message or "无法加载热门播客数据". A throw, including the adapter's on non-array data, sets "网络错误，请稍后再试". |
| TrendingPodcasts.FetchShowsAdaptedItems | components/TrendingPodcasts.tsx:27-53 | The list changes only when an array arrived. When every entry adapts, entry i shows item i's id, title and author, and item i's image, or its artwork when the image is falsy. |
| EpisodeLinks.Hyphenate | components/episode-card.tsx:55 | Replacing white-space runs never lengthens the text, leaves no white space, and keeps lower case. |
| EpisodeLinks.HyphenateRun | components/episode-card.tsx:88 | A non-empty white-space run becomes exactly one hyphen. |
| EpisodeLinks.HyphenateAppend | components/episode-card.tsx:55 | When the join point is not inside a white-space run, hyphenating a concatenation hyphenates each side. |
| EpisodeLinks.ReplacesEachRun | components/featured-episode.tsx:36 | A maximal white-space run between two words becomes one hyphen, and each side is hyphenated separately. |
| EpisodeLinks.HyphenateNoSpace | components/featured-episode.tsx:50 | Text without white space is left as it is. |
| EpisodeLinks.Slug | components/episode-card.tsx:55 | A slug is lower case, has no white space, and is no longer than its input. |
| EpisodeLinks.SlugIdempotent | components/featured-episode.tsx:36 | Slugging a slug changes nothing. |
| EpisodeLinks.EpisodeHref | components/episode-card.tsx:66 | `/episode/` followed by exactly the id. |
| EpisodeLinks.EpisodeHrefInjective | components/featured-episode.tsx:43 | Different episodes get different links. |
| EpisodeLinks.CategoryHref | components/episode-card.tsx:55 | The link is `/category/` plus a segment that is lower case, has no white space, and is no longer than the category. |
| EpisodeLinks.AuthorHref | components/episode-card.tsx:88 | The link is `/author/` plus a segment that is lower case, has no white space, and is no longer than the author. |
| EpisodeLinks.CategoryHrefIgnoresCaseAndRuns | components/featured-episode.tsx:36 | Two categories that differ only in letter case and in the length of a white-space run get the same link. |
| EpisodeLinks.NewCard | components/episode-card.tsx:37-38 | Favorite starts at the prop, and bookmark starts false. |
| EpisodeLinks.ToggleFavorite | components/episode-card.tsx:107 | The favorite flag flips and the bookmark is kept. |
| EpisodeLinks.ToggleBookmark | components/episode-card.tsx:124 | The bookmark flag flips and the favorite is kept. |
| EpisodeLinks.CardTogglesCommute | components/episode-card.tsx:107-124 | Each toggle undoes itself, and the two commute. |
| PodcastLayout.IsActive | components/podcast-layout.tsx:38-42 | A link is active only on a path that starts with its own. The home link is inactive everywhere but `/`. |
| PodcastLayout.HomeActiveOnlyAtHome | components/podcast-layout.tsx:39 | The home link is active exactly on `/`. |
| PodcastLayout.ActiveBelowItsPath | components/podcast-layout.tsx:40 | Any other link is active on its own path and everything below it. |
| PodcastLayout.HomePageHighlightsOnlyHome | components/podcast-layout.tsx:38-42 | On `/`, no non-empty link other than home is active. |
| PodcastLayout.HandleSearch | components/podcast-layout.tsx:44-51 | A blank query does nothing. Otherwise the box empties and closes, and the page goes to `/search?q=` plus the encoded trimmed query. |
| PodcastLayout.SecondSubmitIsIgnored | components/podcast-layout.tsx:44-51 | After one search has been sent, submitting again sends nothing. |
| CategoryFilter.HighlightCount | components/category-filter.tsx:85 | The number of highlighted buttons never exceeds the number of categories. |
| CategoryFilter.OneHighlighted | components/category-filter.tsx:85 | In a list without repeats, exactly one button lights up when the selection is listed, and none otherwise. |
| CategoryFilter.StripHighlightsAtMostOne | components/category-filter.tsx:22-38 | The strip's own list has no repeats, so at most one of its buttons lights up. |
| CategoryFilter.HandleScroll | components/category-filter.tsx:42-59 | Without the container nothing moves. Left goes to max(0, pos−200), right to pos+200, and the container is told the new position. |
| CategoryFilter.ScrollStaysOnGrid | components/category-filter.tsx:42-59 | From the left edge, the position is never negative and always a multiple of 200. |
| CategoryFilter.ArrowsUndoEachOther | components/category-filter.tsx:46-52 | Right then left restores any non-negative position. Left then right restores any position at least 200. |
| CategoryFilter.LeftAtEdgeThenRight | components/category-filter.tsx:46-52 | Within one step of the edge, left then right lands at 200, not where it started. |
| NotificationBadge.Count | components/notification-badge.tsx:16-22 | Signed out the count is 0, and it never exceeds the list length. |
| NotificationBadge.Label | components/notification-badge.tsx:34 | Counts up to 9 show one digit that reads back as the count; above 9 the label is "9+". |
| NotificationBadge.LabelCollapsesAboveNine | components/notification-badge.tsx:34 | Two counts share a label exactly when they are equal or both above nine. |
| NotificationBadge.Render | components/notification-badge.tsx:24-34 | Nothing is rendered exactly when signed out. The bell shows a badge exactly when something is unread, labelled with the unread count. |
| NotificationBadge.UnreadSomewhere | hooks/use-notifications.tsx:119-121 | The unread count is positive exactly when some notification is unread. |
| NotificationBadge.BadgeShowsFetchedUnread | components/notification-badge.tsx:13-34 | Once the badge's own hook instance fetches a list, the bell carries a badge exactly when some delivered notification is unread. |
| NotificationBadge.PageMarkAllLeavesBadge | components/notification-badge.tsx:13-22 | The page and the badge hold separate hook instances. For any two lists, an acknowledged mark-all on the page empties the page's unread count. A badge whose own list has an unread notification still shows the label of its own positive count. |
| ProtectedRoute.VerdictOf | lib/api.ts:227-234 | The token check says valid exactly when a token is stored. |
| ProtectedRoute.Render | components/protected-route.tsx:46-58 | The protected page shows exactly when auth is not loading and no check is pending; otherwise a spinner. |
| ProtectedRoute.ValidateSessionAsWritten | components/protected-route.tsx:17-43 | No user after loading: the login redirect, with the pending flag left as it was. With a user the flag is always lowered, and a redirect is asked for exactly when the verdict is not valid. |
| ProtectedRoute.InvalidTokenRendersChildren | components/protected-route.tsx:29-39 | As written, a user with a rejected or crashed check gets the redirect and an open gate at once. |
| ProtectedRoute.SignedOutVisitorSeesChildren | components/protected-route.tsx:20-39 | As written, a page load that starts with auth loading and then settles signed out asks for the login redirect with the gate already open. |
| ProtectedRoute.SignedOutVisitorIsHeld | components/protected-route.tsx:20-39 | The same page load with the intended guard asks for the redirect and keeps the spinner. |
| ProtectedRoute.ValidateSession | components/protected-route.tsx:17-43 | As intended: the same redirects as written. The pending flag is lowered exactly when a user's token was judged valid. |
| ProtectedRoute.ChildrenExactlyForValidSession | components/protected-route.tsx:17-58 | After any sequence of effect runs, from any flag, the intended guard shows the page exactly when the last run saw a loaded user with a valid token. It never shows the page while a redirect is pending. |
| ProtectedRoute.LoggedOutTokenRedirects | components/protected-route.tsx:26-36 | After logout a remaining user's page is sent to login: the emptied store gives no valid verdict. |
| FormRules.MinLength | components/auth/register-form.tsx:19-21 | No issue exactly when the value is long enough; otherwise issues on that field with that message. |
| FormRules.Refine | components/auth/register-form.tsx:33-36 | No issue exactly when the condition holds; otherwise an issue on the named field. |
| FormRules.OnMembers | components/auth/register-form.tsx:33-36 | A message shows under a field exactly when an issue carries it there. |
| FormRules.OnAppend | components/auth/register-form.tsx:17-36 | The messages of two issue lists, field by field, are the first's followed by the second's. |
| FormRules.Settle | components/auth/register-form.tsx:56-81 | Loading always ends. Navigation happens exactly on a resolved true, to the target, with no alert. Resolved false alerts the hook error or the fallback, and a throw alerts the fixed message. |
| FormRules.NavigatesOrAlerts | components/auth/login-form.tsx:48-75 | Exactly one of the two happens: the form navigates, or it shows a non-empty alert. |
| FormRules.SettleAsWritten | components/auth/register-form.tsx:74 | As written, a failed call alerts the error from the render the submit began in. |
| FormRules.StaleErrorHidesServerReason | components/auth/register-form.tsx:74 | As written, a refused registration carrying "用户名已存在" alerts the fixed fallback, while the hook holds the server's reason. The intended version alerts the reason. |
| FormRules.SettleWithOutcome | components/auth/register-form.tsx:74 | As intended, a failed call alerts the error the hook recorded for this call, or the fallback. |
| FormRules.SettleShowsHookReason | components/auth/login-form.tsx:68 | The intended alert for a refused call is the server's message, or the hook's default. |
| RegisterForm.Validate | components/auth/register-form.tsx:17-36 | Valid exactly when the username has at least 2 characters, the email is valid, the password at least 6, the terms are accepted and the passwords match. |
| RegisterForm.IssuesByField | components/auth/register-form.tsx:19-36 | Under username, password and confirmPassword appear exactly their own messages, and the mismatch shows under confirmPassword. |
| RegisterForm.FieldIssues | components/auth/register-form.tsx:17-36 | The messages under any field are the concatenation of the five checks' messages for it. |
| RegisterForm.DefaultsAreRejected | components/auth/register-form.tsx:47-53 | The empty default form never validates. |
| RegisterForm.HandleSubmit | components/auth/register-form.tsx:56-81 | Submission happens exactly for valid values, and settles with "/" as target and the register messages. |
| RegisterForm.GoesHomeExactlyOnRegistration | components/auth/register-form.tsx:66-72 | Valid values go home exactly when the register call delivers a user, and loading ends. |
| LoginForm.Validate | components/auth/login-form.tsx:18-26 | Valid exactly when the username has at least 2 characters and the password at least 6. |
| LoginForm.IssuesByField | components/auth/login-form.tsx:19-24 | Username and password each show exactly their own message when too short. |
| LoginForm.RedirectTarget | components/auth/login-form.tsx:37 | The redirect parameter when non-empty, else "/". Never empty. |
| LoginForm.HandleSubmit | components/auth/login-form.tsx:48-75 | Submission happens exactly for valid values, and settles with the redirect target and the login messages. |
| LoginForm.RememberMeIsIgnored | components/auth/login-form.tsx:54 | Remember-me never changes what a submit does. |
| LoginForm.ReturnsExactlyOnLogin | components/auth/login-form.tsx:54-66 | Valid values navigate exactly when the login call delivers a user, to the redirect or "/". |
| ResetPasswordForm.Validate | components/auth/reset-password-form.tsx:14-24 | Valid exactly when the password has at least 6 characters and both entries match. |
| ResetPasswordForm.IssuesByField | components/auth/reset-password-form.tsx:16-24 | The password and confirmation fields show exactly their own message, and the mismatch shows under the confirmation. |
| ResetPasswordForm.HandleSubmit | components/auth/reset-password-form.tsx:39-61 | Submission happens exactly for valid values. It reports success and goes to `/login` with loading ended and no alert. |
| ResetPasswordForm.MatchingPasswordsGoToLogin | components/auth/reset-password-form.tsx:51 | Any matching password of at least 6 characters leads to the login page. |

## Left out

**Rendering and I/O**
- JSX, CSS classes, icons, toasts and console logging: these are presentation only.
- `fetch`, axios, `localStorage` and `router.push`: the network is the `Call`/`Http`/`Transport` input. Storage is a map value, and navigation is a returned path.
- `JSON.parse`, `JSON.stringify`, `encodeURIComponent`, `Number(id)`, `localeCompare`, date parsing, the zod email check and `toLocaleDateString`: these are function parameters, with no behaviour invented for them.

**Numbers, dates and text**
- Floating point: the volume is a whole percentage and the playback rates are hundredths.
  - A seek value or a duration is a whole number of seconds, so `Math.floor` in `formatTime` is the identity.
  - Dates are integer millisecond timestamps.
- Case conversion covers ASCII letters only.
- A string length counts characters, where JavaScript counts UTF-16 code units. This matters for zod's `min`.

**Asynchrony and timing**
- Concurrency, interleaved responses, late responses after unmount, and the simulated delays are not modelled.
  - Each handler is modelled as one atomic step.
  - The stale-state effects of the same-render closures are modelled only where they are findings (below).
- The `setTimeout` around `handleQuickSearch` and the filter changes is not modelled.
- `SearchDialog`: the quick search of trending terms is not modelled. It sets the query and then searches from a closure that still sees the old query.

**Operations not modelled**
- The rewind and forward buttons of the player have no handler, so there is nothing to model.
- `app/history/page.tsx` episode count (`history.length`) and its per-row processing marker: the count is the list length, and the marker is a presentation flag.
- The card hover state: presentation only.
- The layout's scroll listener: presentation only.
- `Object.values` ordering of `categories`: the categories are an ordered list, and the first of them is taken.
- `hooks/use-latest-episodes.tsx` filtering `undefined` out of the merged list: the model's episodes are never undefined, so the filter keeps everything.
- What the server does with the profile the page writes back on mount: `ProfilePage.SyncProfile` records the payload it sends, and the server's answer is a separate input, because the server is not part of this model.
- The catch branch of `components/auth/reset-password-form.tsx`: the simulated request never throws, so the branch is dead.
- The forgot-password form: its only rule is the zod email check.
- `isAuthenticated` (used by notifications and the badge) and the search hook's `searchAll`, `searchEpisodes`, `searchCreators`, `episodeResults`, `creatorResults` and `.feeds`: use-auth and use-search do not provide them. They are free inputs, and the search requests are a `Request` value. The model treats a `searchAll` call as returning normally. As written, `searchAll` is `undefined`, so any non-blank `?q=` makes the search page's mount effect throw at app/search/page.tsx:79, before line 59 adds the query to the history. The two search-page findings below hold only when `searchAll` is provided.

**Weaker contracts**
- EpisodeLinks.CategoryHref: states only that the segment after `/category/` is lower case, free of white space and no longer than the category. What that segment is exactly follows from `EpisodeLinks.ReplacesEachRun`, `EpisodeLinks.HyphenateAppend` and `EpisodeLinks.CategoryHrefIgnoresCaseAndRuns`.
- EpisodeLinks.AuthorHref: states the same three facts for the author segment, for the same reason.
- ProfilePage.LoadHistory: states the two-record or two-character bound and the no-change cases. What is stored exactly is stated by `ProfilePage.RecentHistory`.

## Findings

| source | as written | input that shows it | evidently intended | confidence | as-written member | corrected member |
|---|---|---|---|---|---|---|
| app/search/page.tsx:117-122 | `handleTabChange` sets the tab, then calls `performSearch`. `performSearch` switches on the `activeTab` of the same render, so it still holds the old tab. | URL `?q=x`, tab "all", the user picks "podcasts": `searchAll` runs instead of the podcast search. This assumes `searchAll` is provided and returns normally. As written, hooks/use-search.tsx provides no `searchAll`, so on any non-blank `?q=` the mount effect throws at line 79 and the page is never shown to change tab. | The search runs for the tab just chosen. | not executed | SearchPage.TabChangeAsWritten | SearchPage.TabChange |
| components/search/search-dialog.tsx:123-128 | The same stale tab in the dialog's `handleTabChange`. | After searching podcasts for "x", the user picks "episodes": the podcast search runs again. | The search runs for the new tab, and episodes searches nothing. | not executed | SearchDialog.TabChangeAsWritten | SearchDialog.TabChange |
| app/search/page.tsx:45-64 | Both mount effects run after the first render. The URL-query effect's `addToSearchHistory` sees that render's empty history and writes `[q]` over the stored list. | Storage holds `["a"]`, and the page opens on `?q=b`: the history becomes `["b"]`. This assumes `searchAll` is provided and returns normally. As written, hooks/use-search.tsx provides no `searchAll`, so the effect throws at line 79, before `addToSearchHistory` at line 59, and storage keeps `["a"]`. | `["b", "a"]`: the query is added in front of the stored history. | not executed | SearchPage.MountEffectsAsWritten | SearchPage.MountEffects |
| components/protected-route.tsx:20-39 | `isValidating` is lowered on every path except the signed-out early return. For a user whose token is rejected (or whose check throws), the route asks for the login redirect and opens the gate. A visitor who is signed out gets the same: the run while auth loads falls through and lowers the flag, and the next run redirects with the flag already down. | A user present, auth loaded, `validateToken` false: the redirect is requested and the children are rendered. Or no user: the first run with auth loading, then auth settles, and the redirect is requested with the children rendered. | Children render only for a valid session, as the comment over the final render says. | not executed | ProtectedRoute.ValidateSessionAsWritten | ProtectedRoute.ValidateSession |
| components/auth/register-form.tsx:74 | The failure alert reads `error` from the hook value captured when the submit began. The error the failed call just recorded is not visible yet. The same happens in `components/auth/login-form.tsx` at line 68. | A registration refused with the message "用户名已存在" alerts the fixed "注册失败，请稍后再试。". | The alert shows the server's reason recorded by the hook for this call. | not executed | FormRules.SettleAsWritten | FormRules.SettleWithOutcome |

The two sign-in forms call the shared `FormRules.Settle` with the hook error as an input, so either reading can be plugged in. The lemmas that exhibit each finding are:
- `SearchPage.TabChangeUsesOldTab`
- `SearchDialog.TabChangeUsesOldTab`
- `SearchPage.MountForgetsStoredHistory`
- `ProtectedRoute.InvalidTokenRendersChildren` and `ProtectedRoute.SignedOutVisitorSeesChildren`
- `FormRules.StaleErrorHidesServerReason`

=== FILE: api_client.dfy ===
/** The REST client of lib/api.ts: request headers, the response envelope
    `{success, data?, message?, token?}`, the bearer-token slot in browser
    storage, and the table of endpoints. The network is an input: each call
    is given what the server answered (or that the transport failed). */
module ApiClient {
  import opened Common

  const BaseUrl := "http://127.0.0.1:5000"
  /** The browser-storage key of the bearer token. */
  const TokenKey := "podcasthub-token"
  const RequestFailed := "请求失败"
  const NetworkError := "网络错误，请稍后再试"

  /** The envelope every client method resolves to. */
  datatype Response<T> = Response(success: bool, data: Option<T>, message: Option<string>, token: Option<string>)

  /** What a hook observes when it awaits a client method: the envelope, or a thrown error. */
  datatype Call<T> = Returned(response: Response<T>) | Threw

  /** A podcast as the API returns it; `categories` are the values of its
      category map in order, and `episodeCount` is absent when not sent. */
  datatype Podcast = Podcast(
    id: string,
    title: string,
    description: string,
    image: string,
    author: string,
    categories: seq<string>,
    episodeCount: Option<int>)

  /** An episode as the API returns it; `datePublished` is a timestamp (0 when
      missing) and `datePublishedPretty` its display form. */
  datatype Episode = Episode(
    id: string,
    title: string,
    description: string,
    audioUrl: string,
    image: string,
    datePublished: int,
    datePublishedPretty: string,
    duration: int,
    podcastId: string)

  /** `response.success && response.data`: the call succeeded and carried a payload. */
  predicate Delivers<T>(c: Call<T>) {
    c.Returned? && c.response.success && c.response.data.Some?
  }

  /** `response.success`. */
  predicate Acknowledged<T>(c: Call<T>) {
    c.Returned? && c.response.success
  }

  /** `response.message || fallback` for a call that returned. */
  function MessageOr<T>(c: Call<T>, fallback: string): string
    requires c.Returned?
  {
    OrElse(c.response.message, fallback)
  }

  /** The token slot in browser storage (`null` when absent). */
  type TokenStore = Option<string>

  datatype Headers = Headers(contentType: string, authorization: Option<string>)

  /** `getHeaders(includeAuth)`. */
  function GetHeaders(store: TokenStore, includeAuth: bool): (h: Headers)
    ensures h.contentType == "application/json"
    ensures h.authorization.Some? <==> includeAuth && Truthy(store)
    ensures h.authorization.Some? ==> h.authorization.value == "Bearer " + store.value
  {
    var auth := if includeAuth && Truthy(store) then Some("Bearer " + store.value) else None;
    Headers("application/json", auth)
  }

  /** A JSON response body: its `message` and `token` members (when strings) and the rest. */
  datatype Body<P> = Body(message: Option<string>, token: Option<string>, payload: P)

  /** What the network did with a request: an HTTP reply with a JSON body, a reply
      whose body is not JSON (`response.json()` rejects), or a transport failure. */
  datatype Http<P> = Reply(ok: bool, body: Body<P>) | Unreadable | TransportFailure

  datatype Request = Request(url: string, verb: string, headers: Headers, body: Option<Record>)

  /** One round trip: the request sent, the envelope returned, and the token slot afterwards. */
  datatype Exchange<P> = Exchange(request: Request, response: Response<Body<P>>, store: TokenStore)

  /** `fetchApi(endpoint, method, body, includeAuth)`. */
  function FetchApi<P>(store: TokenStore, endpoint: string, verb: string, body: Option<Record>,
                       includeAuth: bool, http: Http<P>): (x: Exchange<P>)
    ensures x.request == Request(BaseUrl + endpoint, verb, GetHeaders(store, includeAuth), body)
    // a non-ok reply fails with the server's message or the default, and never stores a token
    ensures http.Reply? && !http.ok ==>
      && !x.response.success && x.response.data.None? && x.response.token.None?
      && x.response.message == Some(OrElse(http.body.message, RequestFailed))
      && x.store == store
    // an ok reply succeeds, carries the whole body, and keeps its token if it has one
    ensures http.Reply? && http.ok ==>
      && x.response == Response(true, Some(http.body), http.body.message, http.body.token)
      && (Truthy(http.body.token) ==> x.store == http.body.token)
      && (!Truthy(http.body.token) ==> x.store == store)
    // anything thrown becomes the network-error envelope; storage is untouched
    ensures !http.Reply? ==>
      && x.response == Response(false, None, Some(NetworkError), None)
      && x.store == store
  {
    var request := Request(BaseUrl + endpoint, verb, GetHeaders(store, includeAuth), body);
    match http
    case Reply(ok, b) =>
      if !ok then
        Exchange(request, Response(false, None, Some(OrElse(b.message, RequestFailed)), None), store)
      else
        var store' := if Truthy(b.token) then b.token else store;
        Exchange(request, Response(true, Some(b), b.message, b.token), store')
    case _ =>
      Exchange(request, Response(false, None, Some(NetworkError), None), store)
  }

  /** The client's methods. */
  datatype Endpoint =
    | Register(username: string, email: string, password: string)
    | Login(username: string, password: string)
    | Subscriptions
    | Subscribe(podcastId: string)
    | Unsubscribe(podcastId: string)
    | Trending
    | PodcastEpisodes(feedId: string)
    | Search(query: string)
    | PodcastDetails(podcastId: string)
    | ListeningHistory
    | RemoveFromHistory(itemId: string)
    | ClearHistory
    | MarkHistoryItemCompleted(itemId: string)
    | Notifications
    | MarkNotificationAsRead(notificationId: string)
    | MarkAllNotificationsAsRead
    | DeleteNotification(notificationId: string)
    | ClearAllNotifications
    | UserProfile(userId: string)
    | UpdateUserProfile(userId: string, profile: Record)
    | UserPodcasts(userId: string)
    | UserFollowers(userId: string)
    | UserFollowing(userId: string)
    | FollowUser(userId: string)
    | UnfollowUser(userId: string)
  {
    /** The methods that call `fetchApi` with `includeAuth = false`. */
    predicate Public() {
      Register? || Login? || Trending? || PodcastEpisodes? || Search? || PodcastDetails?
    }
  }

  datatype Route = Route(path: string, verb: string, body: Option<Record>, includeAuth: bool)

  function One(key: string, value: string): Record {
    map[key := JStr(value)]
  }

  /** Path, method, JSON body and authorization flag of each method;
      `encode` stands for `encodeURIComponent`. */
  function RouteOf(e: Endpoint, encode: string -> string): (r: Route)
    ensures r.includeAuth <==> !e.Public()
    ensures r.verb == "GET" ==> r.body.None?
  {
    match e
    case Register(u, m, p) =>
      Route("/api/register", "POST", Some(map["username" := JStr(u), "email" := JStr(m), "password" := JStr(p)]), false)
    case Login(u, p) => Route("/api/login", "POST", Some(map["username" := JStr(u), "password" := JStr(p)]), false)
    case Subscriptions => Route("/api/subscriptions", "GET", None, true)
    case Subscribe(id) => Route("/api/subscribe", "POST", Some(One("podcast_id", id)), true)
    case Unsubscribe(id) => Route("/api/unsubscribe", "POST", Some(One("podcast_id", id)), true)
    case Trending => Route("/api/trending", "GET", None, false)
    case PodcastEpisodes(f) => Route("/api/podcasts/" + f, "GET", None, false)
    case Search(q) => Route("/api/search?q=" + encode(q), "GET", None, false)
    case PodcastDetails(id) => Route("/api/podcast_detail/" + id, "GET", None, false)
    case ListeningHistory => Route("/api/history", "GET", None, true)
    case RemoveFromHistory(id) => Route("/api/history/remove", "POST", Some(One("item_id", id)), true)
    case ClearHistory => Route("/api/history/clear", "POST", None, true)
    case MarkHistoryItemCompleted(id) => Route("/api/history/complete", "POST", Some(One("item_id", id)), true)
    case Notifications => Route("/api/notifications", "GET", None, true)
    case MarkNotificationAsRead(id) =>
      Route("/api/notifications/read", "POST", Some(One("notification_id", id)), true)
    case MarkAllNotificationsAsRead => Route("/api/notifications/read-all", "POST", None, true)
    case DeleteNotification(id) =>
      Route("/api/notifications/delete", "POST", Some(One("notification_id", id)), true)
    case ClearAllNotifications => Route("/api/notifications/clear", "POST", None, true)
    case UserProfile(u) => Route("/api/users/" + u + "/profile", "GET", None, true)
    case UpdateUserProfile(u, p) => Route("/api/users/" + u + "/profile", "PUT", Some(p), true)
    case UserPodcasts(u) => Route("/api/users/" + u + "/podcasts", "GET", None, true)
    case UserFollowers(u) => Route("/api/users/" + u + "/followers", "GET", None, true)
    case UserFollowing(u) => Route("/api/users/" + u + "/following", "GET", None, true)
    case FollowUser(u) => Route("/api/users/" + u + "/follow", "POST", None, true)
    case UnfollowUser(u) => Route("/api/users/" + u + "/unfollow", "POST", None, true)
  }

  /** Calls a client method. */
  function Send<P>(store: TokenStore, e: Endpoint, encode: string -> string, http: Http<P>): Exchange<P> {
    var r := RouteOf(e, encode);
    FetchApi(store, r.path, r.verb, r.body, r.includeAuth, http)
  }

  /** The bearer token goes out exactly on the non-public methods, and only
      when a token is stored; login and registration never carry it. */
  lemma AuthorizationPolicy<P>(store: TokenStore, e: Endpoint, encode: string -> string, http: Http<P>)
    ensures Send(store, e, encode, http).request.headers.authorization.Some?
            <==> !e.Public() && Truthy(store)
    ensures (e.Login? || e.Register?) ==> Send(store, e, encode, http).request.headers.authorization.None?
  {
  }

  /** `logout()`: the token slot is emptied. */
  function Logout(store: TokenStore): (r: TokenStore)
    ensures !Truthy(r)
  {
    None
  }

  /** `validateToken()`: only checks that a token is stored. */
  predicate ValidateToken(store: TokenStore) {
    Truthy(store)
  }

  /** After logout the session no longer validates, and no request carries a token. */
  lemma LogoutInvalidates<P>(store: TokenStore, e: Endpoint, encode: string -> string, http: Http<P>)
    ensures !ValidateToken(Logout(store))
    ensures Send(Logout(store), e, encode, http).request.headers.authorization.None?
  {
  }

  /** Only a successful reply that carries a token can change the token
      slot, and a stored token is never cleared by a request. */
  lemma TokenStoreOnlyGrows<P>(store: TokenStore, e: Endpoint, encode: string -> string, http: Http<P>)
    ensures var x := Send(store, e, encode, http);
            (x.store != store ==> x.response.success && Truthy(x.response.token) && x.store == x.response.token)
            && (ValidateToken(store) ==> ValidateToken(x.store))
  {
  }
}

=== FILE: audio_player.dfy ===
/** The audio player of components/audio-player.tsx: pure state with no media
    element behind it. Times are whole seconds, the volume is a percentage and
    the playback rate is kept in hundredths. */
module AudioPlayer {
  import opened Common
  import opened Text

  /** The slider's maximum and the shown duration while the duration is still 0. */
  const FallbackDuration := 2732
  /** The rate menu, in hundredths: 0.5x to 2x. */
  const Rates: seq<int> := [50, 75, 100, 125, 150, 175, 200]

  /** The seconds field of `formatTime`: two digits, zero-padded. */
  function Pad(s: nat): (r: string)
    requires s < 60
    ensures |r| == 2 && AllDigits(r)
    ensures ParseDigits(r) == s
  {
    var digits := NatToString(s);
    ParseNatToString(s);
    if s < 10 then
      assert digits == [DigitChar(s)];
      var r := "0" + digits;
      assert r[..1] == "0";
      r
    else
      assert NatToString(s / 10) == [DigitChar(s / 10)];
      digits
  }

  /** `formatTime(t)`: whole minutes, a colon, and the seconds padded to two digits. */
  function FormatTime(t: nat): (r: string)
    ensures |r| >= 4 && r[|r| - 3] == ':'
    ensures AllDigits(r[..|r| - 3]) && AllDigits(r[|r| - 2..])
  {
    NatToString(t / 60) + ":" + Pad(t % 60)
  }

  /** Reads `m:ss` back: the digits before the first colon as minutes and the rest as seconds. */
  function ParseTime(s: string): (r: Option<nat>)
  {
    if ':' !in s then None
    else
      var i := IndexOf(s, ':');
      if AllDigits(s[..i]) && AllDigits(s[i + 1..]) then Some(ParseDigits(s[..i]) * 60 + ParseDigits(s[i + 1..]))
      else None
  }

  /** `formatTime` loses nothing: reading its text back gives the time. */
  lemma FormatTimeRoundTrip(t: nat)
    ensures ParseTime(FormatTime(t)) == Some(t)
  {
    var m, sec := NatToString(t / 60), Pad(t % 60);
    assert FormatTime(t) == m + [':'] + sec;
    ColonAfterDigits(m, sec);
    ParseNatToString(t / 60);
  }

  /** In `digits:rest` the first colon is the one after the digits. */
  lemma ColonAfterDigits(digits: string, rest: string)
    requires AllDigits(digits)
    ensures var s := digits + [':'] + rest;
            ':' in s && IndexOf(s, ':') == |digits| && s[..|digits|] == digits && s[|digits| + 1..] == rest
  {
    var s := digits + [':'] + rest;
    assert s[|digits|] == ':';
    assert forall k :: 0 <= k < |digits| ==> s[k] == digits[k];
  }

  /** Two different times never show the same text. */
  lemma FormatTimeInjective(t: nat, u: nat)
    requires FormatTime(t) == FormatTime(u)
    ensures t == u
  {
    FormatTimeRoundTrip(t);
    FormatTimeRoundTrip(u);
  }

  datatype VolumeIcon = Muted | Low | High

  /** `getVolumeIcon()` on the percentage: muted at 0, low below 50, high otherwise. */
  function IconFor(volume: int): (icon: VolumeIcon)
    ensures icon == Muted <==> volume == 0
    ensures icon == Low <==> volume != 0 && volume < 50
    ensures icon == High <==> volume != 0 && volume >= 50
  {
    if volume == 0 then Muted else if volume < 50 then Low else High
  }

  datatype Player = Player(
    isPlaying: bool,
    currentTime: nat,
    duration: nat,
    volume: int,
    speed: int,
    isFullscreen: bool,
    isFavorite: bool)

  const Initial := Player(false, 0, 0, 70, 100, false, false)

  /** `duration || 2732`: the seek slider's maximum and the total shown. */
  function ShownDuration(p: Player): (d: nat)
    ensures d > 0
    ensures p.duration != 0 ==> d == p.duration
  {
    if p.duration == 0 then FallbackDuration else p.duration
  }

  /** What the controls can do: the three toggles, a seek, a volume move and a rate choice. */
  datatype Control =
    | TogglePlay
    | ToggleFavorite
    | ToggleFullscreen
    | Seek(time: nat)
    | SetVolume(percent: int)
    | SetSpeed(index: nat)

  /** The values the sliders and the menu can emit: a volume in 0..100, a rate from the menu. */
  predicate Emitted(c: Control) {
    match c
    case SetVolume(v) => 0 <= v <= 100
    case SetSpeed(i) => i < |Rates|
    case _ => true
  }

  /** The volume stays a percentage and the rate one of the menu's. */
  predicate Valid(p: Player) {
    0 <= p.volume <= 100 && p.speed in Rates
  }

  /** One control used: it keeps the player valid, each flag flips exactly
      under its own toggle, and every other field moves only under its own
      control, to the value that control emitted. */
  function Step(p: Player, c: Control): (r: Player)
    requires Emitted(c)
    ensures Valid(p) ==> Valid(r)
    ensures r.duration == p.duration
    ensures r.isPlaying != p.isPlaying <==> c.TogglePlay?
    ensures r.isFavorite != p.isFavorite <==> c.ToggleFavorite?
    ensures r.isFullscreen != p.isFullscreen <==> c.ToggleFullscreen?
    ensures !c.Seek? ==> r.currentTime == p.currentTime
    ensures c.Seek? ==> r.currentTime == c.time
    ensures !c.SetVolume? ==> r.volume == p.volume
    ensures c.SetVolume? ==> r.volume == c.percent && 0 <= r.volume <= 100
    ensures !c.SetSpeed? ==> r.speed == p.speed
    ensures c.SetSpeed? ==> r.speed == Rates[c.index] && r.speed in Rates
  {
    match c
    case TogglePlay => p.(isPlaying := !p.isPlaying)
    case ToggleFavorite => p.(isFavorite := !p.isFavorite)
    case ToggleFullscreen => p.(isFullscreen := !p.isFullscreen)
    case Seek(t) => p.(currentTime := t)
    case SetVolume(v) => p.(volume := v)
    case SetSpeed(i) => p.(speed := Rates[i])
  }

  /** Each toggle undoes itself. */
  lemma TogglesAreInvolutions(p: Player)
    ensures Step(Step(p, TogglePlay), TogglePlay) == p
    ensures Step(Step(p, ToggleFavorite), ToggleFavorite) == p
    ensures Step(Step(p, ToggleFullscreen), ToggleFullscreen) == p
  {
  }

  /** A run of controls. */
  function Run(p: Player, cs: seq<Control>): Player
    requires forall i :: 0 <= i < |cs| ==> Emitted(cs[i])
    decreases |cs|
  {
    if cs == [] then p else Run(Step(p, cs[0]), cs[1..])
  }

  /** From the first render on, whatever the listener does, the volume stays in
      0..100 and the rate stays one the menu offers. */
  lemma {:induction false} RunKeepsValid(p: Player, cs: seq<Control>)
    requires Valid(p)
    requires forall i :: 0 <= i < |cs| ==> Emitted(cs[i])
    ensures Valid(Run(p, cs))
    decreases |cs|
  {
    if cs != [] {
      RunKeepsValid(Step(p, cs[0]), cs[1..]);
    }
  }

  /** The volume slider shows the volume it last set. */
  lemma VolumeSliderRoundTrip(p: Player, v: int)
    requires 0 <= v <= 100
    ensures Step(p, SetVolume(v)).volume == v
    ensures IconFor(Step(p, SetVolume(v)).volume) == Muted <==> v == 0
  {
  }
}

=== FILE: auth_hook.dfy ===
/** The auth provider of hooks/use-auth.tsx: restoring the stored user at
    startup, login and register (which persist the user), logout, and the
    `useAuth` guard. */
module AuthHook {
  import opened Common
  import opened ApiClient

  /** The browser-storage key of the serialised user. */
  const UserKey := "podcasthub-user"
  const LoginFailed := "登录失败"
  const LoginCrashed := "登录过程中发生错误"
  const RegisterFailed := "注册失败"
  const RegisterCrashed := "注册过程中发生错误"
  const OutsideProvider := "useAuth must be used within an AuthProvider"

  type User = Record

  datatype State = State(user: Option<User>, isLoading: bool, error: Option<string>)

  const Initial := State(None, true, None)

  /** The two storage slots the provider touches: the client's token and the serialised user. */
  datatype Browser = Browser(token: TokenStore, storedUser: Option<string>)

  /** `checkAuth()` at startup. `parse` is `JSON.parse` (absent when it throws,
      which the provider swallows). */
  function CheckAuth(s: State, b: Browser, parse: string -> Option<User>): (r: State)
    ensures !r.isLoading && r.error == s.error
    ensures r.user != s.user ==>
              ValidateToken(b.token) && Truthy(b.storedUser) && r.user == parse(b.storedUser.value)
    ensures ValidateToken(b.token) && Truthy(b.storedUser) && parse(b.storedUser.value).Some? ==>
              r.user == parse(b.storedUser.value)
  {
    var restored :=
      if ValidateToken(b.token) && Truthy(b.storedUser) then
        match parse(b.storedUser.value)
        case Some(u) => s.(user := Some(u))
        case None => s
      else s;
    restored.(isLoading := false)
  }

  datatype Outcome = Outcome(state: State, browser: Browser, ok: bool)

  /** The token slot after the client answered `call`: `fetchApi` stores the
      reply's token when the reply was ok and the token is non-empty, before
      the hook sees the envelope. */
  function StoredToken<T>(store: TokenStore, call: Call<T>): (r: TokenStore)
    ensures r != store ==> Acknowledged(call) && r == call.response.token
    ensures Acknowledged(call) && Truthy(call.response.token) ==> r == call.response.token
  {
    if Acknowledged(call) && Truthy(call.response.token) then call.response.token else store
  }

  /** Login and register share one shape: the error is cleared, a success with
      data sets and persists the user, anything else records an error and
      leaves the user alone. The client has already stored any token the
      reply carried. `stringify` is `JSON.stringify`. */
  function SignIn(s: State, b: Browser, call: Call<User>, stringify: User -> string,
                  failed: string, crashed: string): (o: Outcome)
    ensures o.ok <==> Delivers(call)
    ensures o.browser.token == StoredToken(b.token, call)
    ensures o.ok ==> o.state == s.(user := call.response.data, error := None)
                     && o.browser.storedUser == Some(stringify(call.response.data.value))
    ensures !o.ok ==> o.state.user == s.user && o.browser.storedUser == b.storedUser
    ensures call.Returned? && !o.ok ==> o.state == s.(error := Some(MessageOr(call, failed)))
    ensures call.Threw? ==> o == Outcome(s.(error := Some(crashed)), b, false)
  {
    var cleared := s.(error := None);
    var b' := b.(token := StoredToken(b.token, call));
    match call
    case Threw => Outcome(cleared.(error := Some(crashed)), b, false)
    case Returned(resp) =>
      if resp.success && resp.data.Some? then
        Outcome(cleared.(user := resp.data), b'.(storedUser := Some(stringify(resp.data.value))), true)
      else Outcome(cleared.(error := Some(OrElse(resp.message, failed))), b', false)
  }

  /** The reply the login endpoint's exchange hands the hook: the envelope
      with the body's payload as the user. */
  function AsUserCall(x: Response<Body<User>>): Call<User> {
    Returned(Response(x.success, if x.data.Some? then Some(x.data.value.payload) else None, x.message, x.token))
  }

  /** Whatever the network did, the token slot the login leaves is the one
      the client's exchange left. */
  lemma LoginKeepsClientToken(s: State, b: Browser, u: string, pw: string, encode: string -> string,
                              http: Http<User>, stringify: User -> string)
    ensures var x := Send(b.token, ApiClient.Login(u, pw), encode, http);
            SignIn(s, b, AsUserCall(x.response), stringify, LoginFailed, LoginCrashed).browser.token == x.store
  {
  }

  function Login(s: State, b: Browser, call: Call<User>, stringify: User -> string): Outcome {
    SignIn(s, b, call, stringify, LoginFailed, LoginCrashed)
  }

  function Register(s: State, b: Browser, call: Call<User>, stringify: User -> string): Outcome {
    SignIn(s, b, call, stringify, RegisterFailed, RegisterCrashed)
  }

  /** `logout()`: the token and the stored user are removed and the user is cleared. */
  function Logout(s: State, b: Browser): (r: (State, Browser))
    ensures r.0 == s.(user := None)
    ensures r.1.storedUser.None? && !ValidateToken(r.1.token)
  {
    (s.(user := None), Browser(ApiClient.Logout(b.token), None))
  }

  /** After a successful login, a reload restores the same user exactly when
      a token is stored afterwards: one was already stored, or the reply
      carried one. Parsing must undo serialising. */
  lemma LoginSurvivesReload(s: State, b: Browser, call: Call<User>, stringify: User -> string,
                            parse: string -> Option<User>)
    requires Delivers(call)
    requires parse(stringify(call.response.data.value)) == Some(call.response.data.value)
    requires stringify(call.response.data.value) != ""
    ensures var o := Login(s, b, call, stringify);
            CheckAuth(Initial, o.browser, parse).user
            == if ValidateToken(b.token) || Truthy(call.response.token) then call.response.data else None
  {
  }

  /** After logout a reload restores nobody, whatever storage held before. */
  lemma LogoutSurvivesReload(s: State, b: Browser, parse: string -> Option<User>)
    ensures CheckAuth(Initial, Logout(s, b).1, parse).user.None?
  {
  }

  /** What `useAuth()` gives: the context, or the error it throws outside the provider. */
  datatype Guarded = Provided(state: State) | Thrown(message: string)

  function UseAuth(context: Option<State>): (g: Guarded)
    ensures context.Some? ==> g == Provided(context.value)
    ensures context.None? ==> g == Thrown(OutsideProvider)
  {
    match context
    case Some(c) => Provided(c)
    case None => Thrown(OutsideProvider)
  }
}

=== FILE: category_filter.dfy ===
/** The category strip of components/category-filter.tsx: the fixed list of
    categories, the highlighted one, and the scroll arrows that move the
    strip by a fixed step. */
module CategoryFilter {
  import opened Common

  const ScrollAmount := 200

  /** The categories the strip shows once mounted. */
  const Categories: seq<string> := [
    "All", "Technology", "Business", "Health & Wellness", "Music", "Food", "Travel",
    "Education", "Entertainment", "Science", "Sports", "News", "Politics", "History", "Art"
  ]

  /** A category button is highlighted when it is the selected category. */
  predicate Highlighted(category: string, selected: string) {
    category == selected
  }

  /** How many of `cs` are highlighted for `selected`. */
  function HighlightCount(cs: seq<string>, selected: string): (n: nat)
    ensures n <= |cs|
  {
    if cs == [] then 0 else (if Highlighted(cs[0], selected) then 1 else 0) + HighlightCount(cs[1..], selected)
  }

  predicate Distinct(cs: seq<string>) {
    forall i, j :: 0 <= i < j < |cs| ==> cs[i] != cs[j]
  }

  /** In a list without repeats exactly one button is highlighted when the
      selection is listed, and none otherwise. */
  lemma {:induction false} OneHighlighted(cs: seq<string>, selected: string)
    requires Distinct(cs)
    ensures HighlightCount(cs, selected) == if selected in cs then 1 else 0
  {
    if cs != [] {
      assert Distinct(cs[1..]) by {
        forall i, j | 0 <= i < j < |cs[1..]| ensures cs[1..][i] != cs[1..][j] {
          assert cs[1..][i] == cs[i + 1] && cs[1..][j] == cs[j + 1];
        }
      }
      OneHighlighted(cs[1..], selected);
      if cs[0] == selected {
        assert selected !in cs[1..] by {
          forall k | 0 <= k < |cs[1..]| ensures cs[1..][k] != selected {
            assert cs[1..][k] == cs[k + 1];
          }
        }
      } else {
        assert selected in cs <==> selected in cs[1..] by {
          assert cs == [cs[0]] + cs[1..];
        }
      }
    }
  }

  /** The strip's list has no repeats, so at most one of its buttons lights up. */
  lemma StripHighlightsAtMostOne(selected: string)
    ensures HighlightCount(Categories, selected) == if selected in Categories then 1 else 0
  {
    OneHighlighted(Categories, selected);
  }

  datatype Direction = Left | Right

  /** `handleScroll(direction)`: the new position and where the container is
      told to scroll. Without the container nothing moves and nothing is told. */
  function HandleScroll(pos: int, direction: Direction, hasContainer: bool): (r: (int, Option<int>))
    ensures !hasContainer ==> r == (pos, None)
    ensures hasContainer ==> r.1 == Some(r.0)
    ensures hasContainer && direction == Left ==> r.0 == if pos - ScrollAmount < 0 then 0 else pos - ScrollAmount
    ensures hasContainer && direction == Right ==> r.0 == pos + ScrollAmount
  {
    if !hasContainer then (pos, None)
    else
      var next := match direction
        case Left => if 0 > pos - ScrollAmount then 0 else pos - ScrollAmount
        case Right => pos + ScrollAmount;
      (next, Some(next))
  }

  /** One arrow click: which arrow, and whether the container was found. */
  datatype Click = Click(direction: Direction, hasContainer: bool)

  function Scroll(pos: int, clicks: seq<Click>): int
    decreases |clicks|
  {
    if clicks == [] then pos else Scroll(HandleScroll(pos, clicks[0].direction, clicks[0].hasContainer).0, clicks[1..])
  }

  /** Starting from the left edge, the position is never negative and always
      a whole number of steps. */
  lemma {:induction false} ScrollStaysOnGrid(pos: int, clicks: seq<Click>)
    requires pos >= 0 && pos % ScrollAmount == 0
    ensures Scroll(pos, clicks) >= 0 && Scroll(pos, clicks) % ScrollAmount == 0
    decreases |clicks|
  {
    if clicks != [] {
      ScrollStaysOnGrid(HandleScroll(pos, clicks[0].direction, clicks[0].hasContainer).0, clicks[1..]);
    }
  }

  /** Right then left returns to any non-negative position; left then right
      returns to any position at least one step from the edge. */
  lemma ArrowsUndoEachOther(pos: int)
    ensures pos >= 0 ==> HandleScroll(HandleScroll(pos, Right, true).0, Left, true).0 == pos
    ensures pos >= ScrollAmount ==> HandleScroll(HandleScroll(pos, Left, true).0, Right, true).0 == pos
  {
  }

  /** Near the edge left then right overshoots: the position lands one full step in. */
  lemma LeftAtEdgeThenRight(pos: int)
    requires 0 <= pos < ScrollAmount
    ensures HandleScroll(HandleScroll(pos, Left, true).0, Right, true).0 == ScrollAmount
  {
  }
}

=== FILE: common.dfy ===
/** Values shared by every part of the model: optional values, JSON documents
    as the backend sends them, and JavaScript truthiness on both. */
module Common {

  datatype Option<+T> = None | Some(value: T) {
    function GetOr(default: T): T {
      match this
      case Some(v) => v
      case None => default
    }
  }

  /** A JSON value. Numbers are integers: no floating point is modelled. */
  datatype Json =
    | JNull
    | JBool(b: bool)
    | JNum(n: int)
    | JStr(s: string)
    | JArr(items: seq<Json>)
    | JObj(fields: map<string, Json>)

  /** A JSON object as a map from member names to values. */
  type Record = map<string, Json>

  /** JavaScript truthiness of an optional string (`undefined`, `null` and `""` are falsy). */
  predicate Truthy(o: Option<string>) {
    o.Some? && o.value != ""
  }

  /** JavaScript truthiness of an optional JSON value. */
  predicate JsonTruthy(o: Option<Json>) {
    match o
    case None => false
    case Some(JNull) => false
    case Some(JBool(b)) => b
    case Some(JNum(n)) => n != 0
    case Some(JStr(s)) => s != ""
    case Some(_) => true
  }

  /** `o || fallback` on an optional string. */
  function OrElse(o: Option<string>, fallback: string): (r: string)
    ensures Truthy(o) ==> r == o.value
    ensures !Truthy(o) ==> r == fallback
    ensures r == "" ==> fallback == ""
  {
    if Truthy(o) then o.value else fallback
  }

  /** Member access `obj.key` on a JSON value: `undefined` unless it is an object holding the key. */
  function Member(j: Option<Json>, key: string): (r: Option<Json>)
    ensures r.Some? <==> j.Some? && j.value.JObj? && key in j.value.fields
  {
    match j
    case Some(JObj(m)) => if key in m then Some(m[key]) else None
    case _ => None
  }

  /** `a || b` on optional JSON values. */
  function JsonOr(a: Option<Json>, b: Json): (r: Json)
    ensures JsonTruthy(a) ==> Some(r) == a
    ensures !JsonTruthy(a) ==> r == b
  {
    if JsonTruthy(a) then a.value else b
  }
}

=== FILE: duration.dfy ===
/** `formatDuration` of lib/utils.ts: a number of seconds rendered as its
    non-zero hour, minute and second components ("1h 2m 3s"). The rendering
    is shown to lose nothing by reading it back. */
module Duration {
  import opened Common
  import opened Text

  function Hours(d: nat): nat { d / 3600 }
  function Minutes(d: nat): nat { (d % 3600) / 60 }
  function Seconds(d: nat): nat { d % 60 }

  /** The three components rebuild the duration, and minutes and seconds stay below 60. */
  lemma Decomposition(d: nat)
    ensures 3600 * Hours(d) + 60 * Minutes(d) + Seconds(d) == d
    ensures Minutes(d) < 60 && Seconds(d) < 60
  {
    var h, r := d / 3600, d % 3600;
    assert d == 3600 * h + r;
    assert r == 60 * (r / 60) + r % 60;
    assert r % 60 == d % 60 by {
      assert d == 60 * (60 * h + r / 60) + r % 60;
    }
  }

  /** The unit letter of a component and the seconds it stands for. */
  predicate IsUnit(c: char) { c == 'h' || c == 'm' || c == 's' }

  function Weight(c: char): nat
    requires IsUnit(c)
  {
    if c == 'h' then 3600 else if c == 'm' then 60 else 1
  }

  /** One rendered component: digits followed by a unit letter. */
  predicate IsToken(t: string) {
    |t| >= 2 && AllDigits(t[..|t| - 1]) && IsUnit(t[|t| - 1])
  }

  /** `n > 0 ? `${n}${unit}` : null`, as a list of zero or one items. */
  function Component(n: nat, unit: char): (r: seq<string>)
    requires IsUnit(unit)
    ensures |r| <= 1
    ensures r != [] <==> n > 0
    ensures r != [] ==> IsToken(r[0]) && r[0][|r[0]| - 1] == unit && r[0][0] != '0' && ' ' !in r[0]
  {
    if n > 0 then
      var t := NatToString(n) + [unit];
      assert t[..|t| - 1] == NatToString(n);
      [t]
    else []
  }

  /** The list of components that survives `.filter(Boolean)`. */
  function Parts(d: nat): seq<string> {
    Component(Hours(d), 'h') + Component(Minutes(d), 'm') + Component(Seconds(d), 's')
  }

  /** `parts.join(sep)`. */
  function Join(parts: seq<string>, sep: char): string {
    if parts == [] then ""
    else if |parts| == 1 then parts[0]
    else parts[0] + [sep] + Join(parts[1..], sep)
  }

  /** `formatDuration(d)`: only zero renders as the empty string. */
  function FormatDuration(d: nat): (r: string)
    ensures r == "" <==> d == 0
  {
    Decomposition(d);
    JoinEmpty(Parts(d), ' ');
    Join(Parts(d), ' ')
  }

  lemma JoinEmpty(parts: seq<string>, sep: char)
    requires forall i :: 0 <= i < |parts| ==> parts[i] != []
    ensures Join(parts, sep) == "" <==> parts == []
  {
    if |parts| > 1 {
      assert |Join(parts, sep)| >= |parts[0]|;
    }
  }

  /** The unit letter of a rendered component. */
  function UnitOf(t: string): char
    requires t != []
  {
    t[|t| - 1]
  }

  /** The rendered components: at most three, each a positive number without
      leading zero followed by its unit, in strictly decreasing unit weight
      (hours before minutes before seconds, none twice). */
  lemma PartsShape(d: nat)
    ensures |Parts(d)| <= 3
    ensures forall i :: 0 <= i < |Parts(d)| ==>
              IsToken(Parts(d)[i]) && Parts(d)[i][0] != '0' && ' ' !in Parts(d)[i]
    ensures forall i, j :: 0 <= i < j < |Parts(d)| ==> Weight(UnitOf(Parts(d)[i])) > Weight(UnitOf(Parts(d)[j]))
  {
    var hs, ms, ss := Component(Hours(d), 'h'), Component(Minutes(d), 'm'), Component(Seconds(d), 's');
    assert Parts(d) == hs + ms + ss;
  }

  /** Splits at every `sep`; empty fields are kept except at the very end. */
  function Split(s: string, sep: char): seq<string>
    decreases |s|
  {
    if s == [] then []
    else if sep !in s then [s]
    else
      var i := IndexOf(s, sep);
      [s[..i]] + Split(s[i + 1..], sep)
  }

  /** Splitting undoes joining when no part is empty or holds the separator. */
  lemma {:induction false} SplitJoin(parts: seq<string>, sep: char)
    requires forall i :: 0 <= i < |parts| ==> parts[i] != [] && sep !in parts[i]
    ensures Split(Join(parts, sep), sep) == parts
  {
    if |parts| > 1 {
      var p, rest := parts[0], Join(parts[1..], sep);
      var s := p + [sep] + rest;
      assert s[|p|] == sep;
      var i := IndexOf(s, sep);
      assert i == |p|;
      assert s[..i] == p;
      assert s[i + 1..] == rest;
      SplitJoin(parts[1..], sep);
    }
  }

  /** The seconds one component stands for, if it is one. */
  function TokenValue(t: string): Option<nat> {
    if IsToken(t) then Some(ParseDigits(t[..|t| - 1]) * Weight(t[|t| - 1])) else None
  }

  function SumTokens(ts: seq<string>): Option<nat> {
    if ts == [] then Some(0)
    else match (TokenValue(ts[0]), SumTokens(ts[1..]))
      case (Some(a), Some(b)) => Some(a + b)
      case _ => None
  }

  /** Reads a rendered duration back into seconds. */
  function ParseDuration(s: string): Option<nat> {
    SumTokens(Split(s, ' '))
  }

  lemma ComponentValue(n: nat, unit: char)
    requires IsUnit(unit)
    ensures SumTokens(Component(n, unit)) == Some(n * Weight(unit))
  {
    if n > 0 {
      var t := NatToString(n) + [unit];
      assert t[..|t| - 1] == NatToString(n);
      ParseNatToString(n);
    }
  }

  lemma {:induction false} SumTokensAppend(a: seq<string>, b: seq<string>)
    requires SumTokens(a).Some? && SumTokens(b).Some?
    ensures SumTokens(a + b) == Some(SumTokens(a).value + SumTokens(b).value)
  {
    if a != [] {
      assert TokenValue(a[0]).Some? && SumTokens(a[1..]).Some?;
      assert (a + b)[0] == a[0];
      assert (a + b)[1..] == a[1..] + b;
      SumTokensAppend(a[1..], b);
      assert SumTokens(a + b) == Some(TokenValue(a[0]).value + SumTokens(a[1..] + b).value);
    } else {
      assert a + b == b;
    }
  }

  /** Reading the rendering back gives the duration: formatDuration loses no information. */
  lemma ParseFormatDuration(d: nat)
    ensures ParseDuration(FormatDuration(d)) == Some(d)
  {
    PartsShape(d);
    SplitJoin(Parts(d), ' ');
    SumParts(d);
  }

  lemma SumParts(d: nat)
    ensures SumTokens(Parts(d)) == Some(d)
  {
    var h, m, sec := Hours(d), Minutes(d), Seconds(d);
    ComponentValue(h, 'h');
    ComponentValue(m, 'm');
    ComponentValue(sec, 's');
    SumThree(Component(h, 'h'), Component(m, 'm'), Component(sec, 's'));
    WeightedSum(d);
  }

  /** The components weighted by their units add back up to the duration. */
  lemma WeightedSum(d: nat)
    ensures Hours(d) * Weight('h') + Minutes(d) * Weight('m') + Seconds(d) * Weight('s') == d
  {
    Decomposition(d);
  }

  /** The value of three token lists in a row is the sum of their values. */
  lemma SumThree(a: seq<string>, b: seq<string>, c: seq<string>)
    requires SumTokens(a).Some? && SumTokens(b).Some? && SumTokens(c).Some?
    ensures SumTokens(a + b + c) == Some(SumTokens(a).value + SumTokens(b).value + SumTokens(c).value)
  {
    SumTokensAppend(a, b);
    SumTokensAppend(a + b, c);
  }

  /** Different durations never render alike. */
  lemma FormatDurationInjective(d: nat, e: nat)
    requires FormatDuration(d) == FormatDuration(e)
    ensures d == e
  {
    ParseFormatDuration(d);
    ParseFormatDuration(e);
  }
}

=== FILE: edit_profile.dfy ===
/** The edit-profile dialog of components/profile/edit-profile-dialog.tsx:
    the form's initial values, the field update by input name (a dotted name
    reaches one level into a nested object), and closing on a successful save. */
module EditProfile {
  import opened Common
  import opened Text

  /** The form data: a JSON object whose `socialLinks` member is itself an object. */
  type Form = Record

  /** `value || ""` for a member that may be missing. */
  function OrEmpty(j: Option<Json>): (r: Json)
    ensures JsonTruthy(j) ==> Some(r) == j
    ensures !JsonTruthy(j) ==> r == JStr("")
  {
    JsonOr(j, JStr(""))
  }

  /** The top-level text fields of the form. */
  const TextFields: seq<string> := ["username", "bio", "coverImage", "avatarImage"]

  /** The fields under `socialLinks`. */
  const LinkFields: seq<string> := ["twitter", "instagram", "youtube", "website"]

  /** One entry per key, each read from `source` with `|| ""`. */
  function Pick(source: Option<Json>, keys: seq<string>): (m: map<string, Json>)
    ensures forall k :: k in m <==> k in keys
    ensures forall k :: k in m ==> m[k] == OrEmpty(Member(source, k))
  {
    if keys == [] then map[]
    else Pick(source, keys[1..])[keys[0] := OrEmpty(Member(source, keys[0]))]
  }

  /** The initial form for `profile`: each text field is the profile's value,
      or "" when it is missing or falsy, and the social links are read the
      same way through `socialLinks?.`. */
  function InitialForm(profile: Record): (f: Form)
    ensures forall k :: k in f <==> k in TextFields || k == "socialLinks"
    ensures forall k :: k in TextFields ==>
              f[k] == if JsonTruthy(Member(Some(JObj(profile)), k)) then profile[k] else JStr("")
    ensures f["socialLinks"].JObj?
    ensures forall k :: k in f["socialLinks"].fields <==> k in LinkFields
    ensures forall k :: k in f["socialLinks"].fields ==>
              f["socialLinks"].fields[k] == OrEmpty(Member(Member(Some(JObj(profile)), "socialLinks"), k))
  {
    var p := Some(JObj(profile));
    assert "socialLinks" !in TextFields;
    Pick(p, TextFields)["socialLinks" := JObj(Pick(Member(p, "socialLinks"), LinkFields))]
  }

  /** `name.split(".")` destructured as `[parent, child]`: the text before the
      first dot and the text between it and the next dot (or the end). */
  function SplitName(name: string): (r: (string, string))
    requires '.' in name
    ensures '.' !in r.0 && '.' !in r.1
    ensures |r.0| < |name| && name[..|r.0|] == r.0 && name[|r.0|] == '.'
    ensures StartsWith(name[|r.0| + 1..], r.1)
  {
    var i := IndexOf(name, '.');
    var rest := name[i + 1..];
    if '.' in rest then
      var j := IndexOf(rest, '.');
      (name[..i], rest[..j])
    else (name[..i], rest)
  }

  /** The keys `"0"`, `"1"`, ... `"n-1"` that spreading an indexed value gives. */
  function IndexKeys(n: nat): set<string> {
    set i | 0 <= i < n :: NatToString(i)
  }

  /** Distinct indices have distinct keys. */
  lemma IndexKeysDistinct()
    ensures forall i: nat, j: nat :: NatToString(i) == NatToString(j) ==> i == j
  {
    forall i: nat, j: nat | NatToString(i) == NatToString(j)
      ensures i == j
    {
      NatToStringInjective(i, j);
    }
  }

  /** The members `{ ...items }` gives an array (or a string split into its
      characters): item i under the key `"i"`. */
  function IndexMembers(items: seq<Json>): (m: Record)
    ensures m.Keys == IndexKeys(|items|)
    ensures forall i :: 0 <= i < |items| ==> m[NatToString(i)] == items[i]
  {
    IndexKeysDistinct();
    map i | 0 <= i < |items| :: NatToString(i) := items[i]
  }

  /** `{ ...prev[parent] }`: an object's members; an array's items and a
      string's characters under their index keys; nothing for a missing
      member, `null`, a boolean or a number. */
  function Spread(j: Option<Json>): (m: Record)
    ensures j.Some? && j.value.JObj? ==> m == j.value.fields
    ensures j.Some? && j.value.JArr? ==>
              && m.Keys == IndexKeys(|j.value.items|)
              && (forall i :: 0 <= i < |j.value.items| ==> m[NatToString(i)] == j.value.items[i])
    ensures j.Some? && j.value.JStr? ==>
              && m.Keys == IndexKeys(|j.value.s|)
              && (forall i :: 0 <= i < |j.value.s| ==> m[NatToString(i)] == JStr([j.value.s[i]]))
    ensures j.None? || j.value.JNull? || j.value.JBool? || j.value.JNum? ==> m == map[]
  {
    match j
    case Some(JObj(fields)) => fields
    case Some(JArr(items)) => IndexMembers(items)
    case Some(JStr(s)) => IndexMembers(seq(|s|, i requires 0 <= i < |s| => JStr([s[i]])))
    case _ => map[]
  }

  /** `handleChange` for the input named `name` now holding `value`: only the
      named top-level field (a plain name) or the parent of a dotted name
      changes. The child is set inside the parent, next to whatever spreading
      the old parent gave: its members when it was an object, its index keys
      when it was a string or an array, nothing otherwise. */
  function HandleChange(form: Form, name: string, value: string): (r: Form)
    ensures '.' !in name ==>
              && r.Keys == form.Keys + {name}
              && r[name] == JStr(value)
              && (forall k :: k in form && k != name ==> r[k] == form[k])
    ensures '.' in name ==>
              var (parent, child) := SplitName(name);
              && r.Keys == form.Keys + {parent}
              && (forall k :: k in form && k != parent ==> r[k] == form[k])
              && r[parent].JObj? && child in r[parent].fields && r[parent].fields[child] == JStr(value)
              && (parent in form && form[parent].JObj? ==>
                    && r[parent].fields.Keys == form[parent].fields.Keys + {child}
                    && (forall k :: k in form[parent].fields && k != child ==>
                          r[parent].fields[k] == form[parent].fields[k]))
              && (parent in form && (form[parent].JStr? || form[parent].JArr?) ==>
                    var n := if form[parent].JStr? then |form[parent].s| else |form[parent].items|;
                    && r[parent].fields.Keys == IndexKeys(n) + {child}
                    && (forall i :: 0 <= i < n && NatToString(i) != child ==>
                          r[parent].fields[NatToString(i)] ==
                            if form[parent].JStr? then JStr([form[parent].s[i]]) else form[parent].items[i]))
              && (parent !in form || form[parent].JNull? || form[parent].JBool? || form[parent].JNum? ==>
                    r[parent].fields == map[child := JStr(value)])
  {
    if '.' in name then
      var (parent, child) := SplitName(name);
      var inner := Spread(if parent in form then Some(form[parent]) else None);
      form[parent := JObj(inner[child := JStr(value)])]
    else form[name := JStr(value)]
  }

  /** A dotted name changes only that nested member: every other top-level
      field and every sibling inside the nested object keep their values. */
  lemma DottedChangeIsLocal(form: Form, parent: string, child: string, value: string)
    requires '.' !in parent && '.' !in child
    requires parent in form && form[parent].JObj?
    ensures var r := HandleChange(form, parent + "." + child, value);
            && r.Keys == form.Keys
            && (forall k :: k in form && k != parent ==> r[k] == form[k])
            && r[parent].JObj? && r[parent].fields.Keys == form[parent].fields.Keys + {child}
            && r[parent].fields[child] == JStr(value)
            && (forall k :: k in form[parent].fields && k != child ==> r[parent].fields[k] == form[parent].fields[k])
  {
    var name := parent + "." + child;
    assert name[|parent|] == '.';
    assert '.' in name;
    var i := IndexOf(name, '.');
    assert i == |parent| by {
      assert forall k :: 0 <= k < |parent| ==> name[k] == parent[k];
    }
    assert name[..i] == parent;
    assert name[i + 1..] == child;
  }

  /** A dotted name under a string field: the string's characters survive
      under their index keys next to the new member. */
  lemma StringParentKeepsCharacters()
    ensures HandleChange(map["bio" := JStr("ab")], "bio.x", "v")
            == map["bio" := JObj(map["0" := JStr("a"), "1" := JStr("b"), "x" := JStr("v")])]
  {
    SplitBioX();
    SpreadTwoCharacters();
  }

  /** The input `bio.x` names the member `x` of `bio`. */
  lemma SplitBioX()
    ensures '.' in "bio.x" && SplitName("bio.x") == ("bio", "x")
  {
    var name := "bio.x";
    assert name[3] == '.';
    assert IndexOf(name, '.') == 3;
    assert name[..3] == "bio" && name[4..] == "x";
  }

  /** Spreading `"ab"` gives its two characters under `"0"` and `"1"`. */
  lemma SpreadTwoCharacters()
    ensures Spread(Some(JStr("ab"))) == map["0" := JStr("a"), "1" := JStr("b")]
  {
    var inner := Spread(Some(JStr("ab")));
    assert NatToString(0) == "0" && NatToString(1) == "1";
    assert IndexKeys(2) == {"0", "1"} by {
      assert IndexKeys(2) == {NatToString(0), NatToString(1)};
    }
    assert inner["0"] == JStr("a") && inner["1"] == JStr("b");
  }

  /** A plain name changes only that top-level field. */
  lemma PlainChangeIsLocal(form: Form, name: string, value: string)
    requires '.' !in name
    ensures var r := HandleChange(form, name, value);
            && r.Keys == form.Keys + {name}
            && r[name] == JStr(value)
            && (forall k :: k in form && k != name ==> r[k] == form[k])
  {
  }

  /** `handleSubmit`: the dialog stays open unless the save answered true. */
  function AfterSubmit(open: bool, saved: bool): (stillOpen: bool)
    ensures saved ==> !stillOpen
    ensures !saved ==> stillOpen == open
  {
    if saved then false else open
  }
}

=== FILE: episode_links.dfy ===
/** The link targets and toggles of the episode cards in
    components/episode-card.tsx and components/featured-episode.tsx: the
    category and author slugs, the episode link, and the favorite and
    bookmark flags of a card. */
module EpisodeLinks {
  import opened Text

  /** `s.replace(/\s+/g, "-")`: every maximal run of white space becomes one hyphen. */
  function Hyphenate(s: string): (r: string)
    ensures |r| <= |s|
    ensures NoSpace(r)
    ensures IsLower(s) ==> IsLower(r)
    decreases |s|
  {
    if s == [] then []
    else if IsSpace(s[0]) then
      var rest := TrimStart(s);
      assert IsLower(s) ==> IsLower(rest) by {
        if IsLower(s) {
          forall i | 0 <= i < |rest| ensures !('A' <= rest[i] <= 'Z') {
            assert rest[i] == s[|s| - |rest| + i];
          }
        }
      }
      "-" + Hyphenate(rest)
    else [s[0]] + Hyphenate(s[1..])
  }

  /** `s.toLowerCase().replace(/\s+/g, "-")`, the slug of a category or author name. */
  function Slug(s: string): (r: string)
    ensures NoSpace(r) && IsLower(r)
    ensures |r| <= |s|
  {
    Hyphenate(Lower(s))
  }

  /** A white-space-free string has no run to replace. */
  lemma {:induction false} HyphenateNoSpace(s: string)
    requires NoSpace(s)
    ensures Hyphenate(s) == s
  {
    if s != [] {
      HyphenateNoSpace(s[1..]);
    }
  }

  /** Lower-casing lower-case text changes nothing. */
  lemma LowerIsLower(s: string)
    requires IsLower(s)
    ensures Lower(s) == s
  {
  }

  /** A slug is its own slug: applying the rule twice is applying it once. */
  lemma SlugIdempotent(s: string)
    ensures Slug(Slug(s)) == Slug(s)
  {
    LowerIsLower(Slug(s));
    HyphenateNoSpace(Slug(s));
  }

  /** A non-empty blank string is one run: it becomes a single hyphen. */
  lemma HyphenateRun(w: string)
    requires w != [] && IsBlank(w)
    ensures Hyphenate(w) == "-"
  {
    TrimStartBlank(w, []);
    assert w + [] == w;
  }

  /** Leading white space of a string that is not all white space stays in front of anything appended. */
  lemma {:induction false} TrimStartAppend(a: string, t: string)
    requires !IsBlank(a)
    ensures TrimStart(a + t) == TrimStart(a) + t
  {
    if IsSpace(a[0]) {
      assert !IsBlank(a[1..]) by {
        var k :| 0 <= k < |a| && !IsSpace(a[k]);
        assert a[1..][k - 1] == a[k];
      }
      assert (a + t)[1..] == a[1..] + t;
      TrimStartAppend(a[1..], t);
    }
  }

  /** A blank string followed by text that does not start with white space trims to that text. */
  lemma {:induction false} TrimStartBlank(a: string, t: string)
    requires IsBlank(a)
    requires t == [] || !IsSpace(t[0])
    ensures TrimStart(a + t) == t
  {
    if a == [] {
      assert a + t == t;
    } else {
      assert IsSpace((a + t)[0]);
      assert (a + t)[1..] == a[1..] + t;
      TrimStartBlank(a[1..], t);
    }
  }

  /** Hyphenating text that starts with white space: one hyphen, then the rest after the run. */
  lemma HyphenateSpaceHead(s: string)
    requires s != [] && IsSpace(s[0])
    ensures Hyphenate(s) == "-" + Hyphenate(TrimStart(s))
  {
  }

  /** Hyphenating text that starts with another character keeps it. */
  lemma HyphenateCharHead(s: string)
    requires s != [] && !IsSpace(s[0])
    ensures Hyphenate(s) == [s[0]] + Hyphenate(s[1..])
  {
  }

  /** No run of white space straddles the cut between `a` and `t`. */
  predicate Joinable(a: string, t: string) {
    a == [] || t == [] || !IsSpace(a[|a| - 1]) || !IsSpace(t[0])
  }

  lemma JoinableTail(a: string, t: string)
    requires a != [] && Joinable(a, t)
    ensures Joinable(a[1..], t)
  {
    if |a| > 1 {
      assert a[1..][|a[1..]| - 1] == a[|a| - 1];
    }
  }

  /** Two pieces hyphenate separately when no run of white space straddles the cut. */
  lemma {:induction false} HyphenateAppend(a: string, t: string)
    requires Joinable(a, t)
    ensures Hyphenate(a + t) == Hyphenate(a) + Hyphenate(t)
    decreases |a|, 2
  {
    if a == [] {
      assert a + t == t;
    } else if IsSpace(a[0]) {
      HyphenateAppendAfterSpace(a, t);
    } else {
      HyphenateAppendAfterChar(a, t);
    }
  }

  /** The step of HyphenateAppend past a leading character that is not white space. */
  lemma {:induction false} HyphenateAppendAfterChar(a: string, t: string)
    requires a != [] && !IsSpace(a[0]) && Joinable(a, t)
    ensures Hyphenate(a + t) == Hyphenate(a) + Hyphenate(t)
    decreases |a|, 0
  {
    assert (a + t)[0] == a[0];
    assert (a + t)[1..] == a[1..] + t;
    HyphenateCharHead(a + t);
    JoinableTail(a, t);
    HyphenateAppend(a[1..], t);
    HyphenateCharHead(a);
    AppendAssoc([a[0]], Hyphenate(a[1..]), Hyphenate(t));
  }

  /** The step of HyphenateAppend past a leading run of white space. */
  lemma {:induction false} HyphenateAppendAfterSpace(a: string, t: string)
    requires a != [] && IsSpace(a[0]) && Joinable(a, t)
    ensures Hyphenate(a + t) == Hyphenate(a) + Hyphenate(t)
    decreases |a|, 1
  {
    if IsBlank(a) {
      HyphenateAppendBlank(a, t);
    } else {
      HyphenateAppendAfterRun(a, t);
    }
  }

  lemma AppendAssoc(x: string, y: string, z: string)
    ensures x + (y + z) == (x + y) + z
  {
  }

  /** The step of HyphenateAppend when `a` is one run of white space. */
  lemma HyphenateAppendBlank(a: string, t: string)
    requires a != [] && IsBlank(a) && Joinable(a, t)
    ensures Hyphenate(a + t) == Hyphenate(a) + Hyphenate(t)
  {
    assert IsSpace(a[|a| - 1]);
    HyphenateRun(a);
    HyphenateBlankPrefix(a, t);
  }

  /** A run of white space in front of text that does not start with white space becomes one hyphen. */
  lemma HyphenateBlankPrefix(a: string, t: string)
    requires a != [] && IsBlank(a)
    requires t == [] || !IsSpace(t[0])
    ensures Hyphenate(a + t) == "-" + Hyphenate(t)
  {
    TrimStartBlank(a, t);
    assert (a + t)[0] == a[0];
    HyphenateSpaceHead(a + t);
  }

  /** The step of HyphenateAppend past a leading run that does not reach the end of `a`. */
  lemma {:induction false} HyphenateAppendAfterRun(a: string, t: string)
    requires a != [] && IsSpace(a[0]) && !IsBlank(a) && Joinable(a, t)
    ensures Hyphenate(a + t) == Hyphenate(a) + Hyphenate(t)
    decreases |a|, 0
  {
    assert (a + t)[0] == a[0];
    HyphenateSpaceHead(a + t);
    HyphenateSpaceHead(a);
    TrimStartAppend(a, t);
    var rest := TrimStart(a);
    assert rest != a;
    assert rest[|rest| - 1] == a[|a| - 1];
    assert Joinable(rest, t);
    HyphenateAppend(rest, t);
    AppendAssoc("-", Hyphenate(rest), Hyphenate(t));
  }

  /** The rule on a whole run: a run of white space between two pieces that
      do not touch it with white space of their own becomes exactly one hyphen. */
  lemma ReplacesEachRun(a: string, w: string, b: string)
    requires w != [] && IsBlank(w)
    requires a == [] || !IsSpace(a[|a| - 1])
    requires b == [] || !IsSpace(b[0])
    ensures Hyphenate(a + w + b) == Hyphenate(a) + "-" + Hyphenate(b)
  {
    assert Joinable(a, w);
    HyphenateAppend(a, w);
    assert (a + w)[|a + w| - 1] == w[|w| - 1];
    assert Joinable(a + w, b);
    HyphenateAppend(a + w, b);
    HyphenateRun(w);
  }

  /** `/episode/${id}`, the target of every episode link on a card. */
  function EpisodeHref(id: string): (r: string)
    ensures StartsWith(r, "/episode/") && r[|"/episode/"|..] == id
  {
    "/episode/" + id
  }

  /** `/category/${slug}`. */
  function CategoryHref(category: string): (r: string)
    ensures StartsWith(r, "/category/")
    ensures var slug := r[|"/category/"|..]; NoSpace(slug) && IsLower(slug) && |slug| <= |category|
  {
    "/category/" + Slug(category)
  }

  /** `/author/${slug}`. */
  function AuthorHref(author: string): (r: string)
    ensures StartsWith(r, "/author/")
    ensures var slug := r[|"/author/"|..]; NoSpace(slug) && IsLower(slug) && |slug| <= |author|
  {
    "/author/" + Slug(author)
  }

  /** Distinct episodes link to distinct pages. */
  lemma EpisodeHrefInjective(a: string, b: string)
    requires EpisodeHref(a) == EpisodeHref(b)
    ensures a == b
  {
    assert a == EpisodeHref(a)[9..];
  }

  /** Lower-casing works character by character. */
  lemma LowerAppend(x: string, y: string)
    ensures Lower(x + y) == Lower(x) + Lower(y)
  {
  }

  /** Lower-casing leaves white space alone and never makes or removes it. */
  lemma LowerKeepsSpace(c: char)
    ensures IsSpace(LowerChar(c)) <==> IsSpace(c)
    ensures IsSpace(c) ==> LowerChar(c) == c
  {
  }

  /** Lower-casing ignores the case the text had before. */
  lemma LowerOfUpper(x: string)
    ensures Lower(Upper(x)) == Lower(x) && Lower(Lower(x)) == Lower(x)
  {
  }

  /** The lower-cased pieces still meet a run of white space without white space of their own. */
  lemma LowerKeepsJoin(a: string, w: string, b: string)
    requires w != [] && IsBlank(w)
    requires a == [] || !IsSpace(a[|a| - 1])
    requires b == [] || !IsSpace(b[0])
    ensures Lower(a + w + b) == Lower(a) + w + Lower(b)
    ensures Lower(a) == [] || !IsSpace(Lower(a)[|Lower(a)| - 1])
    ensures Lower(b) == [] || !IsSpace(Lower(b)[0])
  {
    LowerAppend(a + w, b);
    LowerAppend(a, w);
    forall i | 0 <= i < |w| ensures LowerChar(w[i]) == w[i] {
      LowerKeepsSpace(w[i]);
    }
    assert Lower(w) == w;
    if a != [] { LowerKeepsSpace(a[|a| - 1]); }
    if b != [] { LowerKeepsSpace(b[0]); }
  }

  /** Category names that differ only in letter case or in the length of a
      white-space run lead to the same category page. */
  lemma CategoryHrefIgnoresCaseAndRuns(a: string, w1: string, w2: string, b: string)
    requires w1 != [] && IsBlank(w1) && w2 != [] && IsBlank(w2)
    requires a == [] || !IsSpace(a[|a| - 1])
    requires b == [] || !IsSpace(b[0])
    ensures CategoryHref(Upper(a) + w1 + b) == CategoryHref(a + w2 + Lower(b))
  {
    LowerOfUpper(a);
    LowerOfUpper(b);
    assert Upper(a) == [] || !IsSpace(Upper(a)[|Upper(a)| - 1]) by {
      if a != [] { assert Lower(Upper(a))[|a| - 1] == Lower(a)[|a| - 1]; LowerKeepsSpace(Upper(a)[|a| - 1]); LowerKeepsSpace(a[|a| - 1]); }
    }
    assert Lower(b) == [] || !IsSpace(Lower(b)[0]) by {
      if b != [] { LowerKeepsSpace(b[0]); }
    }
    LowerKeepsJoin(Upper(a), w1, b);
    LowerKeepsJoin(a, w2, Lower(b));
    ReplacesEachRun(Lower(a), w1, Lower(b));
    ReplacesEachRun(Lower(a), w2, Lower(b));
  }

  /** The flags of one episode card. */
  datatype Card = Card(isFavorite: bool, isBookmarked: bool)

  /** Favorite starts from the `isFavorite` prop, bookmark starts cleared. */
  function NewCard(initialIsFavorite: bool): (c: Card)
    ensures c.isFavorite == initialIsFavorite && !c.isBookmarked
  {
    Card(initialIsFavorite, false)
  }

  /** The heart button. */
  function ToggleFavorite(c: Card): (r: Card)
    ensures r.isFavorite != c.isFavorite && r.isBookmarked == c.isBookmarked
  {
    c.(isFavorite := !c.isFavorite)
  }

  /** The bookmark button. */
  function ToggleBookmark(c: Card): (r: Card)
    ensures r.isBookmarked != c.isBookmarked && r.isFavorite == c.isFavorite
  {
    c.(isBookmarked := !c.isBookmarked)
  }

  /** Each button undoes itself, and the two buttons do not interfere. */
  lemma CardTogglesCommute(c: Card)
    ensures ToggleFavorite(ToggleFavorite(c)) == c
    ensures ToggleBookmark(ToggleBookmark(c)) == c
    ensures ToggleFavorite(ToggleBookmark(c)) == ToggleBookmark(ToggleFavorite(c))
  {
  }
}

=== FILE: form_rules.dfy ===
/** What the three sign-in forms under components/auth share: the checks
    their zod schemas make (a minimum length, a refinement reported on a
    named field) and the way `onSubmit` settles after the auth call. */
module FormRules {
  import opened Common
  import opened ApiClient
  import AuthHook

  /** One validation message, attached to the field it is shown under. */
  datatype Issue = Issue(field: string, message: string)

  /** `z.string().min(n, { message })`: one issue when `value` is shorter than `n`.
      Lengths count characters; JavaScript counts UTF-16 code units. */
  function MinLength(field: string, value: string, n: nat, message: string): (r: seq<Issue>)
    ensures r == [] <==> |value| >= n
    ensures forall i :: 0 <= i < |r| ==> r[i] == Issue(field, message)
  {
    if |value| < n then [Issue(field, message)] else []
  }

  /** A refinement: one issue on `field` when `holds` is false. */
  function Refine(holds: bool, field: string, message: string): (r: seq<Issue>)
    ensures r == [] <==> holds
    ensures forall i :: 0 <= i < |r| ==> r[i] == Issue(field, message)
  {
    if holds then [] else [Issue(field, message)]
  }

  /** The messages shown under `field`. */
  function On(issues: seq<Issue>, field: string): (r: seq<string>)
    ensures |r| <= |issues|
  {
    if issues == [] then []
    else
      var rest := On(issues[1..], field);
      if issues[0].field == field then [issues[0].message] + rest else rest
  }

  /** A message is shown under `field` exactly when an issue carries it there. */
  lemma {:induction false} OnMembers(issues: seq<Issue>, field: string, m: string)
    ensures m in On(issues, field) <==> Issue(field, m) in issues
  {
    if issues != [] {
      OnMembers(issues[1..], field, m);
      assert issues == [issues[0]] + issues[1..];
    }
  }

  /** A list of at most one issue shows its message only under its own field. */
  lemma OnSingle(issues: seq<Issue>, f: string, m: string, field: string)
    requires issues == [] || issues == [Issue(f, m)]
    ensures On(issues, field) == if issues != [] && f == field then [m] else []
  {
  }

  /** The messages of two lists of issues, field by field, keep their order. */
  lemma {:induction false} OnAppend(a: seq<Issue>, b: seq<Issue>, field: string)
    ensures On(a + b, field) == On(a, field) + On(b, field)
  {
    if a != [] {
      assert (a + b)[1..] == a[1..] + b;
      OnAppend(a[1..], b, field);
    } else {
      assert a + b == b;
    }
  }

  /** How the awaited auth call ended: it resolved to a boolean, or it threw. */
  datatype Answer = Resolved(ok: bool) | Raised

  /** The form after `onSubmit`: the loading flag, the alert, and where the router was sent. */
  datatype Submitted = Submitted(isLoading: bool, alert: Option<string>, navigateTo: Option<string>)

  /** The shape `onSubmit` shares between login and register. `hookError` is
      the hook's `error` as the form's closure saw it when the submit began. */
  function Settle(answer: Answer, target: string, hookError: Option<string>, failed: string, crashed: string): (r: Submitted)
    ensures !r.isLoading
    ensures r.navigateTo.Some? <==> answer == Resolved(true)
    ensures r.navigateTo.Some? ==> r.navigateTo.value == target && r.alert.None?
    ensures answer == Resolved(false) ==> r.alert == Some(OrElse(hookError, failed))
    ensures answer == Raised ==> r.alert == Some(crashed)
  {
    match answer
    case Raised => Submitted(false, Some(crashed), None)
    case Resolved(ok) =>
      if ok then Submitted(false, None, Some(target))
      else Submitted(false, Some(OrElse(hookError, failed)), None)
  }

  /** Exactly one of the two happens: the form navigates away, or it shows an alert. */
  lemma NavigatesOrAlerts(answer: Answer, target: string, hookError: Option<string>, failed: string, crashed: string)
    requires failed != "" && crashed != ""
    ensures var r := Settle(answer, target, hookError, failed, crashed);
            (r.navigateTo.Some? <==> r.alert.None?) && (r.alert.Some? ==> r.alert.value != "")
  {
  }

  /** `onSubmit` as the forms write it: the alert reads `error` from the
      render the submit started in, which is the hook's error from before the
      call, not the one the failed call has just recorded. */
  function SettleAsWritten(before: AuthHook.State, o: AuthHook.Outcome, target: string, failed: string, crashed: string): (r: Submitted)
    ensures r.navigateTo.Some? <==> o.ok
    ensures !o.ok ==> r.alert == Some(OrElse(before.error, failed))
  {
    Settle(Resolved(o.ok), target, before.error, failed, crashed)
  }

  /** `onSubmit` as intended: a failure shows the error the hook recorded for this call. */
  function SettleWithOutcome(o: AuthHook.Outcome, target: string, failed: string, crashed: string): (r: Submitted)
    ensures r.navigateTo.Some? <==> o.ok
    ensures !o.ok ==> r.alert == Some(OrElse(o.state.error, failed))
  {
    Settle(Resolved(o.ok), target, o.state.error, failed, crashed)
  }

  /** A refused sign-in carrying the server's reason: as written the alert
      shows the form's fixed fallback, while the hook holds the server's reason. */
  lemma StaleErrorHidesServerReason(b: AuthHook.Browser, stringify: AuthHook.User -> string)
    ensures var before := AuthHook.State(None, false, None);
            var call: Call<AuthHook.User> := Returned(Response(false, None, Some("用户名已存在"), None));
            var o := AuthHook.Register(before, b, call, stringify);
            o.state.error == Some("用户名已存在")
            && SettleAsWritten(before, o, "/", "注册失败，请稍后再试。", "x").alert == Some("注册失败，请稍后再试。")
            && SettleWithOutcome(o, "/", "注册失败，请稍后再试。", "x").alert == Some("用户名已存在")
  {
  }

  /** The corrected settle shows the hook's message whenever the hook recorded one. */
  lemma SettleShowsHookReason(s: AuthHook.State, b: AuthHook.Browser, call: Call<AuthHook.User>,
                              stringify: AuthHook.User -> string, target: string, failed: string, crashed: string)
    requires call.Returned? && !Delivers(call)
    ensures var o := AuthHook.Register(s, b, call, stringify);
            SettleWithOutcome(o, target, failed, crashed).alert == Some(MessageOr(call, AuthHook.RegisterFailed))
  {
  }
}

=== FILE: history_hook.dfy ===
/** The listening-history hook of hooks/use-history.tsx: the signed-in user's
    history list and the three mutations, each guarded by the user and applied
    locally only when the server acknowledges it. */
module HistoryHook {
  import opened Common
  import opened Seqs
  import opened ApiClient

  const FetchFailed := "获取历史记录失败"
  const FetchCrashed := "获取历史记录时发生错误"
  const RemoveFailed := "移除失败"
  const RemoveCrashed := "移除过程中发生错误"
  const ClearFailed := "清除失败"
  const ClearCrashed := "清除过程中发生错误"
  const MarkFailed := "标记失败"
  const MarkCrashed := "标记过程中发生错误"

  /** One listened episode; `listenedAt` is `listened_at` as a timestamp in
      milliseconds, and `durationSeconds` is absent when the server omits it. */
  datatype HistoryItem = HistoryItem(
    id: string,
    episodeId: string,
    podcastId: string,
    title: string,
    podcastTitle: string,
    imageUrl: string,
    duration: string,
    durationSeconds: Option<int>,
    progress: int,
    completed: bool,
    listenedAt: int)

  datatype State = State(items: seq<HistoryItem>, isLoading: bool, error: Option<string>)

  const Initial := State([], true, None)

  /** `fetchHistory()`; `signedIn` is whether the auth context holds a user. */
  function Fetch(s: State, signedIn: bool, call: Call<seq<HistoryItem>>): (r: State)
    ensures !signedIn ==> r == s.(items := [], isLoading := false)
    ensures signedIn ==> !r.isLoading
    ensures signedIn && Delivers(call) ==> r.items == call.response.data.value && r.error.None?
    ensures signedIn && call.Returned? && !Delivers(call) ==>
              r.items == s.items && r.error == Some(MessageOr(call, FetchFailed))
    ensures signedIn && call.Threw? ==> r.items == s.items && r.error == Some(FetchCrashed)
  {
    if !signedIn then s.(items := [], isLoading := false)
    else
      var loading := s.(isLoading := true, error := None);
      var settled :=
        match call
        case Threw => loading.(error := Some(FetchCrashed))
        case Returned(resp) =>
          if resp.success && resp.data.Some? then loading.(items := resp.data.value)
          else loading.(error := Some(OrElse(resp.message, FetchFailed)));
      settled.(isLoading := false)
  }

  /** A mutation's new state and the boolean it resolves to. */
  datatype Outcome = Outcome(state: State, ok: bool)

  /** The shape all three mutations share: without a user nothing happens and
      the answer is false; an acknowledged call applies `change`; a refusal
      or an exception records an error and answers false. */
  function Mutate(s: State, signedIn: bool, call: Call<Body<Json>>,
                  change: seq<HistoryItem> -> seq<HistoryItem>, failed: string, crashed: string): (o: Outcome)
    ensures o.ok <==> signedIn && Acknowledged(call)
    ensures o.ok ==> o.state == s.(items := change(s.items))
    ensures !signedIn ==> o.state == s
    ensures signedIn && call.Returned? && !call.response.success ==>
              o.state == s.(error := Some(MessageOr(call, failed)))
    ensures signedIn && call.Threw? ==> o.state == s.(error := Some(crashed))
  {
    if !signedIn then Outcome(s, false)
    else match call
      case Threw => Outcome(s.(error := Some(crashed)), false)
      case Returned(resp) =>
        if resp.success then Outcome(s.(items := change(s.items)), true)
        else Outcome(s.(error := Some(OrElse(resp.message, failed))), false)
  }

  /** Without a user no request is made: the outcome is the same whatever the server would answer. */
  lemma SignedOutMakesNoCall(s: State, id: string, c1: Call<Body<Json>>, c2: Call<Body<Json>>)
    ensures RemoveFromHistory(s, false, id, c1) == RemoveFromHistory(s, false, id, c2) == Outcome(s, false)
    ensures ClearHistory(s, false, c1) == ClearHistory(s, false, c2) == Outcome(s, false)
    ensures MarkAsCompleted(s, false, id, c1) == MarkAsCompleted(s, false, id, c2) == Outcome(s, false)
  {
  }

  /** The list after a removal of `id` was acknowledged. */
  function Remove(items: seq<HistoryItem>, id: string): (r: seq<HistoryItem>)
    ensures forall i :: 0 <= i < |r| ==> r[i].id != id
    ensures forall x: HistoryItem :: x.id != id ==> multiset(r)[x] == multiset(items)[x]
    ensures IsSubsequence(r, items)
  {
    Filter(items, (x: HistoryItem) => x.id != id)
  }

  /** The list after `markAsCompleted(id)` was acknowledged. */
  function MarkCompleted(items: seq<HistoryItem>, id: string): (r: seq<HistoryItem>)
    ensures |r| == |items|
    ensures forall i :: 0 <= i < |r| ==>
              r[i] == if items[i].id == id then items[i].(completed := true, progress := 100) else items[i]
  {
    seq(|items|, i requires 0 <= i < |items| =>
      if items[i].id == id then items[i].(completed := true, progress := 100) else items[i])
  }

  function RemoveFromHistory(s: State, signedIn: bool, id: string, call: Call<Body<Json>>): Outcome {
    Mutate(s, signedIn, call, items => Remove(items, id), RemoveFailed, RemoveCrashed)
  }

  function ClearHistory(s: State, signedIn: bool, call: Call<Body<Json>>): Outcome {
    Mutate(s, signedIn, call, (items: seq<HistoryItem>) => [], ClearFailed, ClearCrashed)
  }

  function MarkAsCompleted(s: State, signedIn: bool, id: string, call: Call<Body<Json>>): Outcome {
    Mutate(s, signedIn, call, items => MarkCompleted(items, id), MarkFailed, MarkCrashed)
  }

  /** The number of completed items. */
  function CompletedCount(items: seq<HistoryItem>): (c: nat)
    ensures c <= |items|
  {
    if items == [] then 0 else (if items[0].completed then 1 else 0) + CompletedCount(items[1..])
  }

  /** The items carrying `id` that are not completed yet. */
  function OpenWithId(items: seq<HistoryItem>, id: string): nat {
    if items == [] then 0 else (if !items[0].completed && items[0].id == id then 1 else 0) + OpenWithId(items[1..], id)
  }

  /** Marking completed adds exactly the open items with that id to the completed count. */
  lemma {:induction false} MarkCompletedCount(items: seq<HistoryItem>, id: string)
    ensures CompletedCount(MarkCompleted(items, id)) == CompletedCount(items) + OpenWithId(items, id)
  {
    if items != [] {
      MarkCompletedCount(items[1..], id);
      assert MarkCompleted(items, id)[1..] == MarkCompleted(items[1..], id);
    }
  }
}

=== FILE: history_page.dfy ===
/** The listening-history page of app/history/page.tsx: search, date sort,
    the completed / in-progress tabs, the three summary figures and the
    progress markers of each row. */
module HistoryPage {
  import opened Common
  import opened Text
  import opened Seqs
  import opened HistoryHook

  /** The search box matches the episode title or the podcast title, ignoring case. */
  predicate MatchesSearch(item: HistoryItem, q: string) {
    Matches(item.title, q) || Matches(item.podcastTitle, q)
  }

  /** `filteredHistory`: the matching items, newest first unless the order is "oldest". */
  function FilteredHistory(history: seq<HistoryItem>, q: string, newestFirst: bool): (r: seq<HistoryItem>)
    ensures |r| <= |history|
    ensures forall x: HistoryItem :: multiset(r)[x] == if MatchesSearch(x, q) then multiset(history)[x] else 0
    ensures newestFirst ==> forall i, j :: 0 <= i < j < |r| ==> r[i].listenedAt >= r[j].listenedAt
    ensures !newestFirst ==> forall i, j :: 0 <= i < j < |r| ==> r[i].listenedAt <= r[j].listenedAt
  {
    var matching := Filter(history, (x: HistoryItem) => MatchesSearch(x, q));
    if newestFirst then SortDescending(matching, (x: HistoryItem) => x.listenedAt)
    else SortAscending(matching, (x: HistoryItem) => x.listenedAt)
  }

  /** The sort button flips between newest and oldest first. */
  function ToggleSort(newestFirst: bool): (r: bool)
    ensures r != newestFirst
  {
    !newestFirst
  }

  predicate IsCompleted(x: HistoryItem) {
    x.completed
  }

  /** `getFilteredItems()`: the completed tab keeps completed items, the
      in-progress tab the others, and any other tab everything. */
  function TabItems(filtered: seq<HistoryItem>, tab: string): (r: seq<HistoryItem>)
    ensures tab == "completed" ==> forall i :: 0 <= i < |r| ==> r[i].completed
    ensures tab == "in-progress" ==> forall i :: 0 <= i < |r| ==> !r[i].completed
    ensures tab !in {"completed", "in-progress"} ==> r == filtered
    ensures IsSubsequence(r, filtered)
  {
    if tab == "completed" then Filter(filtered, IsCompleted)
    else if tab == "in-progress" then Filter(filtered, Not(IsCompleted))
    else
      SubsequenceReflexive(filtered);
      filtered
  }

  /** The completed and in-progress tabs split what the "all" tab shows, and
      the completed tab holds as many items as `CompletedCount` says. */
  lemma TabsPartition(filtered: seq<HistoryItem>)
    ensures multiset(TabItems(filtered, "completed")) + multiset(TabItems(filtered, "in-progress"))
            == multiset(TabItems(filtered, "all"))
    ensures |TabItems(filtered, "completed")| + |TabItems(filtered, "in-progress")| == |filtered|
    ensures |TabItems(filtered, "completed")| == CompletedCount(filtered)
  {
    FilterPartition(filtered, IsCompleted);
    CompletedCountIsFilterLength(filtered);
  }

  /** `CompletedCount` agrees with `history.filter(item => item.completed).length`. */
  lemma {:induction false} CompletedCountIsFilterLength(items: seq<HistoryItem>)
    ensures CompletedCount(items) == |Filter(items, IsCompleted)|
  {
    if items != [] {
      CompletedCountIsFilterLength(items[1..]);
      FilterLengthStep(items, IsCompleted);
    }
  }

  /** `item.duration_seconds || 0`. */
  function SecondsOf(item: HistoryItem): int {
    item.durationSeconds.GetOr(0)
  }

  /** The listened seconds summed over the list. */
  function TotalSeconds(items: seq<HistoryItem>): int {
    if items == [] then 0 else SecondsOf(items[0]) + TotalSeconds(items[1..])
  }

  /** The "hours listened" figure: whole hours of the summed durations, rounded down. */
  function TotalHours(items: seq<HistoryItem>): (h: int)
    ensures h * 3600 <= TotalSeconds(items) < (h + 1) * 3600
  {
    TotalSeconds(items) / 3600
  }

  /** Summed durations of two lists add up. */
  lemma {:induction false} TotalSecondsAppend(a: seq<HistoryItem>, b: seq<HistoryItem>)
    ensures TotalSeconds(a + b) == TotalSeconds(a) + TotalSeconds(b)
  {
    if a == [] {
      assert a + b == b;
    } else {
      TotalSecondsAppend(a[1..], b);
      assert (a + b)[1..] == a[1..] + b;
    }
  }

  predicate NoNegativeDuration(items: seq<HistoryItem>) {
    forall i :: 0 <= i < |items| ==> SecondsOf(items[i]) >= 0
  }

  /** Dropping items never raises the summed durations when none is negative. */
  lemma {:induction false} TotalSecondsOfSubsequence(sub: seq<HistoryItem>, items: seq<HistoryItem>)
    requires IsSubsequence(sub, items) && NoNegativeDuration(items)
    ensures TotalSeconds(sub) <= TotalSeconds(items)
    decreases |items|
  {
    if items != [] {
      assert NoNegativeDuration(items[1..]) by {
        forall i | 0 <= i < |items[1..]| ensures SecondsOf(items[1..][i]) >= 0 {
          assert items[1..][i] == items[i + 1];
        }
      }
      if sub != [] && sub[0] == items[0] {
        SubsequenceDropHead(sub, items);
        TotalSecondsOfSubsequence(sub[1..], items[1..]);
      } else {
        SubsequenceOfTail(sub, items);
        TotalSecondsOfSubsequence(sub, items[1..]);
      }
    }
  }

  /** Removing an item never raises the hours figure, marking one completed
      leaves it as it is, and clearing brings it to zero. */
  lemma HoursAfterMutations(items: seq<HistoryItem>, id: string)
    requires NoNegativeDuration(items)
    ensures TotalHours(Remove(items, id)) <= TotalHours(items)
    ensures TotalHours(MarkCompleted(items, id)) == TotalHours(items)
    ensures TotalHours([]) == 0
  {
    TotalSecondsOfSubsequence(Remove(items, id), items);
    MarkCompletedKeepsSeconds(items, id);
  }

  /** Marking completed does not touch any duration. */
  lemma {:induction false} MarkCompletedKeepsSeconds(items: seq<HistoryItem>, id: string)
    ensures TotalSeconds(MarkCompleted(items, id)) == TotalSeconds(items)
  {
    if items != [] {
      MarkCompletedKeepsSeconds(items[1..], id);
      assert MarkCompleted(items, id)[1..] == MarkCompleted(items[1..], id);
    }
  }

  /** The bar under the artwork: only for a partly played episode. */
  predicate ShowsProgressBar(item: HistoryItem) {
    0 < item.progress < 100
  }

  /** The percentage next to the date: for an unfinished episode with some progress. */
  predicate ShowsPercent(item: HistoryItem) {
    !item.completed && item.progress > 0
  }

  /** After `markAsCompleted(id)` succeeds, no row with that id shows a
      progress bar or a percentage, and every other row shows what it showed. */
  lemma MarkedRowsShowNoProgress(items: seq<HistoryItem>, id: string)
    ensures var r := MarkCompleted(items, id);
            forall i :: 0 <= i < |r| ==>
              if items[i].id == id then !ShowsProgressBar(r[i]) && !ShowsPercent(r[i]) && r[i].completed
              else ShowsProgressBar(r[i]) == ShowsProgressBar(items[i]) && ShowsPercent(r[i]) == ShowsPercent(items[i])
  {
  }
}

=== FILE: latest_episodes.dfy ===
/** The latest-episodes hook of hooks/use-latest-episodes.tsx: one episode
    request per subscribed podcast, the episodes of the successful answers
    merged, newest first, and the first ten kept. */
module LatestEpisodes {
  import opened Common
  import opened Seqs
  import opened ApiClient

  const Crashed := "获取最新剧集时发生错误"
  const Shown := 10

  datatype State = State(latest: seq<Episode>, isLoading: bool, error: Option<string>)

  const Initial := State([], true, None)

  /** The time an episode sorts by: `datePublished` when set, else the parsed
      `datePublishedPretty` when non-empty, else the current time. */
  function Published(e: Episode, parse: string -> int, now: int): int {
    if e.datePublished != 0 then e.datePublished
    else if e.datePublishedPretty != "" then parse(e.datePublishedPretty)
    else now
  }

  /** The episodes of every answer that succeeded with an array, podcast by podcast. */
  function Contributions(subscriptions: seq<Podcast>, answer: string -> Call<seq<Episode>>): (r: seq<Episode>)
    ensures forall e :: e in r ==>
              exists i :: 0 <= i < |subscriptions| && Delivers(answer(subscriptions[i].id))
                          && e in answer(subscriptions[i].id).response.data.value
  {
    if subscriptions == [] then []
    else
      var c := answer(subscriptions[0].id);
      var head := if Delivers(c) then c.response.data.value else [];
      var rest := Contributions(subscriptions[1..], answer);
      forall e | e in head + rest
        ensures exists i :: 0 <= i < |subscriptions| && Delivers(answer(subscriptions[i].id))
                            && e in answer(subscriptions[i].id).response.data.value
      {
        if e in head {
          assert Delivers(answer(subscriptions[0].id));
        } else {
          var i :| 0 <= i < |subscriptions[1..]| && Delivers(answer(subscriptions[1..][i].id))
                   && e in answer(subscriptions[1..][i].id).response.data.value;
          assert subscriptions[1..][i] == subscriptions[i + 1];
        }
      }
      head + rest
  }

  /** A podcast whose answer succeeded with an array gives all its episodes. */
  lemma {:induction false} DeliveredEpisodesContribute(subscriptions: seq<Podcast>, answer: string -> Call<seq<Episode>>, i: nat)
    requires i < |subscriptions| && Delivers(answer(subscriptions[i].id))
    ensures multiset(answer(subscriptions[i].id).response.data.value) <= multiset(Contributions(subscriptions, answer))
  {
    if i > 0 {
      DeliveredEpisodesContribute(subscriptions[1..], answer, i - 1);
      assert subscriptions[1..][i - 1] == subscriptions[i];
    }
  }

  /** `sort(newest first).slice(0, 10)`: the ten newest, newest first. */
  function Newest(all: seq<Episode>, key: Episode -> int): (r: seq<Episode>)
    ensures |r| == if |all| < Shown then |all| else Shown
    ensures multiset(r) <= multiset(all)
    ensures forall i, j :: 0 <= i < j < |r| ==> key(r[i]) >= key(r[j])
  {
    var sorted := SortDescending(all, key);
    assert sorted == sorted[..|Take(sorted, Shown)|] + sorted[|Take(sorted, Shown)|..];
    Take(sorted, Shown)
  }

  /** No episode left out is newer than an episode kept. */
  lemma NewestKeepsNewest(all: seq<Episode>, key: Episode -> int, x: Episode, y: Episode)
    requires x in Newest(all, key) && y in multiset(all) - multiset(Newest(all, key))
    ensures key(x) >= key(y)
  {
    var sorted := SortDescending(all, key);
    var r := Newest(all, key);
    var rest := sorted[|r|..];
    assert sorted == r + rest;
    assert multiset(all) == multiset(r) + multiset(rest);
    assert y in multiset(rest);
    var i :| 0 <= i < |r| && r[i] == x;
    var j :| 0 <= j < |rest| && rest[j] == y;
    assert sorted[i] == x && sorted[|r| + j] == y;
  }

  /** Some request threw, which rejects the whole batch. */
  predicate AnyThrew(subscriptions: seq<Podcast>, answer: string -> Call<seq<Episode>>) {
    exists i :: 0 <= i < |subscriptions| && answer(subscriptions[i].id).Threw?
  }

  /** `fetchLatestEpisodes()` for the subscriptions passed in (absent when
      undefined). `answer` is what each podcast's episode request produced. */
  function Fetch(s: State, subscriptions: Option<seq<Podcast>>, answer: string -> Call<seq<Episode>>,
                 parse: string -> int, now: int): (r: State)
    ensures !r.isLoading
    ensures (subscriptions.None? || subscriptions.value == []) ==> r == s.(latest := [], isLoading := false)
    ensures subscriptions.Some? && subscriptions.value != [] && AnyThrew(subscriptions.value, answer) ==>
              r == s.(isLoading := false, error := Some(Crashed))
    ensures subscriptions.Some? && subscriptions.value != [] && !AnyThrew(subscriptions.value, answer) ==>
              r.error.None? && r.latest == Newest(Contributions(subscriptions.value, answer), e => Published(e, parse, now))
  {
    match subscriptions
    case None => s.(latest := [], isLoading := false)
    case Some(subs) =>
      if subs == [] then s.(latest := [], isLoading := false)
      else
        var loading := s.(isLoading := true, error := None);
        var settled :=
          if AnyThrew(subs, answer) then loading.(error := Some(Crashed))
          else loading.(latest := Newest(Contributions(subs, answer), e => Published(e, parse, now)));
        settled.(isLoading := false)
  }

  /** Without subscriptions no request is made: the result is the same whatever the answers. */
  lemma NoSubscriptionsNoRequests(s: State, a1: string -> Call<seq<Episode>>, a2: string -> Call<seq<Episode>>,
                                  parse: string -> int, now: int)
    ensures Fetch(s, Some([]), a1, parse, now) == Fetch(s, Some([]), a2, parse, now)
    ensures Fetch(s, None, a1, parse, now) == Fetch(s, None, a2, parse, now)
  {
  }

  /** Every episode shown comes from a podcast whose answer succeeded with an
      array, and at most ten are shown. */
  lemma LatestComeFromSuccessfulAnswers(s: State, subscriptions: seq<Podcast>, answer: string -> Call<seq<Episode>>,
                                        parse: string -> int, now: int)
    requires subscriptions != [] && !AnyThrew(subscriptions, answer)
    ensures var r := Fetch(s, Some(subscriptions), answer, parse, now).latest;
            && |r| <= Shown
            && (forall e :: e in r ==>
                  exists i :: 0 <= i < |subscriptions| && Delivers(answer(subscriptions[i].id))
                              && e in answer(subscriptions[i].id).response.data.value)
  {
    var all := Contributions(subscriptions, answer);
    var r := Newest(all, e => Published(e, parse, now));
    forall e | e in r ensures e in all {
      assert e in multiset(r);
    }
  }
}

=== FILE: legacy_api.dfy ===
/** The older axios client of src/api/index.ts: three list requests whose
    responses are normalised so that callers always get a list. */
module LegacyApi {
  import opened Common

  /** What axios resolved to: the response body, or a rejection. */
  datatype Transport = Ok(data: Json) | Failed

  /** A body that is a list is returned as is; an object whose `key` member is
      a list gives that list; anything else gives the empty list. */
  function ListUnder(key: string, data: Json): (r: seq<Json>)
    ensures data.JArr? ==> r == data.items
    ensures !data.JArr? && Member(Some(data), key).Some? && Member(Some(data), key).value.JArr? ==>
              r == Member(Some(data), key).value.items
    ensures !data.JArr? && !(Member(Some(data), key).Some? && Member(Some(data), key).value.JArr?) ==> r == []
  {
    match data
    case JArr(items) => items
    case JObj(fields) => if key in fields && fields[key].JArr? then fields[key].items else []
    case _ => []
  }

  /** `getPodcasts()`. */
  function GetPodcasts(t: Transport): (r: seq<Json>)
    ensures t.Failed? ==> r == []
    ensures t.Ok? ==> r == ListUnder("podcasts", t.data)
  {
    match t
    case Failed => []
    case Ok(data) => ListUnder("podcasts", data)
  }

  /** `getEpisodeTrending()`: the same rule under `episodes`. */
  function GetEpisodeTrending(t: Transport): (r: seq<Json>)
    ensures t.Failed? ==> r == []
    ensures t.Ok? ==> r == ListUnder("episodes", t.data)
  {
    match t
    case Failed => []
    case Ok(data) => ListUnder("episodes", data)
  }

  /** `getEpisodes(feedId)`: the body unchanged, whatever its shape, or an empty list on a rejection. */
  function GetEpisodes(t: Transport): (r: Json)
    ensures t.Ok? ==> r == t.data
    ensures t.Failed? ==> r == JArr([])
  {
    match t
    case Failed => JArr([])
    case Ok(data) => data
  }

  /** Both shapes the server may use carry the same list, and normalising a
      normalised list changes nothing. */
  lemma ListUnderShapes(key: string, items: seq<Json>, data: Json)
    ensures ListUnder(key, JArr(items)) == items
    ensures ListUnder(key, JObj(map[key := JArr(items)])) == items
    ensures ListUnder(key, JArr(ListUnder(key, data))) == ListUnder(key, data)
  {
  }
}

=== FILE: login_form.dfy ===
/** The sign-in form of components/auth/login-form.tsx: its schema, the
    page it returns to, and what `onSubmit` does with the login answer. */
module LoginForm {
  import opened Common
  import opened ApiClient
  import opened FormRules
  import AuthHook

  const UsernameTooShort := "用户名至少需要2个字符。"
  const PasswordTooShort := "密码至少需要6个字符。"
  const Failed := "登录失败，请检查您的用户名和密码。"
  const Crashed := "登录过程中发生错误，请稍后再试。"

  datatype Values = Values(username: string, password: string, rememberMe: bool)

  const Defaults := Values("", "", false)

  function Validate(v: Values): (r: seq<Issue>)
    ensures r == [] <==> |v.username| >= 2 && |v.password| >= 6
  {
    MinLength("username", v.username, 2, UsernameTooShort) + MinLength("password", v.password, 6, PasswordTooShort)
  }

  /** Each field shows its own length message and nothing else. */
  lemma IssuesByField(v: Values)
    ensures On(Validate(v), "username") == if |v.username| < 2 then [UsernameTooShort] else []
    ensures On(Validate(v), "password") == if |v.password| < 6 then [PasswordTooShort] else []
  {
    var a := MinLength("username", v.username, 2, UsernameTooShort);
    var b := MinLength("password", v.password, 6, PasswordTooShort);
    OnAppend(a, b, "username");
    OnAppend(a, b, "password");
    OnSingle(a, "username", UsernameTooShort, "username");
    OnSingle(a, "username", UsernameTooShort, "password");
    OnSingle(b, "password", PasswordTooShort, "username");
    OnSingle(b, "password", PasswordTooShort, "password");
  }

  /** `searchParams.get("redirect") || "/"`. */
  function RedirectTarget(redirect: Option<string>): (r: string)
    ensures Truthy(redirect) ==> r == redirect.value
    ensures !Truthy(redirect) ==> r == "/"
    ensures r != ""
  {
    OrElse(redirect, "/")
  }

  /** `form.handleSubmit(onSubmit)`: nothing is sent unless the schema passes;
      then `onSubmit` settles on the login answer and returns to the target. */
  function HandleSubmit(v: Values, redirect: Option<string>, answer: Answer, hookError: Option<string>): (r: Option<Submitted>)
    ensures r.None? <==> Validate(v) != []
    ensures r.Some? ==> r.value == Settle(answer, RedirectTarget(redirect), hookError, Failed, Crashed)
  {
    if Validate(v) != [] then None else Some(Settle(answer, RedirectTarget(redirect), hookError, Failed, Crashed))
  }

  /** "Remember me" changes nothing: it is neither sent nor checked. */
  lemma RememberMeIsIgnored(v: Values, redirect: Option<string>, answer: Answer, hookError: Option<string>)
    ensures HandleSubmit(v.(rememberMe := true), redirect, answer, hookError)
            == HandleSubmit(v.(rememberMe := false), redirect, answer, hookError)
  {
  }

  /** With the hook's `login`, a valid form returns to the page that sent the
      user here (home by default) exactly when the server answered with a user. */
  lemma ReturnsExactlyOnLogin(v: Values, redirect: Option<string>, s: AuthHook.State, b: AuthHook.Browser,
                              call: Call<AuthHook.User>, stringify: AuthHook.User -> string)
    requires Validate(v) == []
    ensures var r := HandleSubmit(v, redirect, Resolved(AuthHook.Login(s, b, call, stringify).ok), s.error);
            r.Some? && !r.value.isLoading
            && (r.value.navigateTo.Some? <==> Delivers(call))
            && (r.value.navigateTo.Some? ==> r.value.navigateTo.value == (if Truthy(redirect) then redirect.value else "/"))
  {
  }
}

=== FILE: notification_badge.dfy ===
/** The bell of components/notification-badge.tsx: the unread count it
    keeps, whether it renders at all, and the label of its badge. */
module NotificationBadge {
  import opened Common
  import opened Text
  import opened ApiClient
  import opened NotificationsHook

  /** The count the effect stores: the unread count when authenticated, 0 otherwise. */
  function Count(isAuthenticated: bool, items: seq<Notification>): (n: nat)
    ensures !isAuthenticated ==> n == 0
    ensures n <= |items|
  {
    if isAuthenticated then UnreadCount(items) else 0
  }

  /** The badge text: the count itself up to nine, "9+" above. */
  function Label(n: nat): (r: string)
    requires n > 0
    ensures |r| <= 2
    ensures n <= 9 ==> |r| == 1 && AllDigits(r) && ParseDigits(r) == n
    ensures n > 9 ==> r == "9+"
  {
    if n > 9 then "9+"
    else
      ParseNatToString(n);
      NatToString(n)
  }

  /** Two counts share a label exactly when they are equal or both above nine. */
  lemma LabelCollapsesAboveNine(m: nat, n: nat)
    requires m > 0 && n > 0
    ensures Label(m) == Label(n) <==> m == n || (m > 9 && n > 9)
  {
    if Label(m) == Label(n) && m <= 9 && n <= 9 {
      assert ParseDigits(Label(m)) == ParseDigits(Label(n));
    }
    if m <= 9 && n > 9 {
      assert Label(m)[1..] == [];
    }
    if n <= 9 && m > 9 {
      assert Label(n)[1..] == [];
    }
  }

  /** What the component renders: nothing, or the bell with an optional badge. */
  datatype View = Nothing | Bell(badge: Option<string>)

  function Render(isAuthenticated: bool, items: seq<Notification>): (v: View)
    ensures !isAuthenticated <==> v == Nothing
    ensures v.Bell? ==> (v.badge.Some? <==> UnreadCount(items) > 0)
    ensures v.Bell? && v.badge.Some? ==> v.badge.value == Label(UnreadCount(items))
  {
    if !isAuthenticated then Nothing
    else
      var n := Count(true, items);
      Bell(if n > 0 then Some(Label(n)) else None)
  }

  /** The unread count is positive exactly when some notification is unread. */
  lemma {:induction false} UnreadSomewhere(items: seq<Notification>)
    ensures UnreadCount(items) > 0 <==> exists i :: 0 <= i < |items| && !items[i].read
  {
    if items != [] {
      UnreadSomewhere(items[1..]);
      if exists i :: 0 <= i < |items[1..]| && !items[1..][i].read {
        var i :| 0 <= i < |items[1..]| && !items[1..][i].read;
        assert !items[i + 1].read;
      }
      if exists i :: 0 <= i < |items| && !items[i].read {
        var i :| 0 <= i < |items| && !items[i].read;
        if i > 0 {
          assert !items[1..][i - 1].read;
        }
      }
    }
  }

  /** The badge holds its own hook instance: once that instance's fetch
      delivers a list, the bell carries a badge exactly when some delivered
      notification is unread. */
  lemma BadgeShowsFetchedUnread(s: NotificationsHook.State, call: Call<seq<Notification>>)
    requires Delivers(call)
    ensures var items := call.response.data.value;
            Render(true, Fetch(s, true, call).items).Bell?
            && (Render(true, Fetch(s, true, call).items).badge.Some?
                <==> exists i :: 0 <= i < |items| && !items[i].read)
  {
    UnreadSomewhere(call.response.data.value);
  }

  /** The notifications page calls `useNotifications()` for itself, so the
      badge and the page hold separate lists. Whatever either holds, an
      acknowledged mark-all on the page empties the page's unread count,
      while a badge whose own list still has an unread notification keeps
      showing the label of its own count. */
  lemma PageMarkAllLeavesBadge(badge: NotificationsHook.State, page: NotificationsHook.State, call: Call<Body<Json>>, i: int)
    requires Acknowledged(call)
    requires 0 <= i < |badge.items| && !badge.items[i].read
    ensures UnreadCount(MarkAllAsRead(page, call).state.items) == 0
    ensures UnreadCount(badge.items) > 0 && Render(true, badge.items) == Bell(Some(Label(UnreadCount(badge.items))))
  {
    MarkAllReadCount(page.items);
    UnreadSomewhere(badge.items);
  }
}

=== FILE: notifications_hook.dfy ===
/** The notifications hook of hooks/use-notifications.tsx: the list of
    notifications, its loading flag and error, and the four mutations, each
    applied locally only when the server acknowledges it. */
module NotificationsHook {
  import opened Common
  import opened Seqs
  import opened ApiClient

  const FetchFailed := "获取通知失败"
  const FetchCrashed := "获取通知时发生错误"

  /** One notification; `createdAt` is its `created_at` as a timestamp in milliseconds. */
  datatype Notification = Notification(
    id: string,
    title: string,
    message: string,
    kind: string,
    read: bool,
    createdAt: int,
    actionUrl: Option<string>)

  datatype State = State(items: seq<Notification>, isLoading: bool, error: Option<string>)

  /** The hook's first render: loading, nothing fetched yet. */
  const Initial := State([], true, None)

  /** `fetchNotifications()`. Whether the user is authenticated is an input:
      the hook reads it from the auth context, which never provides it. */
  function Fetch(s: State, isAuthenticated: bool, call: Call<seq<Notification>>): (r: State)
    ensures !isAuthenticated ==> r == s.(items := [], isLoading := false)
    ensures isAuthenticated ==> !r.isLoading
    ensures isAuthenticated && Delivers(call) ==> r.items == call.response.data.value && r.error.None?
    ensures isAuthenticated && call.Returned? && !Delivers(call) ==>
              r.items == s.items && r.error == Some(MessageOr(call, FetchFailed))
    ensures isAuthenticated && call.Threw? ==> r.items == s.items && r.error == Some(FetchCrashed)
  {
    if !isAuthenticated then s.(items := [], isLoading := false)
    else
      var loading := s.(isLoading := true, error := None);
      var settled :=
        match call
        case Threw => loading.(error := Some(FetchCrashed))
        case Returned(resp) =>
          if resp.success && resp.data.Some? then loading.(items := resp.data.value)
          else loading.(error := Some(OrElse(resp.message, FetchFailed)));
      settled.(isLoading := false)
  }

  /** What a mutation gives its caller: true or false, or the error thrown again. */
  datatype Answer = Answer(ok: bool) | Rethrown

  /** A mutation's new state and answer. */
  datatype Outcome = Outcome(state: State, answer: Answer)

  /** Applies `change` when the server acknowledged the call. A refusal answers
      false and an exception is thrown on; neither touches the list. */
  function Mutate(s: State, call: Call<Body<Json>>, change: seq<Notification> -> seq<Notification>): (o: Outcome)
    ensures Acknowledged(call) ==> o == Outcome(s.(items := change(s.items)), Answer(true))
    ensures call.Returned? && !call.response.success ==> o == Outcome(s, Answer(false))
    ensures call.Threw? ==> o == Outcome(s, Rethrown)
  {
    match call
    case Threw => Outcome(s, Rethrown)
    case Returned(resp) =>
      if resp.success then Outcome(s.(items := change(s.items)), Answer(true)) else Outcome(s, Answer(false))
  }

  /** The list after `markAsRead(id)` succeeded. */
  function MarkRead(items: seq<Notification>, id: string): (r: seq<Notification>)
    ensures |r| == |items|
    ensures forall i :: 0 <= i < |r| ==> r[i] == if items[i].id == id then items[i].(read := true) else items[i]
  {
    seq(|items|, i requires 0 <= i < |items| => if items[i].id == id then items[i].(read := true) else items[i])
  }

  /** The list after `markAllAsRead()` succeeded. */
  function MarkAllRead(items: seq<Notification>): (r: seq<Notification>)
    ensures |r| == |items|
    ensures forall i :: 0 <= i < |r| ==> r[i] == items[i].(read := true)
  {
    seq(|items|, i requires 0 <= i < |items| => items[i].(read := true))
  }

  /** The list after `deleteNotification(id)` succeeded. */
  function Delete(items: seq<Notification>, id: string): (r: seq<Notification>)
    ensures forall i :: 0 <= i < |r| ==> r[i].id != id
    ensures forall n: Notification :: n.id != id ==> multiset(r)[n] == multiset(items)[n]
    ensures IsSubsequence(r, items)
  {
    Filter(items, (n: Notification) => n.id != id)
  }

  function MarkAsRead(s: State, id: string, call: Call<Body<Json>>): Outcome {
    Mutate(s, call, items => MarkRead(items, id))
  }

  function MarkAllAsRead(s: State, call: Call<Body<Json>>): Outcome {
    Mutate(s, call, MarkAllRead)
  }

  function DeleteNotification(s: State, id: string, call: Call<Body<Json>>): Outcome {
    Mutate(s, call, items => Delete(items, id))
  }

  function ClearAll(s: State, call: Call<Body<Json>>): Outcome {
    Mutate(s, call, (items: seq<Notification>) => [])
  }

  /** `getUnreadCount()`: the number of unread notifications. */
  function UnreadCount(items: seq<Notification>): (c: nat)
    ensures c <= |items|
  {
    if items == [] then 0 else (if items[0].read then 0 else 1) + UnreadCount(items[1..])
  }

  /** The count agrees with `notifications.filter(n => !n.read).length`. */
  lemma {:induction false} UnreadCountIsFilterLength(items: seq<Notification>)
    ensures UnreadCount(items) == |Filter(items, (n: Notification) => !n.read)|
  {
    if items != [] {
      UnreadCountIsFilterLength(items[1..]);
      FilterLengthStep(items, (n: Notification) => !n.read);
    }
  }

  /** The unread notifications that carry `id`. */
  function UnreadWithId(items: seq<Notification>, id: string): nat {
    if items == [] then 0 else (if !items[0].read && items[0].id == id then 1 else 0) + UnreadWithId(items[1..], id)
  }

  /** Marking one notification read lowers the unread count by exactly the
      unread notifications carrying that id. */
  lemma {:induction false} MarkReadCount(items: seq<Notification>, id: string)
    ensures UnreadCount(MarkRead(items, id)) + UnreadWithId(items, id) == UnreadCount(items)
  {
    if items != [] {
      MarkReadCount(items[1..], id);
      assert MarkRead(items, id)[1..] == MarkRead(items[1..], id);
    }
  }

  /** After marking all read nothing is unread. */
  lemma {:induction false} MarkAllReadCount(items: seq<Notification>)
    ensures UnreadCount(MarkAllRead(items)) == 0
  {
    if items != [] {
      MarkAllReadCount(items[1..]);
      assert MarkAllRead(items)[1..] == MarkAllRead(items[1..]);
    }
  }

  /** Deleting by id removes exactly the unread notifications carrying that id from the count. */
  lemma {:induction false} DeleteCount(items: seq<Notification>, id: string)
    ensures UnreadCount(Delete(items, id)) + UnreadWithId(items, id) == UnreadCount(items)
  {
    if items != [] {
      DeleteCount(items[1..], id);
      var rest := Delete(items[1..], id);
      assert items == [items[0]] + items[1..];
      if items[0].id != id {
        assert Delete(items, id) == [items[0]] + rest;
        assert ([items[0]] + rest)[1..] == rest;
      } else {
        assert Delete(items, id) == rest;
      }
    }
  }

  /** The unread count after each mutation: unchanged when the server refuses
      or the call throws, zero after marking all or clearing, and lowered by
      exactly the unread notifications with that id after marking one read or
      deleting it. */
  lemma MutationsAndUnreadCount(s: State, id: string, call: Call<Body<Json>>)
    ensures !Acknowledged(call) ==>
              && MarkAsRead(s, id, call).state == s && DeleteNotification(s, id, call).state == s
              && MarkAllAsRead(s, call).state == s && ClearAll(s, call).state == s
    ensures Acknowledged(call) ==>
              && UnreadCount(MarkAllAsRead(s, call).state.items) == 0
              && UnreadCount(ClearAll(s, call).state.items) == 0
              && UnreadCount(MarkAsRead(s, id, call).state.items) == UnreadCount(s.items) - UnreadWithId(s.items, id)
              && UnreadCount(DeleteNotification(s, id, call).state.items) == UnreadCount(s.items) - UnreadWithId(s.items, id)
  {
    MarkReadCount(s.items, id);
    MarkAllReadCount(s.items);
    DeleteCount(s.items, id);
  }
}

=== FILE: notifications_page.dfy ===
/** The notifications page of app/notifications/page.tsx: the tab and search
    filter, the newest/oldest sort, the unread summary, the icon per kind and
    the relative time shown next to each notification. */
module NotificationsPage {
  import opened Common
  import opened Text
  import opened Seqs
  import opened NotificationsHook

  /** The search box matches the title or the message, ignoring case. */
  predicate MatchesSearch(n: Notification, q: string) {
    Matches(n.title, q) || Matches(n.message, q)
  }

  /** Whether the active tab keeps a notification that matches the search. */
  predicate TabKeeps(tab: string, n: Notification) {
    if tab == "all" then true
    else if tab == "unread" then !n.read
    else if tab == "read" then n.read
    else n.kind == tab
  }

  /** `filteredNotifications`: the notifications the tab keeps and the search matches, in list order. */
  function Filtered(items: seq<Notification>, tab: string, q: string): (r: seq<Notification>)
    ensures forall i :: 0 <= i < |r| ==> TabKeeps(tab, r[i]) && MatchesSearch(r[i], q)
    ensures forall n :: multiset(r)[n] == if TabKeeps(tab, n) && MatchesSearch(n, q) then multiset(items)[n] else 0
    ensures IsSubsequence(r, items)
  {
    Filter(items, n => TabKeeps(tab, n) && MatchesSearch(n, q))
  }

  /** The unread and read tabs split the "all" tab between them, for every search. */
  lemma ReadTabsPartitionAll(items: seq<Notification>, q: string)
    ensures multiset(Filtered(items, "unread", q)) + multiset(Filtered(items, "read", q))
            == multiset(Filtered(items, "all", q))
    ensures |Filtered(items, "unread", q)| + |Filtered(items, "read", q)| == |Filtered(items, "all", q)|
  {
    var u, r, a := Filtered(items, "unread", q), Filtered(items, "read", q), Filtered(items, "all", q);
    assert multiset(u) + multiset(r) == multiset(a);
    assert |multiset(u) + multiset(r)| == |multiset(a)|;
  }

  /** An empty search on the "all" tab shows every notification. */
  lemma EmptySearchShowsAll(items: seq<Notification>)
    ensures Filtered(items, "all", "") == items
  {
    forall i | 0 <= i < |items| ensures TabKeeps("all", items[i]) && MatchesSearch(items[i], "") {
      EmptyQueryMatches(items[i].title);
    }
    FilterKeepsAll(items, n => TabKeeps("all", n) && MatchesSearch(n, ""));
  }

  /** `sortedNotifications`: newest first unless the order is "oldest". */
  function SortByDate(filtered: seq<Notification>, newestFirst: bool): (r: seq<Notification>)
    ensures multiset(r) == multiset(filtered) && |r| == |filtered|
    ensures newestFirst ==> forall i, j :: 0 <= i < j < |r| ==> r[i].createdAt >= r[j].createdAt
    ensures !newestFirst ==> forall i, j :: 0 <= i < j < |r| ==> r[i].createdAt <= r[j].createdAt
  {
    if newestFirst then SortDescending(filtered, (n: Notification) => n.createdAt)
    else SortAscending(filtered, (n: Notification) => n.createdAt)
  }

  /** The "mark all as read" button and the summary line depend on the unread count. */
  predicate ShowsMarkAll(items: seq<Notification>) {
    UnreadCount(items) > 0
  }

  /** The button is there exactly when some notification is unread. */
  lemma {:induction false} ShowsMarkAllIffUnread(items: seq<Notification>)
    ensures ShowsMarkAll(items) <==> exists i :: 0 <= i < |items| && !items[i].read
  {
    if items != [] {
      ShowsMarkAllIffUnread(items[1..]);
      if ShowsMarkAll(items[1..]) {
        var i :| 0 <= i < |items[1..]| && !items[1..][i].read;
        assert !items[i + 1].read;
      }
      if exists i :: 0 <= i < |items| && !items[i].read {
        var i :| 0 <= i < |items| && !items[i].read;
        if i > 0 {
          assert !items[1..][i - 1].read;
        }
      }
    }
  }

  datatype Icon = InfoIcon | HeadphonesIcon | MegaphoneIcon | BellIcon

  /** `getNotificationIcon(type)`. */
  function IconFor(kind: string): (icon: Icon)
    ensures icon == InfoIcon <==> kind == "system"
    ensures icon == HeadphonesIcon <==> kind == "episode"
    ensures icon == MegaphoneIcon <==> kind == "podcast"
    ensures icon == BellIcon <==> kind !in {"system", "episode", "podcast"}
  {
    if kind == "system" then InfoIcon
    else if kind == "episode" then HeadphonesIcon
    else if kind == "podcast" then MegaphoneIcon
    else BellIcon
  }

  /** `Math.round(n / d)` for a positive divisor: halves round up. */
  function RoundDiv(n: int, d: int): int
    requires d > 0 && d % 2 == 0
  {
    (n + d / 2) / d
  }

  /** What `formatDate` shows: minutes, hours or days ago, or the date itself. */
  datatype Ago = MinutesAgo(minutes: int) | HoursAgo(hours: int) | DaysAgo(days: int) | OnDate(timestamp: int)

  /** `formatDate(created_at)` at time `now`; both are timestamps in milliseconds.
      Each stage rounds the one before. */
  function FormatDate(createdAt: int, now: int): (a: Ago)
    ensures a.MinutesAgo? ==> a.minutes < 60
    ensures a.HoursAgo? ==> 1 <= a.hours <= 23
    ensures a.DaysAgo? ==> 1 <= a.days <= 6
    ensures a.OnDate? ==> a.timestamp == createdAt && now - createdAt >= 559770000
  {
    var diffMs := now - createdAt;
    var mins := RoundDiv(diffMs, 60000);
    var hours := RoundDiv(mins, 60);
    var days := RoundDiv(hours, 24);
    if mins < 60 then MinutesAgo(mins)
    else if hours < 24 then HoursAgo(hours)
    else if days < 7 then DaysAgo(days)
    else OnDate(createdAt)
  }

  /** The text shown; `localeDate` stands for `toLocaleDateString("zh-CN", ...)`. */
  function AgoText(a: Ago, localeDate: int -> string): string {
    match a
    case MinutesAgo(n) => IntToString(n) + " 分钟前"
    case HoursAgo(n) => IntToString(n) + " 小时前"
    case DaysAgo(n) => IntToString(n) + " 天前"
    case OnDate(t) => localeDate(t)
  }

  /** The buckets by milliseconds elapsed. Because each stage rounds the
      rounded value before it, the boundaries fall at 59.5 minutes, 1409.5
      minutes and 9329.5 minutes; the hour count of the hours bucket is 1 to
      23 and the day count of the days bucket 1 to 6. */
  lemma FormatDateBuckets(createdAt: int, now: int)
    ensures var d := now - createdAt;
            var a := FormatDate(createdAt, now);
            && (a.MinutesAgo? <==> d < 3570000)
            && (a.HoursAgo? <==> 3570000 <= d < 84570000)
            && (a.DaysAgo? <==> 84570000 <= d < 559770000)
            && (a.OnDate? <==> 559770000 <= d)
            && (a.MinutesAgo? && d >= 0 ==> 0 <= a.minutes < 60)
            && (a.HoursAgo? ==> 1 <= a.hours <= 23)
            && (a.DaysAgo? ==> 1 <= a.days <= 6)
  {
    var d := now - createdAt;
    var mins := RoundDiv(d, 60000);
    var hours := RoundDiv(mins, 60);
    assert mins < 60 <==> d < 3570000;
    assert hours < 24 <==> mins < 1410;
    assert mins < 1410 <==> d < 84570000;
    assert RoundDiv(hours, 24) < 7 <==> hours < 156;
    assert hours < 156 <==> mins < 9330;
    assert mins < 9330 <==> d < 559770000;
  }

  /** Which bucket: 0 minutes, 1 hours, 2 days, 3 a date. */
  function Rank(a: Ago): nat {
    match a
    case MinutesAgo(_) => 0
    case HoursAgo(_) => 1
    case DaysAgo(_) => 2
    case OnDate(_) => 3
  }

  /** An older notification never shows a finer unit than a newer one. */
  lemma FormatDateMonotone(c1: int, c2: int, now: int)
    requires c1 <= c2
    ensures Rank(FormatDate(c1, now)) >= Rank(FormatDate(c2, now))
  {
    FormatDateBuckets(c1, now);
    FormatDateBuckets(c2, now);
  }
}

=== FILE: podcast_hook.dfy ===
/** The podcast-details hook of hooks/use-podcast.tsx: details first, then
    episodes only when the details arrived, and subscription calls delegated to
    the subscriptions hook behind a user guard. */
module PodcastHook {
  import opened Common
  import opened ApiClient
  import SubscriptionsHook

  const DetailsFailed := "获取播客详情失败"
  const EpisodesFailed := "获取播客剧集失败"
  const Crashed := "获取播客信息时发生错误"

  datatype State = State(podcast: Option<Podcast>, episodes: seq<Episode>, isLoading: bool, error: Option<string>)

  const Initial := State(None, [], true, None)

  /** `fetchPodcastDetails()`: `details` and `episodes` are what the two
      requests produced; the second is only issued when the first delivered. */
  function FetchDetails(s: State, details: Call<Podcast>, episodes: Call<seq<Episode>>): (r: State)
    ensures !r.isLoading
    ensures details.Threw? ==> r == s.(isLoading := false, error := Some(Crashed))
    ensures details.Returned? && !Delivers(details) ==>
              r == s.(isLoading := false, error := Some(MessageOr(details, DetailsFailed)))
    ensures Delivers(details) ==> r.podcast == details.response.data
    ensures Delivers(details) && Delivers(episodes) ==>
              r.episodes == episodes.response.data.value && r.error.None?
    ensures Delivers(details) && episodes.Returned? && !Delivers(episodes) ==>
              r.episodes == s.episodes && r.error == Some(MessageOr(episodes, EpisodesFailed))
    ensures Delivers(details) && episodes.Threw? ==> r.episodes == s.episodes && r.error == Some(Crashed)
  {
    var loading := s.(isLoading := true, error := None);
    var settled :=
      match details
      case Threw => loading.(error := Some(Crashed))
      case Returned(d) =>
        if !(d.success && d.data.Some?) then loading.(error := Some(OrElse(d.message, DetailsFailed)))
        else
          var found := loading.(podcast := d.data);
          match episodes
          case Threw => found.(error := Some(Crashed))
          case Returned(e) =>
            if e.success && e.data.Some? then found.(episodes := e.data.value)
            else found.(error := Some(OrElse(e.message, EpisodesFailed)));
    settled.(isLoading := false)
  }

  /** When the details do not arrive the episode request is never made: its
      outcome cannot influence the state. */
  lemma NoEpisodesWithoutDetails(s: State, details: Call<Podcast>, e1: Call<seq<Episode>>, e2: Call<seq<Episode>>)
    requires !Delivers(details)
    ensures FetchDetails(s, details, e1) == FetchDetails(s, details, e2)
    ensures FetchDetails(s, details, e1).episodes == s.episodes
  {
  }

  /** The mount effect: a fetch runs only for a non-empty podcast id; without
      one the hook stays in its loading state. With one, the delivered
      podcast and episodes are what the page shows, and a failed details
      request leaves no podcast and no episodes. */
  function Mount(podcastId: string, details: Call<Podcast>, episodes: Call<seq<Episode>>): (r: State)
    ensures podcastId == "" ==> r == Initial && r.isLoading
    ensures podcastId != "" ==> !r.isLoading
    ensures podcastId != "" && Delivers(details) ==> r.podcast == details.response.data
    ensures podcastId != "" && Delivers(details) && Delivers(episodes) ==>
              r.episodes == episodes.response.data.value
    ensures podcastId != "" && !Delivers(details) ==> r.podcast.None? && r.episodes == [] && r.error.Some?
  {
    if podcastId != "" then FetchDetails(Initial, details, episodes) else Initial
  }

  /** After mounting on a podcast the page shows no error exactly when both
      the details and the episodes were delivered. */
  lemma MountErrorFreeIffBothDelivered(podcastId: string, details: Call<Podcast>, episodes: Call<seq<Episode>>)
    requires podcastId != ""
    ensures Mount(podcastId, details, episodes).error.None? <==> Delivers(details) && Delivers(episodes)
  {
  }

  /** `subscribe()`: false without a user, otherwise the subscriptions hook's answer. */
  function Subscribe(subs: SubscriptionsHook.State, signedIn: bool, call: Call<Body<Json>>,
                     refetch: Call<seq<Podcast>>): (o: SubscriptionsHook.Outcome)
    ensures !signedIn ==> o == SubscriptionsHook.Outcome(subs, false)
    ensures o.ok <==> signedIn && Acknowledged(call)
  {
    if !signedIn then SubscriptionsHook.Outcome(subs, false)
    else SubscriptionsHook.Subscribe(subs, signedIn, call, refetch)
  }

  /** `unsubscribe()`: false without a user, otherwise the subscriptions hook's answer. */
  function Unsubscribe(subs: SubscriptionsHook.State, signedIn: bool, podcastId: string,
                       call: Call<Body<Json>>): (o: SubscriptionsHook.Outcome)
    ensures !signedIn ==> o == SubscriptionsHook.Outcome(subs, false)
    ensures o.ok <==> signedIn && Acknowledged(call)
    ensures o.ok ==> !IsSubscribed(o.state.subscriptions, podcastId)
  {
    if !signedIn then SubscriptionsHook.Outcome(subs, false)
    else
      var o := SubscriptionsHook.Unsubscribe(subs, signedIn, podcastId, call);
      if o.ok then
        SubscriptionsHook.UnsubscribeEndsMembership(subs, podcastId, podcastId, call);
        o
      else o
  }

  /** The exposed `isSubscribed`: whether the subscriptions list holds this podcast. */
  predicate IsSubscribed(subscriptions: seq<Podcast>, podcastId: string) {
    SubscriptionsHook.IsSubscribed(subscriptions, podcastId)
  }
}

=== FILE: podcast_layout.dfy ===
/** The navigation shell of components/podcast-layout.tsx: which nav link
    is highlighted for the current path, and the header's search box. */
module PodcastLayout {
  import opened Common
  import opened Text

  /** `isActive(path)`: the home link only on the home page, every other link
      on its own page and everything below it. */
  predicate IsActive(path: string, pathname: string)
    ensures IsActive(path, pathname) ==> |path| <= |pathname| && pathname[..|path|] == path
    ensures path == "/" && pathname != "/" ==> !IsActive(path, pathname)
  {
    if path == "/" then pathname == "/" else StartsWith(pathname, path)
  }

  /** The home link is highlighted on the home page and nowhere else. */
  lemma HomeActiveOnlyAtHome(pathname: string)
    ensures IsActive("/", pathname) <==> pathname == "/"
  {
  }

  /** Any other link stays highlighted on every page below it. */
  lemma ActiveBelowItsPath(path: string, rest: string)
    requires path != "/"
    ensures IsActive(path, path + rest)
  {
    assert (path + rest)[..|path|] == path;
  }

  /** On the home page a non-empty link other than home is never highlighted. */
  lemma HomePageHighlightsOnlyHome(path: string)
    requires path != "" && path != "/"
    ensures !IsActive(path, "/")
  {
    if |path| <= 1 {
      assert "/"[..|path|] == "/";
    }
  }

  /** The header's search box. */
  datatype Header = Header(searchQuery: string, isSearchOpen: bool)

  /** `handleSearch`: a blank query does nothing; otherwise the trimmed query
      is sent to the search page (`encode` stands for `encodeURIComponent`),
      the box closes and empties. */
  function HandleSearch(h: Header, encode: string -> string): (r: (Header, Option<string>))
    ensures IsBlank(h.searchQuery) ==> r == (h, None)
    ensures !IsBlank(h.searchQuery) ==>
              r.0 == Header("", false) && r.1 == Some("/search?q=" + encode(Trim(h.searchQuery)))
  {
    TrimBlank(h.searchQuery);
    if Trim(h.searchQuery) != "" then (Header("", false), Some("/search?q=" + encode(Trim(h.searchQuery))))
    else (h, None)
  }

  /** After a search was sent, submitting again sends nothing: the box was emptied. */
  lemma SecondSubmitIsIgnored(h: Header, encode: string -> string)
    requires !IsBlank(h.searchQuery)
    ensures var after := HandleSearch(h, encode).0;
            HandleSearch(after, encode) == (after, None)
  {
  }
}

=== FILE: profile_hook.dfy ===
/** The profile hook of hooks/use-profile.ts: the signed-in user's profile
    (falling back to the auth user when the fetch fails), their podcasts, and
    `updateProfile`, which merges the server's answer into the profile. */
module ProfileHook {
  import opened Common
  import opened ApiClient

  const FetchFailed := "无法获取用户资料"
  const FetchCrashed := "获取用户资料时发生错误"

  /** A profile is a JSON object: the user's fields plus the profile extras. */
  type Profile = Record

  datatype State = State(
    profile: Option<Profile>,
    userPodcasts: seq<Json>,
    isLoading: bool,
    error: Option<string>,
    isUpdating: bool)

  const Initial := State(None, [], true, None, false)

  /** The profile-fetch effect. `user` is the auth user; `profileCall` and
      `podcastsCall` are what the two requests produced (the second is only made
      when the first did not throw). An exception from either request falls
      back to the auth user, even when the profile had already arrived. */
  function Fetch(s: State, user: Option<Profile>, profileCall: Call<Profile>, podcastsCall: Call<seq<Json>>): (r: State)
    ensures !r.isLoading && r.isUpdating == s.isUpdating
    ensures user.None? ==> r == s.(isLoading := false)
    ensures user.Some? && profileCall.Threw? ==>
              r == s.(profile := user, isLoading := false, error := Some(FetchCrashed))
    ensures user.Some? && Delivers(profileCall) && podcastsCall.Returned? ==>
              r.profile == profileCall.response.data && r.error == s.error
    ensures user.Some? && profileCall.Returned? && !Delivers(profileCall) && podcastsCall.Returned? ==>
              r.profile == user && r.error == Some(MessageOr(profileCall, FetchFailed))
    ensures user.Some? && profileCall.Returned? && podcastsCall.Threw? ==>
              r.profile == user && r.error == Some(FetchCrashed) && r.userPodcasts == s.userPodcasts
    ensures user.Some? && profileCall.Returned? && Delivers(podcastsCall) ==>
              r.userPodcasts == podcastsCall.response.data.value
    ensures user.Some? && profileCall.Returned? && podcastsCall.Returned? && !Delivers(podcastsCall) ==>
              r.userPodcasts == s.userPodcasts
  {
    if user.None? then s.(isLoading := false)
    else
      var loading := s.(isLoading := true);
      var settled :=
        match profileCall
        case Threw => loading.(error := Some(FetchCrashed), profile := user)
        case Returned(p) =>
          var withProfile :=
            if p.success && p.data.Some? then loading.(profile := p.data)
            else loading.(error := Some(OrElse(p.message, FetchFailed)), profile := user);
          match podcastsCall
          case Threw => withProfile.(error := Some(FetchCrashed), profile := user)
          case Returned(q) =>
            if q.success && q.data.Some? then withProfile.(userPodcasts := q.data.value) else withProfile;
      settled.(isLoading := false)
  }

  /** The `isLoading` the hook exposes: its own flag or the auth hook's. */
  function ExposedLoading(s: State, authLoading: bool): (b: bool)
    ensures b <==> s.isLoading || authLoading
  {
    s.isLoading || authLoading
  }

  /** `{ ...prev, ...data }`, or `data` when there is no profile yet: the
      server's fields win, the others are kept. */
  function Merge(prev: Option<Profile>, data: Profile): (r: Profile)
    ensures r.Keys == data.Keys + (if prev.Some? then prev.value.Keys else {})
    ensures forall k :: k in r ==> r[k] == if k in data then data[k] else prev.value[k]
  {
    match prev
    case None => data
    case Some(p) => p + data
  }

  /** Merging the same answer twice gives what merging it once gave. */
  lemma MergeIdempotent(prev: Option<Profile>, data: Profile)
    ensures Merge(Some(Merge(prev, data)), data) == Merge(prev, data)
  {
  }

  datatype Outcome = Outcome(state: State, ok: bool)

  /** `updateProfile(updated)`: without a user no request is made; an answer
      that succeeded with data is merged in; anything else leaves the profile
      alone. `isUpdating` is false once it settles. */
  function Update(s: State, signedIn: bool, call: Call<Profile>): (o: Outcome)
    ensures !signedIn ==> o == Outcome(s, false)
    ensures o.ok <==> signedIn && Delivers(call)
    ensures o.ok ==> o.state == s.(profile := Some(Merge(s.profile, call.response.data.value)), isUpdating := false)
    ensures signedIn && !o.ok ==> o.state == s.(isUpdating := false)
  {
    if !signedIn then Outcome(s, false)
    else match call
      case Threw => Outcome(s.(isUpdating := false), false)
      case Returned(resp) =>
        if resp.success && resp.data.Some? then
          Outcome(s.(profile := Some(Merge(s.profile, resp.data.value)), isUpdating := false), true)
        else Outcome(s.(isUpdating := false), false)
  }

  /** A successful update keeps every field the server did not send and takes every field it did. */
  lemma UpdateKeepsUnsentFields(s: State, call: Call<Profile>, k: string)
    requires s.profile.Some? && Delivers(call)
    ensures var p := Update(s, true, call).state.profile.value;
            && (k in call.response.data.value ==> k in p && p[k] == call.response.data.value[k])
            && (k !in call.response.data.value && k in s.profile.value ==> k in p && p[k] == s.profile.value[k])
  {
  }

  /** With a user, the profile shown after the fetch is the server's when
      both requests returned and the profile was delivered, and the auth user
      otherwise. */
  lemma FetchShowsServerOrUser(s: State, user: Option<Profile>, profileCall: Call<Profile>, podcastsCall: Call<seq<Json>>)
    requires user.Some?
    ensures Fetch(s, user, profileCall, podcastsCall).profile
            == if Delivers(profileCall) && podcastsCall.Returned? then profileCall.response.data else user
  {
  }

  /** A delivered profile, then a delivered update: the profile shown is the
      fetched one with the server's answer merged over it, so every field the
      answer leaves out keeps its fetched value. */
  lemma UpdateAfterFetch(s: State, user: Option<Profile>, profileCall: Call<Profile>, podcastsCall: Call<seq<Json>>,
                         call: Call<Profile>)
    requires user.Some? && Delivers(profileCall) && podcastsCall.Returned? && Delivers(call)
    ensures var fetched := profileCall.response.data.value;
            var sent := call.response.data.value;
            var shown := Update(Fetch(s, user, profileCall, podcastsCall), true, call).state.profile;
            && shown == Some(fetched + sent)
            && (forall k :: k in fetched && k !in sent ==> shown.value[k] == fetched[k])
            && (forall k :: k in sent ==> shown.value[k] == sent[k])
  {
  }
}

=== FILE: profile_page.dfy ===
/** The profile page of app/profile/page.tsx: the redirect when signed out,
    the two most recent history records, the following list with unfollow, the
    profile it writes back on mount, and the avatar's initials. */
module ProfilePage {
  import opened Common
  import opened Text
  import opened Seqs
  import opened ApiClient
  import AuthHook
  import ProfileHook

  /** The redirect effect: with no user once auth has settled the page goes
      to the login page, without a return path. */
  function LoginRedirect(signedIn: bool, isLoading: bool): (r: Option<string>)
    ensures r.Some? <==> !signedIn && !isLoading
    ensures r.Some? ==> r.value == "/login"
  {
    if !signedIn && !isLoading then Some("/login") else None
  }

  /** After logout, once auth has settled, the profile page sends the visitor to log in. */
  lemma LogoutLeadsToLogin(s: AuthHook.State, b: AuthHook.Browser)
    requires !s.isLoading
    ensures var after := AuthHook.Logout(s, b).0;
            LoginRedirect(after.user.Some?, after.isLoading) == Some("/login")
  {
  }

  /** What the history effect stores, given the history response's body:
      `body.data?.slice(0, 2) || []`. A missing or null `data` gives `[]`; an
      array gives its first two records; a string is sliced too, so `""`
      gives `[]` and any other string its first two characters. Slicing any
      other value throws, which the effect swallows: `None`. */
  function RecentHistory(body: Json): (r: Option<Json>)
    ensures Member(Some(body), "data").None? || Member(Some(body), "data") == Some(JNull) ==> r == Some(JArr([]))
    ensures Member(Some(body), "data").Some? && Member(Some(body), "data").value.JArr? ==>
              r == Some(JArr(Take(Member(Some(body), "data").value.items, 2)))
    ensures Member(Some(body), "data") == Some(JStr("")) ==> r == Some(JArr([]))
    ensures Member(Some(body), "data").Some? && Member(Some(body), "data").value.JStr?
            && Member(Some(body), "data").value.s != "" ==>
              r == Some(JStr(Take(Member(Some(body), "data").value.s, 2)))
    ensures r.None? <==> Member(Some(body), "data").Some?
                         && Member(Some(body), "data").value !in {JNull}
                         && !Member(Some(body), "data").value.JArr?
                         && !Member(Some(body), "data").value.JStr?
    ensures r.Some? ==> (r.value.JArr? && |r.value.items| <= 2) || (r.value.JStr? && 0 < |r.value.s| <= 2)
  {
    match Member(Some(body), "data")
    case None => Some(JArr([]))
    case Some(JNull) => Some(JArr([]))
    case Some(JArr(items)) => Some(JArr(Take(items, 2)))
    case Some(JStr(text)) => if text == "" then Some(JArr([])) else Some(JStr(Take(text, 2)))
    case Some(_) => None
  }

  /** The history effect; `call` is the listening-history request and
      `history` what the page holds (an array, or the string a string `data`
      leaves behind). */
  function LoadHistory(history: Json, signedIn: bool, call: Call<Body<Json>>): (r: Json)
    ensures r == history || (r.JArr? && |r.items| <= 2) || (r.JStr? && 0 < |r.s| <= 2)
    ensures !signedIn || !Acknowledged(call) ==> r == history
  {
    if !signedIn then history
    else match call
      case Threw => history
      case Returned(resp) =>
        if resp.success && resp.data.Some? then
          var recent := RecentHistory(resp.data.value.payload);
          if recent.Some? then recent.value else history
        else history
  }

  /** What the page's own profile effect leaves: the profile hook's state, and
      the payload of the `PUT /api/users/<id>/profile` it sent through
      `updateProfile`, or `None` when it sent none. */
  datatype WriteBack = WriteBack(hook: ProfileHook.State, sent: Option<Option<Json>>)

  /** The profile effect of the page, run on mount with a user: it reads the
      profile again and, when that read succeeds, hands the body's `data`
      straight to `updateProfile`, which writes it back to the server and
      merges the server's answer (`update`). A failed or thrown read writes
      nothing. */
  function SyncProfile(s: ProfileHook.State, signedIn: bool, call: Call<Body<Json>>,
                       update: Call<ProfileHook.Profile>): (r: WriteBack)
    ensures r.sent.Some? <==> signedIn && Delivers(call)
    ensures r.sent.Some? ==> r.sent.value == Member(Some(call.response.data.value.payload), "data")
    ensures r.sent.None? ==> r.hook == s
    ensures r.sent.Some? && Delivers(update) ==>
              r.hook.profile == Some(ProfileHook.Merge(s.profile, update.response.data.value))
    ensures r.sent.Some? && !Delivers(update) ==> r.hook == s.(isUpdating := false)
  {
    if signedIn && Delivers(call) then
      WriteBack(ProfileHook.Update(s, true, update).state, Some(Member(Some(call.response.data.value.payload), "data")))
    else WriteBack(s, None)
  }

  /** Every visit with a user whose profile read succeeds writes the profile
      back, even when the profile hook had just fetched the same profile; if
      the server echoes it, the profile shown is unchanged. */
  lemma MountWritesBackFetchedProfile(s: ProfileHook.State, user: Option<ProfileHook.Profile>,
                                      profileCall: Call<ProfileHook.Profile>, podcastsCall: Call<seq<Json>>,
                                      call: Call<Body<Json>>, update: Call<ProfileHook.Profile>)
    requires user.Some? && Delivers(profileCall) && podcastsCall.Returned?
    requires Delivers(call) && Delivers(update)
    requires update.response.data == profileCall.response.data
    ensures var fetched := ProfileHook.Fetch(s, user, profileCall, podcastsCall);
            var r := SyncProfile(fetched, true, call, update);
            && r.sent.Some?
            && r.hook.profile == fetched.profile
            && !r.hook.isUpdating
  {
    var fetched := ProfileHook.Fetch(s, user, profileCall, podcastsCall);
    ProfileHook.FetchShowsServerOrUser(s, user, profileCall, podcastsCall);
    var p := profileCall.response.data.value;
    assert ProfileHook.Merge(Some(p), p) == p;
  }

  /** Someone the user follows. */
  datatype Followed = Followed(id: string, fields: Record)

  /** The following effect: a success with data replaces the list. */
  function LoadFollowing(following: seq<Followed>, signedIn: bool, call: Call<seq<Followed>>): (r: seq<Followed>)
    ensures signedIn && Delivers(call) ==> r == call.response.data.value
    ensures !(signedIn && Delivers(call)) ==> r == following
  {
    if signedIn && Delivers(call) then call.response.data.value else following
  }

  /** `handleUnfollow(id)`: an acknowledged call drops everyone with that id;
      a refusal or an exception leaves the list as it was. */
  function Unfollow(following: seq<Followed>, id: string, call: Call<Body<Json>>): (r: seq<Followed>)
    ensures Acknowledged(call) ==>
              && (forall i :: 0 <= i < |r| ==> r[i].id != id)
              && (forall f: Followed :: f.id != id ==> multiset(r)[f] == multiset(following)[f])
              && IsSubsequence(r, following)
    ensures !Acknowledged(call) ==> r == following
  {
    if Acknowledged(call) then Filter(following, (f: Followed) => f.id != id) else following
  }

  /** Unfollowing someone not followed changes nothing. */
  lemma UnfollowAbsentIsNoop(following: seq<Followed>, id: string, call: Call<Body<Json>>)
    requires forall i :: 0 <= i < |following| ==> following[i].id != id
    ensures Unfollow(following, id, call) == following
  {
    if Acknowledged(call) {
      FilterKeepsAll(following, (f: Followed) => f.id != id);
    }
  }

  /** The avatar fallback: `profile?.username?.substring(0, 2).toUpperCase() || "U"`. */
  function Initials(username: Option<string>): (r: string)
    ensures 1 <= |r| <= 2
    ensures username.Some? && username.value != "" ==> r == Upper(Take(username.value, 2))
    ensures username.None? || username.value == "" ==> r == "U"
  {
    match username
    case Some(u) => if u != "" then Upper(Take(u, 2)) else "U"
    case None => "U"
  }

  /** The initials carry no lower-case ASCII letter. */
  lemma InitialsAreUpperCase(username: Option<string>)
    ensures forall i :: 0 <= i < |Initials(username)| ==> !('a' <= Initials(username)[i] <= 'z')
  {
  }
}

=== FILE: protected_route.dfy ===
/** The guard of components/protected-route.tsx: the session check that
    runs whenever the user, the loading flag or the path changes, and the
    gate that shows a spinner or the protected page. */
module ProtectedRoute {
  import opened Common
  import opened ApiClient

  /** What `api.validateToken()` gave: a verdict, or an exception. */
  datatype Validation = Valid | Invalid | Crashed

  /** The verdict the token store gives when the call does not throw. */
  function VerdictOf(store: TokenStore): (v: Validation)
    ensures v == Valid <==> ValidateToken(store)
    ensures v != Crashed
  {
    if ValidateToken(store) then Valid else Invalid
  }

  /** `/login?redirect=<encoded path>`; `encode` stands for `encodeURIComponent`. */
  function LoginUrl(pathname: string, encode: string -> string): string {
    "/login?redirect=" + encode(pathname)
  }

  /** What a run of `validateSession` leaves: the `isValidating` flag and the
      navigation it asked for. */
  datatype Check = Check(isValidating: bool, redirect: Option<string>)

  /** `validateSession` as written. Without a user (and not loading) it
      redirects and returns early, leaving the flag as it was; with a user it
      asks for the token's verdict, redirects unless it is valid, and lowers
      the flag in every case. */
  function ValidateSessionAsWritten(isValidating: bool, hasUser: bool, isLoading: bool, answer: Validation,
                                    pathname: string, encode: string -> string): (c: Check)
    ensures !isLoading && !hasUser ==> c == Check(isValidating, Some(LoginUrl(pathname, encode)))
    ensures hasUser ==> !c.isValidating && (c.redirect.None? <==> answer == Valid)
    ensures c.redirect.Some? ==> c.redirect.value == LoginUrl(pathname, encode)
  {
    if !isLoading && !hasUser then Check(isValidating, Some(LoginUrl(pathname, encode)))
    else if hasUser then
      Check(false, if answer == Valid then None else Some(LoginUrl(pathname, encode)))
    else Check(false, None)
  }

  datatype View = Spinner | Children

  /** The gate: a spinner while auth is loading or the session check is pending. */
  function Render(isLoading: bool, isValidating: bool): (v: View)
    ensures v == Children <==> !isLoading && !isValidating
  {
    if isLoading || isValidating then Spinner else Children
  }

  /** With a user whose token is rejected (or whose check throws), the page as
      written both asks for the login redirect and opens the gate: the
      protected children render until the navigation happens. */
  lemma InvalidTokenRendersChildren(pathname: string, encode: string -> string, answer: Validation)
    requires answer != Valid
    ensures var c := ValidateSessionAsWritten(true, true, false, answer, pathname, encode);
            c.redirect == Some(LoginUrl(pathname, encode)) && Render(false, c.isValidating) == Children
  {
  }

  /** What one run of the effect sees: whether there is a user, whether auth
      is still loading, and the token's verdict. */
  datatype Snapshot = Snapshot(hasUser: bool, isLoading: bool, answer: Validation)

  /** The as-written effect run once per snapshot, from the check `c` left by
      the previous run; the result is the check of the last run. */
  function ReplayAsWritten(c: Check, runs: seq<Snapshot>, pathname: string, encode: string -> string): Check
    decreases |runs|
  {
    if runs == [] then c
    else
      var next := ValidateSessionAsWritten(c.isValidating, runs[0].hasUser, runs[0].isLoading, runs[0].answer, pathname, encode);
      ReplayAsWritten(next, runs[1..], pathname, encode)
  }

  /** Every page load starts with auth loading and no user. The as-written run
      during loading lowers the flag; when auth then settles signed out, the
      redirect is asked for and the gate is already open. */
  lemma SignedOutVisitorSeesChildren(pathname: string, encode: string -> string, answer: Validation)
    ensures var c := ReplayAsWritten(Check(true, None),
                                     [Snapshot(false, true, answer), Snapshot(false, false, answer)], pathname, encode);
            c.redirect == Some(LoginUrl(pathname, encode)) && Render(false, c.isValidating) == Children
  {
    var runs := [Snapshot(false, true, answer), Snapshot(false, false, answer)];
    var c1 := ValidateSessionAsWritten(true, false, true, answer, pathname, encode);
    var c2 := ValidateSessionAsWritten(c1.isValidating, false, false, answer, pathname, encode);
    assert runs[1..] == [Snapshot(false, false, answer)];
    assert ReplayAsWritten(c2, runs[1..][1..], pathname, encode) == c2 by { assert runs[1..][1..] == []; }
  }

  /** `validateSession` as intended by the comment over the final render
      ("user signed in and token valid"): the same redirects, and the flag
      is lowered exactly when a user's token was judged valid. */
  function ValidateSession(isValidating: bool, hasUser: bool, isLoading: bool, answer: Validation,
                           pathname: string, encode: string -> string): (c: Check)
    ensures c.redirect.Some? ==> c.redirect.value == LoginUrl(pathname, encode)
    ensures c.redirect.Some? <==> (!isLoading && !hasUser) || (hasUser && answer != Valid)
    ensures c.redirect == ValidateSessionAsWritten(isValidating, hasUser, isLoading, answer, pathname, encode).redirect
    ensures !c.isValidating <==> hasUser && answer == Valid
  {
    if !isLoading && !hasUser then Check(true, Some(LoginUrl(pathname, encode)))
    else if hasUser then
      if answer == Valid then Check(false, None) else Check(true, Some(LoginUrl(pathname, encode)))
    else Check(true, None)
  }

  /** The corrected effect replayed over a sequence of snapshots. */
  function Replay(c: Check, runs: seq<Snapshot>, pathname: string, encode: string -> string): Check
    decreases |runs|
  {
    if runs == [] then c
    else
      var next := ValidateSession(c.isValidating, runs[0].hasUser, runs[0].isLoading, runs[0].answer, pathname, encode);
      Replay(next, runs[1..], pathname, encode)
  }

  /** The gate after any non-empty sequence of runs, whatever flag it started
      from: the protected page shows exactly when the last run saw a loaded
      user with a valid token, and never while a redirect is pending. */
  lemma {:induction false} ChildrenExactlyForValidSession(c: Check, runs: seq<Snapshot>,
                                                          pathname: string, encode: string -> string)
    requires runs != []
    ensures var r := Replay(c, runs, pathname, encode);
            var last := runs[|runs| - 1];
            (Render(last.isLoading, r.isValidating) == Children <==> !last.isLoading && last.hasUser && last.answer == Valid)
            && (r.redirect.Some? ==> Render(last.isLoading, r.isValidating) == Spinner)
    decreases |runs|
  {
    var next := ValidateSession(c.isValidating, runs[0].hasUser, runs[0].isLoading, runs[0].answer, pathname, encode);
    if |runs| > 1 {
      ChildrenExactlyForValidSession(next, runs[1..], pathname, encode);
      assert runs[1..][|runs[1..]| - 1] == runs[|runs| - 1];
    } else {
      assert runs[1..] == [];
    }
  }

  /** The loading-then-signed-out page load, corrected: the redirect is asked
      for and the gate stays shut. */
  lemma SignedOutVisitorIsHeld(pathname: string, encode: string -> string, answer: Validation)
    ensures var c := Replay(Check(true, None),
                            [Snapshot(false, true, answer), Snapshot(false, false, answer)], pathname, encode);
            c.redirect == Some(LoginUrl(pathname, encode)) && Render(false, c.isValidating) == Spinner
  {
    var runs := [Snapshot(false, true, answer), Snapshot(false, false, answer)];
    var c1 := ValidateSession(true, false, true, answer, pathname, encode);
    var c2 := ValidateSession(c1.isValidating, false, false, answer, pathname, encode);
    assert runs[1..] == [Snapshot(false, false, answer)];
    assert Replay(c2, runs[1..][1..], pathname, encode) == c2 by { assert runs[1..][1..] == []; }
  }

  /** After logging out, the guard sends a remaining user's page to the login
      screen: the emptied token store gives no valid verdict. */
  lemma LoggedOutTokenRedirects(store: TokenStore, isLoading: bool, pathname: string, encode: string -> string)
    ensures ValidateSession(true, true, isLoading, VerdictOf(Logout(store)), pathname, encode).redirect
            == Some(LoginUrl(pathname, encode))
  {
  }
}

=== FILE: register_form.dfy ===
/** The sign-up form of components/auth/register-form.tsx: its schema and
    what `onSubmit` does with the register call's answer. */
module RegisterForm {
  import opened Common
  import opened ApiClient
  import opened FormRules
  import AuthHook

  const UsernameTooShort := "用户名至少需要2个字符。"
  const BadEmail := "请输入有效的电子邮件地址。"
  const PasswordTooShort := "密码至少需要6个字符。"
  const TermsNotAccepted := "您必须同意服务条款和隐私政策。"
  const Mismatch := "密码不匹配。"
  const Failed := "注册失败，请稍后再试。"
  const Crashed := "注册过程中发生错误，请稍后再试。"

  datatype Values = Values(username: string, email: string, password: string, confirmPassword: string, agreeTerms: bool)

  const Defaults := Values("", "", "", "", false)

  /** The schema's issues; `isEmail` is zod's e-mail check. The field checks
      only mark the result dirty, so the password refinement still runs. */
  function Validate(v: Values, isEmail: string -> bool): (r: seq<Issue>)
    ensures r == [] <==> |v.username| >= 2 && isEmail(v.email) && |v.password| >= 6
                         && v.agreeTerms && v.password == v.confirmPassword
  {
    MinLength("username", v.username, 2, UsernameTooShort)
    + Refine(isEmail(v.email), "email", BadEmail)
    + MinLength("password", v.password, 6, PasswordTooShort)
    + Refine(v.agreeTerms, "agreeTerms", TermsNotAccepted)
    + Refine(v.password == v.confirmPassword, "confirmPassword", Mismatch)
  }

  /** The issue list under each field: the password field shows only its
      length message, and the mismatch is reported under the confirmation
      field and nowhere else. */
  lemma IssuesByField(v: Values, isEmail: string -> bool)
    ensures On(Validate(v, isEmail), "password") == if |v.password| < 6 then [PasswordTooShort] else []
    ensures On(Validate(v, isEmail), "confirmPassword") == if v.password != v.confirmPassword then [Mismatch] else []
    ensures On(Validate(v, isEmail), "username") == if |v.username| < 2 then [UsernameTooShort] else []
  {
    FieldIssues(v, isEmail, "password");
    FieldIssues(v, isEmail, "confirmPassword");
    FieldIssues(v, isEmail, "username");
  }

  /** The messages under one field, piece by piece of the schema. */
  lemma FieldIssues(v: Values, isEmail: string -> bool, field: string)
    ensures On(Validate(v, isEmail), field)
            == (if field == "username" && |v.username| < 2 then [UsernameTooShort] else [])
             + (if field == "email" && !isEmail(v.email) then [BadEmail] else [])
             + (if field == "password" && |v.password| < 6 then [PasswordTooShort] else [])
             + (if field == "agreeTerms" && !v.agreeTerms then [TermsNotAccepted] else [])
             + (if field == "confirmPassword" && v.password != v.confirmPassword then [Mismatch] else [])
  {
    var a := MinLength("username", v.username, 2, UsernameTooShort);
    var b := Refine(isEmail(v.email), "email", BadEmail);
    var c := MinLength("password", v.password, 6, PasswordTooShort);
    var d := Refine(v.agreeTerms, "agreeTerms", TermsNotAccepted);
    var e := Refine(v.password == v.confirmPassword, "confirmPassword", Mismatch);
    OnFive(a, b, c, d, e, field);
    OnSingle(a, "username", UsernameTooShort, field);
    OnSingle(b, "email", BadEmail, field);
    OnSingle(c, "password", PasswordTooShort, field);
    OnSingle(d, "agreeTerms", TermsNotAccepted, field);
    OnSingle(e, "confirmPassword", Mismatch, field);
  }

  lemma OnFive(a: seq<Issue>, b: seq<Issue>, c: seq<Issue>, d: seq<Issue>, e: seq<Issue>, field: string)
    ensures On(a + b + c + d + e, field) == On(a, field) + On(b, field) + On(c, field) + On(d, field) + On(e, field)
  {
    OnAppend(a, b, field);
    OnAppend(a + b, c, field);
    OnAppend(a + b + c, d, field);
    OnAppend(a + b + c + d, e, field);
  }

  /** The blank form the page opens with is never submitted. */
  lemma DefaultsAreRejected(isEmail: string -> bool)
    ensures Validate(Defaults, isEmail) != []
  {
  }

  /** `form.handleSubmit(onSubmit)`: nothing is sent unless the schema
      passes; then `onSubmit` settles on the register call's answer and goes
      home on success. */
  function HandleSubmit(v: Values, isEmail: string -> bool, answer: Answer, hookError: Option<string>): (r: Option<Submitted>)
    ensures r.None? <==> Validate(v, isEmail) != []
    ensures r.Some? ==> r.value == Settle(answer, "/", hookError, Failed, Crashed)
  {
    if Validate(v, isEmail) != [] then None else Some(Settle(answer, "/", hookError, Failed, Crashed))
  }

  /** With the hook's `register`, which never throws, a valid form goes home
      exactly when the server answered with a user. */
  lemma GoesHomeExactlyOnRegistration(v: Values, isEmail: string -> bool, s: AuthHook.State, b: AuthHook.Browser,
                                      call: Call<AuthHook.User>, stringify: AuthHook.User -> string)
    requires Validate(v, isEmail) == []
    ensures var r := HandleSubmit(v, isEmail, Resolved(AuthHook.Register(s, b, call, stringify).ok), s.error);
            r.Some? && !r.value.isLoading && (r.value.navigateTo == Some("/") <==> Delivers(call))
  {
  }
}

=== FILE: reset_password_form.dfy ===
/** The new-password form of components/auth/reset-password-form.tsx: its
    schema and its submit, which only waits and then goes to the login page. */
module ResetPasswordForm {
  import opened Common
  import opened FormRules

  const PasswordTooShort := "密码至少需要6个字符。"
  const Mismatch := "密码不匹配。"

  datatype Values = Values(password: string, confirmPassword: string)

  const Defaults := Values("", "")

  function Validate(v: Values): (r: seq<Issue>)
    ensures r == [] <==> |v.password| >= 6 && v.password == v.confirmPassword
  {
    MinLength("password", v.password, 6, PasswordTooShort)
    + Refine(v.password == v.confirmPassword, "confirmPassword", Mismatch)
  }

  /** The mismatch shows under the confirmation field, the length message under the password. */
  lemma IssuesByField(v: Values)
    ensures On(Validate(v), "password") == if |v.password| < 6 then [PasswordTooShort] else []
    ensures On(Validate(v), "confirmPassword") == if v.password != v.confirmPassword then [Mismatch] else []
  {
    var a := MinLength("password", v.password, 6, PasswordTooShort);
    var b := Refine(v.password == v.confirmPassword, "confirmPassword", Mismatch);
    OnAppend(a, b, "password");
    OnAppend(a, b, "confirmPassword");
    OnSingle(a, "password", PasswordTooShort, "password");
    OnSingle(a, "password", PasswordTooShort, "confirmPassword");
    OnSingle(b, "confirmPassword", Mismatch, "password");
    OnSingle(b, "confirmPassword", Mismatch, "confirmPassword");
  }

  /** `form.handleSubmit(onSubmit)`: the loading flag while the simulated
      request waits, and the form afterwards. */
  function HandleSubmit(v: Values): (r: Option<(bool, Submitted)>)
    ensures r.None? <==> Validate(v) != []
    ensures r.Some? ==> r.value.0 && r.value.1 == Submitted(false, None, Some("/login"))
  {
    if Validate(v) != [] then None else Some((true, Submitted(false, None, Some("/login"))))
  }

  /** Two matching passwords of six characters or more always lead to the login page. */
  lemma MatchingPasswordsGoToLogin(p: string)
    requires |p| >= 6
    ensures HandleSubmit(Values(p, p)) == Some((true, Submitted(false, None, Some("/login"))))
  {
  }
}

=== FILE: search_dialog.dfy ===
/** The search dialog of components/search/search-dialog.tsx: its own search
    history (with a blank guard), the search dispatch, the reset on close, the
    mapping of the hook's results into cards and the nine-card display cap. */
module SearchDialog {
  import opened Common
  import opened Text
  import opened Seqs
  import opened SearchHistory
  import opened SearchHook

  /** The storage key of the dialog's history. */
  const HistoryKey := "podcast_search_history"
  const Uncategorised := "未分类"
  const DisplayCap := 9

  datatype DialogState = DialogState(
    query: string,
    activeTab: string,
    category: string,
    sortBy: string,
    history: History,
    showFilters: bool,
    hasSearched: bool)

  /** The dialog's first render, with the stored history loaded. */
  function Opened(storage: Storage): (s: DialogState)
    ensures Synced(s.history, HistoryKey) && !s.hasSearched
  {
    DialogState("", "all", "all", "relevance", Mount(storage, HistoryKey), false, false)
  }

  /** The effect on `open` turning false: everything but the history is reset. */
  function Close(s: DialogState): (r: DialogState)
    ensures r.query == "" && !r.hasSearched && !r.showFilters
    ensures r.activeTab == "all" && r.category == "all" && r.sortBy == "relevance"
    ensures r.history == s.history
  {
    s.(query := "", hasSearched := false, activeTab := "all", category := "all",
       sortBy := "relevance", showFilters := false)
  }

  /** Closing and reopening is the same as opening on the current history. */
  lemma CloseForgetsSearch(s: DialogState, storage: Storage)
    requires s.history == Mount(storage, HistoryKey)
    ensures Close(s) == Opened(storage)
  {
  }

  /** `addToSearchHistory(q)`: a blank query is not recorded. */
  function AddGuarded(h: History, q: string): (r: History)
    ensures IsBlank(q) ==> r == h
    ensures !IsBlank(q) ==> r == AddEntry(h, HistoryKey, q)
  {
    TrimBlank(q);
    if Trim(q) == "" then h else AddEntry(h, HistoryKey, q)
  }

  datatype Outcome = Outcome(state: DialogState, request: Option<Request>)

  /** The dialog's dispatch: the episodes and creators tabs search nothing. */
  function Dispatch(tab: string, q: string, category: string, sortBy: string): (r: Option<Request>)
    ensures r.None? <==> tab == "episodes" || tab == "creators"
    ensures tab == "podcasts" ==> r == Some(SearchPodcasts(q, category, sortBy))
    ensures r.Some? && tab != "podcasts" ==> r == Some(SearchAll(q, category, sortBy))
  {
    if tab == "podcasts" then Some(SearchPodcasts(q, category, sortBy))
    else if tab == "episodes" || tab == "creators" then None
    else Some(SearchAll(q, category, sortBy))
  }

  /** `performSearch()`: nothing for a blank query; otherwise the dialog
      remembers that it searched, records the query and dispatches. */
  function PerformSearch(s: DialogState): (o: Outcome)
    ensures IsBlank(s.query) ==> o == Outcome(s, None)
    ensures !IsBlank(s.query) ==>
              && o.state == s.(hasSearched := true, history := AddEntry(s.history, HistoryKey, s.query))
              && o.request == Dispatch(s.activeTab, s.query, s.category, s.sortBy)
  {
    TrimBlank(s.query);
    if Trim(s.query) == "" then Outcome(s, None)
    else
      var s' := s.(hasSearched := true, history := AddGuarded(s.history, s.query));
      Outcome(s', Dispatch(s.activeTab, s.query, s.category, s.sortBy))
  }

  /** A search keeps the history well formed and in step with storage. */
  lemma PerformSearchKeepsHistory(s: DialogState)
    requires Synced(s.history, HistoryKey) && NoDup(s.history.entries) && |s.history.entries| <= Capacity
    ensures var h := PerformSearch(s).state.history;
            Synced(h, HistoryKey) && NoDup(h.entries) && |h.entries| <= Capacity
            && (!IsBlank(s.query) ==> h.entries != [] && h.entries[0] == s.query)
  {
    AddKeepsNoDup(s.history.entries, s.query);
  }

  /** `handleTabChange(v)` as the dialog writes it: the search runs on the old tab. */
  function TabChangeAsWritten(s: DialogState, v: string): Outcome {
    if !s.hasSearched then Outcome(s.(activeTab := v), None)
    else
      var o := PerformSearch(s);
      Outcome(o.state.(activeTab := v), o.request)
  }

  /** After searching podcasts for "x", switching to "episodes" still searches podcasts. */
  lemma TabChangeUsesOldTab()
    ensures var s := DialogState("x", "podcasts", "all", "relevance", History(["x"], map[HistoryKey := ["x"]]), false, true);
            TabChangeAsWritten(s, "episodes").request == Some(SearchPodcasts("x", "all", "relevance"))
            && TabChange(s, "episodes").request == None
  {
    assert !IsSpace("x"[0]);
    TrimBlank("x");
  }

  /** `handleTabChange(v)` as intended: once the dialog has searched, the search
      runs again for the tab just chosen. */
  function TabChange(s: DialogState, v: string): (o: Outcome)
    ensures o.state.activeTab == v
    ensures !s.hasSearched ==> o == Outcome(s.(activeTab := v), None)
    ensures s.hasSearched && !IsBlank(s.query) ==> o.request == Dispatch(v, s.query, s.category, s.sortBy)
  {
    if !s.hasSearched then Outcome(s.(activeTab := v), None)
    else PerformSearch(s.(activeTab := v))
  }

  /** One podcast as the search backend lists it under `feeds`. */
  datatype Feed = Feed(
    id: string,
    title: string,
    description: string,
    artwork: Option<string>,
    image: Option<string>,
    author: string,
    categories: Option<seq<string>>,  // `Object.values(feed.categories)`, in that order
    episodeCount: Option<int>)

  /** A podcast card. */
  datatype Card = Card(
    id: string,
    title: string,
    description: string,
    imageUrl: Option<string>,
    author: string,
    category: string,
    episodeCount: Option<int>)

  /** A result shown by the dialog: a mapped podcast, or an item passed through as it came. */
  datatype Result = PodcastHit(card: Card) | Listed(item: Json)

  /** `Object.values(feed.categories || {})[0] || "未分类"`. */
  function CategoryOf(categories: Option<seq<string>>): (c: string)
    ensures c != ""
    ensures categories.Some? && categories.value != [] && categories.value[0] != "" ==> c == categories.value[0]
    ensures !(categories.Some? && categories.value != [] && categories.value[0] != "") ==> c == Uncategorised
  {
    match categories
    case Some(vs) => if vs != [] && vs[0] != "" then vs[0] else Uncategorised
    case None => Uncategorised
  }

  /** The card for one feed. */
  function ToCard(f: Feed): (c: Card)
    ensures c.id == f.id && c.title == f.title && c.description == f.description
    ensures c.author == f.author && c.episodeCount == f.episodeCount
    ensures Truthy(f.artwork) ==> c.imageUrl == f.artwork
    ensures !Truthy(f.artwork) ==> c.imageUrl == f.image
    ensures c.category == CategoryOf(f.categories)
  {
    Card(f.id, f.title, f.description, if Truthy(f.artwork) then f.artwork else f.image,
         f.author, CategoryOf(f.categories), f.episodeCount)
  }

  function MapCards(feeds: seq<Feed>): (r: seq<Result>)
    ensures |r| == |feeds|
    ensures forall i :: 0 <= i < |feeds| ==> r[i] == PodcastHit(ToCard(feeds[i]))
  {
    if feeds == [] then [] else [PodcastHit(ToCard(feeds[0]))] + MapCards(feeds[1..])
  }

  /** `Array.isArray(x) ? x : []`. */
  function ListOrEmpty(x: Option<Json>): (r: seq<Result>)
    ensures x.Some? && x.value.JArr? ==> |r| == |x.value.items| && forall i :: 0 <= i < |r| ==> r[i] == Listed(x.value.items[i])
    ensures !(x.Some? && x.value.JArr?) ==> r == []
  {
    match x
    case Some(JArr(items)) => seq(|items|, i requires 0 <= i < |items| => Listed(items[i]))
    case _ => []
  }

  /** `getCurrentResults()`. `feeds` is the `feeds` member of the hook's results
      (absent when the results carry none); the episode and creator lists are
      read from the hook but never provided by it. */
  function CurrentResults(tab: string, feeds: Option<seq<Feed>>, episodes: Option<Json>, creators: Option<Json>): (r: seq<Result>)
    ensures (tab == "podcasts" || tab == "all") ==> r == (if feeds.Some? then MapCards(feeds.value) else [])
    ensures tab == "episodes" ==> r == ListOrEmpty(episodes)
    ensures tab == "creators" ==> r == ListOrEmpty(creators)
    ensures tab !in {"podcasts", "all", "episodes", "creators"} ==> r == []
    ensures forall i :: 0 <= i < |r| ==> (r[i].PodcastHit? <==> tab == "podcasts" || tab == "all")
  {
    if tab == "podcasts" || tab == "all" then
      if feeds.Some? then MapCards(feeds.value) else []
    else if tab == "episodes" then ListOrEmpty(episodes)
    else if tab == "creators" then ListOrEmpty(creators)
    else []
  }

  /** `results.slice(0, 9)`. */
  function Displayed(results: seq<Result>): seq<Result> {
    Take(results, DisplayCap)
  }

  /** The "more results" button. */
  predicate ShowsMore(results: seq<Result>) {
    |results| > DisplayCap
  }

  /** At most nine cards are shown, they are the first results in order, and
      the "more results" button appears exactly when something is not shown. */
  lemma DisplayCapSplit(results: seq<Result>)
    ensures |Displayed(results)| <= DisplayCap
    ensures results == Displayed(results) + results[|Displayed(results)|..]
    ensures ShowsMore(results) <==> |Displayed(results)| < |results|
    ensures !ShowsMore(results) ==> Displayed(results) == results
  {
  }

  /** The "more results" button: the page's search for the dialog's query (not
      trimmed), and the dialog closes. */
  function MoreResults(s: DialogState, encode: string -> string): (r: (string, bool))
    ensures r.0 == "/search?q=" + encode(s.query)
    ensures !r.1
  {
    ("/search?q=" + encode(s.query), false)
  }

  /** Where a podcast card leads; choosing it also closes the dialog. */
  function CardTarget(c: Card): (r: (string, bool))
    ensures r.0 == "/podcast/" + c.id && !r.1
  {
    ("/podcast/" + c.id, false)
  }
}

=== FILE: search_history.dfy ===
/** The most-recently-used search history that the search page
    (app/search/page.tsx) and the search dialog
    (components/search/search-dialog.tsx) each keep, together with its copy in
    browser storage. Both copies follow the same rule: the new query moves to
    the front, earlier copies of it are dropped, and at most ten entries stay. */
module SearchHistory {
  import opened Seqs

  const Capacity := 10

  /** No entry appears twice. */
  predicate NoDup(h: seq<string>) {
    forall i, j :: 0 <= i < j < |h| ==> h[i] != h[j]
  }

  /** `[q, ...h.filter(x => x !== q)].slice(0, 10)`. */
  function Add(h: seq<string>, q: string): (r: seq<string>)
    ensures r != [] && r[0] == q
    ensures |r| <= Capacity
    ensures q !in r[1..]
    ensures IsSubsequence(r[1..], h)
  {
    var rest := Filter(h, x => x != q);
    var r := Take([q] + rest, Capacity);
    assert r[1..] == Take(rest, Capacity - 1);
    assert IsSubsequence(Take(rest, Capacity - 1), rest) by { TakeIsSubsequence(rest, Capacity - 1); }
    SubsequenceTransitive(r[1..], rest, h);
    r
  }

  lemma {:induction false} TakeIsSubsequence(s: seq<string>, n: nat)
    ensures IsSubsequence(Take(s, n), s)
    decreases |s|
  {
    if n == 0 || s == [] {
    } else if n < |s| {
      TakeIsSubsequence(s[1..], n - 1);
      assert Take(s, n)[1..] == Take(s[1..], n - 1);
    } else {
      SubsequenceReflexive(s);
    }
  }

  lemma {:induction false} SubsequenceTransitive(a: seq<string>, b: seq<string>, c: seq<string>)
    requires IsSubsequence(a, b) && IsSubsequence(b, c)
    ensures IsSubsequence(a, c)
    decreases |c|
  {
    if a != [] && c != [] {
      if b[0] == c[0] {
        if a[0] == b[0] {
          SubsequenceTransitive(a[1..], b[1..], c[1..]);
        } else {
          SubsequenceTransitive(a, b[1..], c[1..]);
        }
      } else {
        SubsequenceTransitive(a, b, c[1..]);
        SubsequenceOfTail(a, c);
      }
    }
  }

  /** The added query occurs exactly once. */
  lemma AddOnce(h: seq<string>, q: string)
    ensures multiset(Add(h, q))[q] == 1
  {
    var r := Add(h, q);
    assert r == [r[0]] + r[1..];
  }

  /** While the history has room, adding loses no earlier entry. */
  lemma AddKeepsWhileRoom(h: seq<string>, q: string)
    requires |h| < Capacity
    ensures forall x :: x in h ==> x in Add(h, q)
  {
    var rest := Filter(h, x => x != q);
    assert Add(h, q) == [q] + rest;
    forall x | x in h ensures x in Add(h, q) {
      if x != q {
        assert multiset(rest)[x] == multiset(h)[x];
        assert x in multiset(rest);
      }
    }
  }

  /** A history without duplicates stays without duplicates. */
  lemma AddKeepsNoDup(h: seq<string>, q: string)
    requires NoDup(h)
    ensures NoDup(Add(h, q))
  {
    var rest := Filter(h, x => x != q);
    NoDupSubsequence(rest, h);
    var r := Add(h, q);
    forall i, j | 0 <= i < j < |r| ensures r[i] != r[j] {
      if i == 0 {
        assert r[j] in r[1..];
      } else {
        assert r[i] == rest[i - 1] && r[j] == rest[j - 1];
      }
    }
  }

  lemma {:induction false} NoDupSubsequence(a: seq<string>, b: seq<string>)
    requires IsSubsequence(a, b) && NoDup(b)
    ensures NoDup(a)
    decreases |b|
  {
    if a != [] {
      assert NoDup(b[1..]);
      if a[0] == b[0] {
        NoDupSubsequence(a[1..], b[1..]);
        SubsequenceMembers(a[1..], b[1..]);
        forall j | 0 < j < |a| ensures a[0] != a[j] {
          assert a[j] in a[1..];
          assert a[j] in b[1..];
        }
      } else {
        NoDupSubsequence(a, b[1..]);
      }
    }
  }

  /** Re-adding the most recent query of a well-formed history changes nothing. */
  lemma AddIdempotent(h: seq<string>, q: string)
    requires NoDup(h) && |h| <= Capacity
    requires h != [] && h[0] == q
    ensures Add(h, q) == h
  {
    assert forall i :: 0 <= i < |h[1..]| ==> h[1..][i] != q;
    FilterDropsHead(h, x => x != q);
    assert [q] + h[1..] == h;
  }

  /** Filtering out only the head leaves the tail. */
  lemma FilterDropsHead<T(!new)>(h: seq<T>, keep: T -> bool)
    requires h != [] && !keep(h[0])
    requires forall i :: 0 <= i < |h[1..]| ==> keep(h[1..][i])
    ensures Filter(h, keep) == h[1..]
  {
    FilterKeepsAll(h[1..], keep);
  }

  /** Adding twice in a row is the same as adding once. */
  lemma AddTwice(h: seq<string>, q: string)
    requires NoDup(h)
    ensures Add(Add(h, q), q) == Add(h, q)
  {
    AddKeepsNoDup(h, q);
    AddIdempotent(Add(h, q), q);
  }

  /** `h.filter(x => x !== item)`: every copy of `item` goes, everything else stays in order. */
  function Remove(h: seq<string>, item: string): (r: seq<string>)
    ensures item !in r
    ensures forall x :: x != item ==> multiset(r)[x] == multiset(h)[x]
    ensures IsSubsequence(r, h)
  {
    Filter(h, x => x != item)
  }

  /** Browser storage: each key holds a stored list of strings. */
  type Storage = map<string, seq<string>>

  /** What the mount effect reads back for `key`; a missing item leaves the empty history. */
  function Load(st: Storage, key: string): seq<string> {
    if key in st then st[key] else []
  }

  /** A history list together with the storage it writes through to. */
  datatype History = History(entries: seq<string>, storage: Storage)

  /** The list in memory is what storage would give back. */
  predicate Synced(s: History, key: string) {
    s.entries == Load(s.storage, key)
  }

  /** Mount: the stored list if there is one. */
  function Mount(storage: Storage, key: string): (s: History)
    ensures Synced(s, key)
    ensures s.storage == storage
  {
    History(Load(storage, key), storage)
  }

  /** `addToSearchHistory(q)`: update the list and write it to `key`. */
  function AddEntry(s: History, key: string, q: string): (r: History)
    ensures r.entries == Add(s.entries, q)
    ensures Synced(r, key)
    ensures forall k :: k != key ==> Load(r.storage, k) == Load(s.storage, k)
  {
    var h := Add(s.entries, q);
    History(h, s.storage[key := h])
  }

  /** `removeFromHistory(item)`. */
  function RemoveEntry(s: History, key: string, item: string): (r: History)
    ensures r.entries == Remove(s.entries, item)
    ensures Synced(r, key)
    ensures forall k :: k != key ==> Load(r.storage, k) == Load(s.storage, k)
  {
    var h := Remove(s.entries, item);
    History(h, s.storage[key := h])
  }

  /** `clearSearchHistory()`: the list empties and the stored item is removed. */
  function ClearEntries(s: History, key: string): (r: History)
    ensures r.entries == [] && key !in r.storage
    ensures Synced(r, key)
    ensures forall k :: k != key ==> Load(r.storage, k) == Load(s.storage, k)
  {
    History([], s.storage - {key})
  }

  /** The operations the history offers. */
  datatype Edit = AddQuery(q: string) | RemoveItem(item: string) | ClearAll

  function Apply(s: History, key: string, e: Edit): History {
    match e
    case AddQuery(q) => AddEntry(s, key, q)
    case RemoveItem(x) => RemoveEntry(s, key, x)
    case ClearAll => ClearEntries(s, key)
  }

  function ApplyAll(s: History, key: string, es: seq<Edit>): History
    decreases |es|
  {
    if es == [] then s else ApplyAll(Apply(s, key, es[0]), key, es[1..])
  }

  /** After mounting and any run of edits, the list is still what storage holds,
      has at most ten entries and no duplicates (given a well-formed stored
      list), and storage under every other key is untouched: the page's and the
      dialog's histories never interfere. */
  lemma {:induction false} EditsKeepInvariant(s: History, key: string, es: seq<Edit>)
    requires Synced(s, key) && NoDup(s.entries) && |s.entries| <= Capacity
    ensures var r := ApplyAll(s, key, es);
            Synced(r, key) && NoDup(r.entries) && |r.entries| <= Capacity
            && forall k :: k != key ==> Load(r.storage, k) == Load(s.storage, k)
    decreases |es|
  {
    if es != [] {
      var t := Apply(s, key, es[0]);
      match es[0] {
        case AddQuery(q) => AddKeepsNoDup(s.entries, q);
        case RemoveItem(x) => NoDupSubsequence(t.entries, s.entries);
        case ClearAll =>
      }
      EditsKeepInvariant(t, key, es[1..]);
    }
  }
}

=== FILE: search_hook.dfy ===
/** The search hook of hooks/use-search.tsx, and the search requests the
    search page and dialog hand to it. */
module SearchHook {
  import opened Common
  import opened Text
  import opened ApiClient

  const SearchFailed := "搜索失败"
  const SearchCrashed := "搜索过程中发生错误"

  /** The calls the pages make into the search hook. Only `searchPodcasts` is
      provided by the hook; the other three are named by the pages but never
      defined, so they are kept as requests whose effect is not modelled. */
  datatype Request =
    | SearchPodcasts(query: string, category: string, sortBy: string)
    | SearchEpisodes(query: string, sortBy: string)
    | SearchCreators(query: string, sortBy: string)
    | SearchAll(query: string, category: string, sortBy: string)

  datatype State<P> = State(results: seq<P>, isLoading: bool, error: Option<string>)

  /** `searchPodcasts(query)` given what the API call produced. A blank query
      clears the results and leaves the rest alone; otherwise loading ends
      false and either the results or the error are updated. */
  function Search<P>(s: State<P>, query: string, call: Call<seq<P>>): (r: State<P>)
    ensures Trim(query) == "" ==> r == s.(results := [])
    ensures Trim(query) != "" ==> !r.isLoading
    ensures Trim(query) != "" && Delivers(call) ==> r.results == call.response.data.value && r.error.None?
    ensures Trim(query) != "" && !Delivers(call) ==>
              r.results == s.results
              && r.error == Some(if call.Threw? then SearchCrashed else MessageOr(call, SearchFailed))
  {
    if Trim(query) == "" then s.(results := [])
    else
      var loading := s.(isLoading := true, error := None);
      var settled :=
        match call
        case Threw => loading.(error := Some(SearchCrashed))
        case Returned(resp) =>
          if resp.success && resp.data.Some? then loading.(results := resp.data.value)
          else loading.(error := Some(OrElse(resp.message, SearchFailed)));
      settled.(isLoading := false)
  }

  /** A blank query (white space only) issues no request: whatever the API
      would have answered, the outcome is the same, and loading is not touched. */
  lemma BlankQueryIssuesNothing<P>(s: State<P>, query: string, c1: Call<seq<P>>, c2: Call<seq<P>>)
    requires IsBlank(query)
    ensures Search(s, query, c1) == Search(s, query, c2)
    ensures Search(s, query, c1).isLoading == s.isLoading
  {
    TrimBlank(query);
  }

  /** A query with any visible character does issue the request: some answer
      changes the results. */
  lemma VisibleQuerySearches<P>(s: State<P>, query: string, found: seq<P>)
    requires !IsBlank(query)
    ensures Search(s, query, Returned(Response(true, Some(found), None, None))).results == found
  {
    TrimBlank(query);
  }
}

=== FILE: search_page.dfy ===
/** The search page of app/search/page.tsx: the query taken from the URL, the
    search dispatched for the active tab, the page's own search history, the
    submit handler and the nine-per-page pagination. */
module SearchPage {
  import opened Common
  import opened Text
  import opened Seqs
  import opened SearchHistory
  import opened SearchHook

  /** The storage key of the page's history. */
  const HistoryKey := "searchHistory"
  const ItemsPerPage := 9

  /** The `switch (activeTab)` of `performSearch`: which hook call a tab makes. */
  function Dispatch(tab: string, q: string, category: string, sortBy: string): (r: Request)
    ensures r.query == q
    ensures r.SearchPodcasts? <==> tab == "podcasts"
    ensures r.SearchEpisodes? <==> tab == "episodes"
    ensures r.SearchCreators? <==> tab == "creators"
    ensures r.SearchAll? <==> tab != "podcasts" && tab != "episodes" && tab != "creators"
    ensures (r.SearchPodcasts? || r.SearchAll?) ==> r.category == category
    ensures r.sortBy == sortBy
  {
    if tab == "podcasts" then SearchPodcasts(q, category, sortBy)
    else if tab == "episodes" then SearchEpisodes(q, sortBy)
    else if tab == "creators" then SearchCreators(q, sortBy)
    else SearchAll(q, category, sortBy)
  }

  datatype PageState = PageState(
    query: string,
    activeTab: string,
    category: string,
    sortBy: string,
    currentPage: int,
    history: History,
    showFilters: bool)

  /** The state after a handler ran, and the hook call it made, if any. */
  datatype Outcome = Outcome(state: PageState, request: Option<Request>)

  /** `performSearch(q)`: back to page 1, then a search for the active tab
      unless the query is blank. */
  function PerformSearch(s: PageState, q: string): (o: Outcome)
    ensures o.state == s.(currentPage := 1)
    ensures o.request.None? <==> IsBlank(q)
    ensures o.request.Some? ==> o.request.value.query == q
  {
    TrimBlank(q);
    var s' := s.(currentPage := 1);
    if Trim(q) == "" then Outcome(s', None)
    else Outcome(s', Some(Dispatch(s.activeTab, q, s.category, s.sortBy)))
  }

  /** The state of the first render: the URL query `searchParams.get("q") || ""`
      in the box, the "all" tab, no filters, page 1, an empty history. */
  function FirstRender(initialQuery: string, storage: Storage): (s: PageState)
    ensures s.currentPage == 1 && s.history.entries == []
  {
    PageState(initialQuery, "all", "all", "relevance", 1, History([], storage), false)
  }

  /** Both mount effects as the page writes them. The history-loading effect
      and the query effect run after the same first render, so the query
      effect's `addToSearchHistory` sees the empty history of that render and
      writes `[q]` over whatever was stored. */
  function MountEffectsAsWritten(initialQuery: string, storage: Storage): Outcome {
    var s := FirstRender(initialQuery, storage);
    var loaded := s.(history := Mount(storage, HistoryKey));
    if initialQuery == "" then Outcome(loaded, None)
    else
      var o := PerformSearch(s.(query := initialQuery), initialQuery);
      var history := if Trim(initialQuery) != "" then AddEntry(s.history, HistoryKey, initialQuery) else loaded.history;
      Outcome(o.state.(history := history), o.request)
  }

  /** Opening the page on `?q=b` after "a" was searched earlier forgets "a",
      in memory and in storage; the intended effects keep it. */
  lemma MountForgetsStoredHistory()
    ensures var storage := map[HistoryKey := ["a"]];
            MountEffectsAsWritten("b", storage).state.history.entries == ["b"]
            && Load(MountEffectsAsWritten("b", storage).state.history.storage, HistoryKey) == ["b"]
            && MountEffects("b", storage).state.history.entries == ["b", "a"]
  {
    assert !IsSpace("b"[0]);
    TrimBlank("b");
    assert Filter([], (x: string) => x != "b") == [];
    assert Filter(["a"], (x: string) => x != "b") == ["a"];
  }

  /** The mount effects as intended: the stored history is loaded and the URL
      query (when not blank) is added on top of it. The search itself is the
      same as in the page. */
  function MountEffects(initialQuery: string, storage: Storage): (o: Outcome)
    ensures Synced(o.state.history, HistoryKey)
    ensures o.state.currentPage == 1
    ensures o.request.Some? <==> !IsBlank(initialQuery)
    ensures !IsBlank(initialQuery) ==> o.state.history.entries == Add(Load(storage, HistoryKey), initialQuery)
    ensures IsBlank(initialQuery) ==> o.state.history.entries == Load(storage, HistoryKey)
    ensures o.request == MountEffectsAsWritten(initialQuery, storage).request
  {
    TrimBlank(initialQuery);
    var s := FirstRender(initialQuery, storage).(history := Mount(storage, HistoryKey));
    QueryEffect(s, initialQuery)
  }

  /** The query effect when the URL query changes while the page is shown:
      the box takes the query, the search runs, and a non-blank query is
      recorded in the history. An empty URL query does nothing. */
  function QueryEffect(s: PageState, initialQuery: string): (o: Outcome)
    ensures initialQuery == "" ==> o == Outcome(s, None)
    ensures initialQuery != "" ==> o.state.query == initialQuery && o.state.currentPage == 1
    ensures o.request.Some? <==> !IsBlank(initialQuery)
    ensures !IsBlank(initialQuery) ==> o.state.history == AddEntry(s.history, HistoryKey, initialQuery)
    ensures IsBlank(initialQuery) ==> o.state.history == s.history
  {
    TrimBlank(initialQuery);
    if initialQuery == "" then Outcome(s, None)
    else
      var o := PerformSearch(s.(query := initialQuery), initialQuery);
      var history := if Trim(initialQuery) != "" then AddEntry(s.history, HistoryKey, initialQuery) else s.history;
      Outcome(o.state.(history := history), o.request)
  }

  /** `handleSubmit`: navigate to `/search?q=<encoded trimmed query>` unless the
      query is blank; `encode` stands for `encodeURIComponent`. */
  function Submit(s: PageState, encode: string -> string): (url: Option<string>)
    ensures url.None? <==> IsBlank(s.query)
    ensures url.Some? ==> url.value == "/search?q=" + encode(Trim(s.query))
  {
    TrimBlank(s.query);
    if Trim(s.query) != "" then Some("/search?q=" + encode(Trim(s.query))) else None
  }

  /** `handleTabChange(v)` as the page writes it: `performSearch` runs in the
      same render as `setActiveTab(v)`, so it dispatches on the old tab. */
  function TabChangeAsWritten(s: PageState, v: string, initialQuery: string): Outcome {
    if initialQuery == "" then Outcome(s.(activeTab := v), None)
    else
      var o := PerformSearch(s, initialQuery);
      Outcome(o.state.(activeTab := v), o.request)
  }

  /** Switching from "all" to "podcasts" with `?q=x` still searches everything. */
  lemma TabChangeUsesOldTab()
    ensures var s := PageState("x", "all", "all", "relevance", 1, History([], map[]), false);
            TabChangeAsWritten(s, "podcasts", "x").request == Some(SearchAll("x", "all", "relevance"))
            && TabChange(s, "podcasts", "x").request == Some(SearchPodcasts("x", "all", "relevance"))
  {
    assert !IsSpace("x"[0]);
    TrimBlank("x");
  }

  /** `handleTabChange(v)` as intended: the search runs for the tab just chosen. */
  function TabChange(s: PageState, v: string, initialQuery: string): (o: Outcome)
    ensures o.state.activeTab == v
    ensures o.request.Some? <==> initialQuery != "" && !IsBlank(initialQuery)
    ensures o.request.Some? ==> o.request.value == Dispatch(v, initialQuery, s.category, s.sortBy)
    ensures initialQuery != "" ==> o.state.currentPage == 1
  {
    if initialQuery == "" then Outcome(s.(activeTab := v), None)
    else PerformSearch(s.(activeTab := v), initialQuery)
  }

  /** `Math.ceil(n / 9)`: the fewest pages of nine that hold `n` results. */
  function TotalPages(n: nat): (t: nat)
    ensures t * ItemsPerPage >= n
    ensures t == 0 || (t - 1) * ItemsPerPage < n
    ensures t == 0 <==> n == 0
  {
    (n + ItemsPerPage - 1) / ItemsPerPage
  }

  /** `results.slice((p - 1) * 9, p * 9)`. */
  function PageItems<T>(results: seq<T>, p: int): (r: seq<T>)
    requires p >= 1
    ensures |r| <= ItemsPerPage
    ensures forall j :: 0 <= j < |r| ==> (p - 1) * ItemsPerPage + j < |results| && r[j] == results[(p - 1) * ItemsPerPage + j]
    ensures r == [] <==> p > TotalPages(|results|)
  {
    Slice(results, (p - 1) * ItemsPerPage, p * ItemsPerPage)
  }

  /** Every result is shown on exactly one page: the one numbered `k / 9 + 1`,
      which exists, at position `k % 9`. */
  lemma EveryResultHasAPage<T>(results: seq<T>, k: nat)
    requires k < |results|
    ensures var p := k / ItemsPerPage + 1;
            1 <= p <= TotalPages(|results|)
            && k % ItemsPerPage < |PageItems(results, p)|
            && PageItems(results, p)[k % ItemsPerPage] == results[k]
  {
    var p := k / ItemsPerPage + 1;
    assert (p - 1) * ItemsPerPage <= k < p * ItemsPerPage;
  }

  /** The pagination controls: previous, next, and the numbered link at `index`. */
  datatype PageControl = Previous | Next | Link(index: nat)

  /** The page after a click; the controls exist only when there is more than
      one page. A numbered link is zero-based and lands on the page it names;
      previous and next never step past the first or the last page. */
  function Navigate(p: int, total: nat, c: PageControl): (r: int)
    ensures c.Link? && c.index < total ==> r == c.index + 1
    ensures c.Previous? ==> r == p || (p > 1 && r == p - 1)
    ensures c.Next? ==> r == p || (p < total && r == p + 1)
    ensures PageInRange(p, total) ==> PageInRange(r, total)
  {
    match c
    case Previous => if p > 1 then p - 1 else p
    case Next => if p < total then p + 1 else p
    case Link(i) => if i < total then i + 1 else p
  }

  predicate ShowsPagination(total: nat) {
    total > 1
  }

  /** The current page stays between 1 and the number of pages (or 1 when
      there are none). */
  predicate PageInRange(p: int, total: nat) {
    1 <= p && (p <= total || p == 1)
  }

  lemma NavigateKeepsRange(p: int, total: nat, c: PageControl)
    requires PageInRange(p, total)
    ensures PageInRange(Navigate(p, total, c), total)
    ensures c.Previous? && p > 1 ==> Navigate(p, total, c) == p - 1
    ensures c.Next? && p < total ==> Navigate(p, total, c) == p + 1
    ensures c.Previous? && p == 1 ==> Navigate(p, total, c) == 1
    ensures c.Next? && p == total ==> Navigate(p, total, c) == total
  {
  }

  /** On any page in range the page shows something, unless there are no results. */
  lemma PageInRangeShowsResults<T>(results: seq<T>, p: int)
    requires PageInRange(p, TotalPages(|results|)) && results != []
    ensures PageItems(results, p) != []
  {
  }
}

=== FILE: seqs.dfy ===
/** Sequence operations the hooks and pages build on: `Array.prototype.filter`,
    `slice(0, n)`, and `Array.prototype.sort` with a consistent comparator
    (a stable sort), each with the facts the rest of the model needs. */
module Seqs {

  /** `a` can be obtained from `b` by deleting elements: the relative order of what is kept is unchanged. */
  predicate IsSubsequence<T(==)>(a: seq<T>, b: seq<T>)
    decreases |b|
  {
    if a == [] then true
    else if b == [] then false
    else if a[0] == b[0] then IsSubsequence(a[1..], b[1..])
    else IsSubsequence(a, b[1..])
  }

  lemma {:induction false} SubsequenceDropHead<T>(a: seq<T>, b: seq<T>)
    requires a != [] && IsSubsequence(a, b)
    ensures IsSubsequence(a[1..], b)
    decreases |b|, |a|
  {
    if a[0] == b[0] {
      SubsequenceOfTail(a[1..], b);
    } else {
      SubsequenceDropHead(a, b[1..]);
      SubsequenceOfTail(a[1..], b);
    }
  }

  /** A subsequence of the tail of `b` is a subsequence of `b`. */
  lemma {:induction false} SubsequenceOfTail<T>(a: seq<T>, b: seq<T>)
    requires b != [] && IsSubsequence(a, b[1..])
    ensures IsSubsequence(a, b)
    decreases |b|, |a|
  {
    if a != [] && a[0] == b[0] {
      SubsequenceDropHead(a, b[1..]);
    }
  }

  lemma {:induction false} SubsequenceReflexive<T>(a: seq<T>)
    ensures IsSubsequence(a, a)
    decreases |a|
  {
    if a != [] {
      SubsequenceReflexive(a[1..]);
    }
  }

  /** Appending the same element to both sides keeps a subsequence. */
  lemma {:induction false} SubsequenceExtend<T>(a: seq<T>, b: seq<T>, x: T)
    requires IsSubsequence(a, b)
    ensures IsSubsequence(a + [x], b + [x])
    decreases |b|
  {
    if a == [] {
      SubsequenceLast(b, x);
      assert a + [x] == [x];
    } else {
      assert b != [];
      assert (b + [x])[1..] == b[1..] + [x];
      if a[0] == b[0] {
        SubsequenceExtend(a[1..], b[1..], x);
        assert (a + [x])[1..] == a[1..] + [x];
      } else {
        SubsequenceExtend(a, b[1..], x);
      }
    }
  }

  /** The last element alone is a subsequence. */
  lemma {:induction false} SubsequenceLast<T>(b: seq<T>, x: T)
    ensures IsSubsequence([x], b + [x])
    decreases |b|
  {
    if b != [] {
      SubsequenceLast(b[1..], x);
      assert (b + [x])[1..] == b[1..] + [x];
    }
  }

  /** Appending to the larger side keeps a subsequence. */
  lemma {:induction false} SubsequenceGrow<T>(a: seq<T>, b: seq<T>, x: T)
    requires IsSubsequence(a, b)
    ensures IsSubsequence(a, b + [x])
    decreases |b|
  {
    if a != [] {
      assert b != [];
      assert (b + [x])[1..] == b[1..] + [x];
      if a[0] == b[0] {
        SubsequenceGrow(a[1..], b[1..], x);
      } else {
        SubsequenceGrow(a, b[1..], x);
      }
    }
  }

  /** Every element of a subsequence occurs in the sequence it was taken from. */
  lemma {:induction false} SubsequenceMembers<T>(a: seq<T>, b: seq<T>)
    requires IsSubsequence(a, b)
    ensures forall x :: x in a ==> x in b
    decreases |b|
  {
    if a != [] {
      if a[0] == b[0] {
        SubsequenceMembers(a[1..], b[1..]);
        assert a == [a[0]] + a[1..];
      } else {
        SubsequenceMembers(a, b[1..]);
      }
    }
  }

  /** `s.filter(keep)`: exactly the elements satisfying `keep`, each with its
      multiplicity in `s`, in their original order. */
  function Filter<T(==,!new)>(s: seq<T>, keep: T -> bool): (r: seq<T>)
    ensures |r| <= |s|
    ensures forall i :: 0 <= i < |r| ==> keep(r[i])
    ensures forall x :: multiset(r)[x] == if keep(x) then multiset(s)[x] else 0
    ensures IsSubsequence(r, s)
  {
    if s == [] then []
    else
      var rest := Filter(s[1..], keep);
      assert s == [s[0]] + s[1..];
      if keep(s[0]) then
        assert ([s[0]] + rest)[1..] == rest;
        [s[0]] + rest
      else
        SubsequenceOfTail(rest, s);
        rest
  }

  /** The length of a filter, one element at a time. */
  lemma FilterLengthStep<T(!new)>(s: seq<T>, keep: T -> bool)
    requires s != []
    ensures |Filter(s, keep)| == (if keep(s[0]) then 1 else 0) + |Filter(s[1..], keep)|
  {
  }

  /** A filter that keeps everything keeps the sequence as it is. */
  lemma {:induction false} FilterKeepsAll<T(!new)>(s: seq<T>, keep: T -> bool)
    requires forall i :: 0 <= i < |s| ==> keep(s[i])
    ensures Filter(s, keep) == s
  {
    if s != [] {
      FilterKeepsAll(s[1..], keep);
    }
  }

  function Not<T>(p: T -> bool): T -> bool {
    x => !p(x)
  }

  /** Filtering by `p` and by its negation splits `s` into two parts that
      together hold every element exactly once. */
  lemma FilterPartition<T(!new)>(s: seq<T>, p: T -> bool)
    ensures multiset(Filter(s, p)) + multiset(Filter(s, Not(p))) == multiset(s)
    ensures |Filter(s, p)| + |Filter(s, Not(p))| == |s|
  {
    var a, b := Filter(s, p), Filter(s, Not(p));
    assert multiset(a) + multiset(b) == multiset(s);
    assert |multiset(a) + multiset(b)| == |multiset(s)|;
  }

  /** `s.slice(0, n)`. */
  function Take<T>(s: seq<T>, n: nat): (r: seq<T>)
    ensures |r| == if n < |s| then n else |s|
    ensures r == s[..|r|]
  {
    if n < |s| then s[..n] else s
  }

  /** `s.slice(start, end)` for non-negative arguments: both ends are clamped to the length. */
  function Slice<T>(s: seq<T>, start: nat, end: nat): (r: seq<T>)
    ensures start <= end <= |s| ==> r == s[start..end]
    ensures |r| <= |s|
    ensures (start >= end || start >= |s|) <==> r == []
  {
    var e := if end < |s| then end else |s|;
    if start < e then s[start..e] else []
  }

  /** The comparator orders every pair one way or the other. */
  ghost predicate Total<T(!new)>(leq: (T, T) -> bool) {
    forall a, b :: leq(a, b) || leq(b, a)
  }

  ghost predicate Transitive<T(!new)>(leq: (T, T) -> bool) {
    forall a, b, c :: leq(a, b) && leq(b, c) ==> leq(a, c)
  }

  /** Neighbours are in order. */
  predicate Sorted<T>(s: seq<T>, leq: (T, T) -> bool) {
    forall i :: 0 < i < |s| ==> leq(s[i - 1], s[i])
  }

  /** Every earlier element is in order with every later one. */
  predicate Ordered<T>(s: seq<T>, leq: (T, T) -> bool) {
    forall i, j :: 0 <= i < j < |s| ==> leq(s[i], s[j])
  }

  /** Places `x` before the first element it does not follow; equal elements stay after it. */
  function Insert<T(!new)>(x: T, s: seq<T>, leq: (T, T) -> bool): (r: seq<T>)
    requires Total(leq)
    requires Sorted(s, leq)
    ensures Sorted(r, leq)
    ensures multiset(r) == multiset(s) + multiset{x}
    ensures |r| == |s| + 1
    ensures r[0] == x || (s != [] && r[0] == s[0])
  {
    if s == [] then [x]
    else if leq(x, s[0]) then [x] + s
    else
      var rest := Insert(x, s[1..], leq);
      assert s == [s[0]] + s[1..];
      [s[0]] + rest
  }

  /** `[...s].sort(cmp)` for a comparator that orders every pair: a stable
      insertion sort. The result is a permutation of `s` in order. */
  function SortBy<T(!new)>(s: seq<T>, leq: (T, T) -> bool): (r: seq<T>)
    requires Total(leq)
    ensures Sorted(r, leq)
    ensures multiset(r) == multiset(s)
    ensures |r| == |s|
  {
    if s == [] then []
    else
      assert s == [s[0]] + s[1..];
      Insert(s[0], SortBy(s[1..], leq), leq)
  }

  /** Under a transitive comparator, ordered neighbours mean every pair is ordered. */
  lemma {:induction false} SortedIsOrdered<T(!new)>(s: seq<T>, leq: (T, T) -> bool)
    requires Transitive(leq)
    requires Sorted(s, leq)
    ensures Ordered(s, leq)
  {
    if |s| > 1 {
      var t := s[..|s| - 1];
      assert Sorted(t, leq);
      SortedIsOrdered(t, leq);
      forall i, j | 0 <= i < j < |s| ensures leq(s[i], s[j]) {
        if j < |s| - 1 {
          assert s[i] == t[i] && s[j] == t[j];
        } else if i < j - 1 {
          assert leq(t[i], t[j - 1]);
        }
      }
    }
  }

  /** A comparator that never separates two elements (`() => 0`) leaves the order as it is. */
  lemma {:induction false} SortByAllEqual<T(!new)>(s: seq<T>, leq: (T, T) -> bool)
    requires forall a, b :: leq(a, b)
    ensures SortBy(s, leq) == s
  {
    if s != [] {
      SortByAllEqual(s[1..], leq);
      assert s == [s[0]] + s[1..];
    }
  }

  /** A prefix of an ordered sequence holds elements that precede everything left out. */
  lemma TakeOfOrdered<T>(s: seq<T>, n: nat, leq: (T, T) -> bool)
    requires Ordered(s, leq)
    ensures forall i, j :: 0 <= i < |Take(s, n)| <= j < |s| ==> leq(Take(s, n)[i], s[j])
    ensures multiset(s) == multiset(Take(s, n)) + multiset(s[|Take(s, n)|..])
  {
    var k := |Take(s, n)|;
    assert s == s[..k] + s[k..];
  }

  /** The comparator `(a, b) => key(b) - key(a)`: larger keys first. */
  function Descending<T>(key: T -> int): (T, T) -> bool {
    (a, b) => key(a) >= key(b)
  }

  /** The comparator `(a, b) => key(a) - key(b)`: smaller keys first. */
  function Ascending<T>(key: T -> int): (T, T) -> bool {
    (a, b) => key(a) <= key(b)
  }

  lemma KeyOrders<T(!new)>(key: T -> int)
    ensures Total(Descending(key)) && Transitive(Descending(key))
    ensures Total(Ascending(key)) && Transitive(Ascending(key))
  {
  }

  /** `[...s].sort((a, b) => key(b) - key(a))`: the same elements, larger keys first. */
  function SortDescending<T(!new)>(s: seq<T>, key: T -> int): (r: seq<T>)
    ensures multiset(r) == multiset(s) && |r| == |s|
    ensures forall i, j :: 0 <= i < j < |r| ==> key(r[i]) >= key(r[j])
  {
    KeyOrders(key);
    var r := SortBy(s, Descending(key));
    SortedIsOrdered(r, Descending(key));
    r
  }

  /** `[...s].sort((a, b) => key(a) - key(b))`: the same elements, smaller keys first. */
  function SortAscending<T(!new)>(s: seq<T>, key: T -> int): (r: seq<T>)
    ensures multiset(r) == multiset(s) && |r| == |s|
    ensures forall i, j :: 0 <= i < j < |r| ==> key(r[i]) <= key(r[j])
  {
    KeyOrders(key);
    var r := SortBy(s, Ascending(key));
    SortedIsOrdered(r, Ascending(key));
    r
  }
}

=== FILE: subscriptions_hook.dfy ===
/** The subscriptions hook of hooks/use-subscriptions.tsx: the signed-in user's
    subscribed podcasts, subscribe (which refetches) and unsubscribe (which
    drops the podcast locally). */
module SubscriptionsHook {
  import opened Common
  import opened Seqs
  import opened ApiClient

  const FetchFailed := "获取订阅失败"
  const FetchCrashed := "获取订阅时发生错误"
  const SubscribeFailed := "订阅失败"
  const SubscribeCrashed := "订阅过程中发生错误"
  const UnsubscribeFailed := "取消订阅失败"
  const UnsubscribeCrashed := "取消订阅过程中发生错误"

  datatype State = State(subscriptions: seq<Podcast>, isLoading: bool, error: Option<string>)

  const Initial := State([], true, None)

  /** `fetchSubscriptions()`. The call's data is absent when it is not an array.
      A signed-in fetch raises the loading flag and no path lowers it again. */
  function Fetch(s: State, signedIn: bool, call: Call<seq<Podcast>>): (r: State)
    ensures !signedIn ==> r == s.(subscriptions := [], isLoading := false)
    ensures signedIn ==> r.isLoading
    ensures signedIn && Delivers(call) ==> r.subscriptions == call.response.data.value && r.error.None?
    ensures signedIn && call.Returned? && !Delivers(call) ==>
              r.subscriptions == [] && r.error == Some(MessageOr(call, FetchFailed))
    ensures signedIn && call.Threw? ==> r.subscriptions == [] && r.error == Some(FetchCrashed)
  {
    if !signedIn then s.(subscriptions := [], isLoading := false)
    else
      var loading := s.(isLoading := true, error := None);
      match call
      case Threw => loading.(subscriptions := [], error := Some(FetchCrashed))
      case Returned(resp) =>
        if resp.success && resp.data.Some? then loading.(subscriptions := resp.data.value)
        else loading.(subscriptions := [], error := Some(OrElse(resp.message, FetchFailed)))
  }

  /** A mutation's new state and the boolean it resolves to. */
  datatype Outcome = Outcome(state: State, ok: bool)

  /** `subscribeToPodcast(id)`: an acknowledged call is followed by a refetch,
      whose outcome is `refetch`; nothing is inserted locally. */
  function Subscribe(s: State, signedIn: bool, call: Call<Body<Json>>, refetch: Call<seq<Podcast>>): (o: Outcome)
    ensures o.ok <==> signedIn && Acknowledged(call)
    ensures o.ok ==> o.state == Fetch(s, true, refetch)
    ensures !signedIn ==> o.state == s
    ensures signedIn && call.Returned? && !call.response.success ==>
              o.state == s.(error := Some(MessageOr(call, SubscribeFailed)))
    ensures signedIn && call.Threw? ==> o.state == s.(error := Some(SubscribeCrashed))
  {
    if !signedIn then Outcome(s, false)
    else match call
      case Threw => Outcome(s.(error := Some(SubscribeCrashed)), false)
      case Returned(resp) =>
        if resp.success then Outcome(Fetch(s, true, refetch), true)
        else Outcome(s.(error := Some(OrElse(resp.message, SubscribeFailed))), false)
  }

  /** The list after an unsubscription from `id` was acknowledged. */
  function Drop(subscriptions: seq<Podcast>, id: string): (r: seq<Podcast>)
    ensures forall i :: 0 <= i < |r| ==> r[i].id != id
    ensures forall p: Podcast :: p.id != id ==> multiset(r)[p] == multiset(subscriptions)[p]
    ensures IsSubsequence(r, subscriptions)
  {
    Filter(subscriptions, (p: Podcast) => p.id != id)
  }

  /** `unsubscribeFromPodcast(id)`. */
  function Unsubscribe(s: State, signedIn: bool, id: string, call: Call<Body<Json>>): (o: Outcome)
    ensures o.ok <==> signedIn && Acknowledged(call)
    ensures o.ok ==> o.state == s.(subscriptions := Drop(s.subscriptions, id))
    ensures !signedIn ==> o.state == s
    ensures signedIn && call.Returned? && !call.response.success ==>
              o.state == s.(error := Some(MessageOr(call, UnsubscribeFailed)))
    ensures signedIn && call.Threw? ==> o.state == s.(error := Some(UnsubscribeCrashed))
  {
    if !signedIn then Outcome(s, false)
    else match call
      case Threw => Outcome(s.(error := Some(UnsubscribeCrashed)), false)
      case Returned(resp) =>
        if resp.success then Outcome(s.(subscriptions := Drop(s.subscriptions, id)), true)
        else Outcome(s.(error := Some(OrElse(resp.message, UnsubscribeFailed))), false)
  }

  /** `isSubscribed(id)`: some subscription carries the id. */
  predicate IsSubscribed(subscriptions: seq<Podcast>, id: string) {
    exists i :: 0 <= i < |subscriptions| && subscriptions[i].id == id
  }

  /** Without a user neither mutation makes a request: the outcome is the same
      whatever the server would have answered. */
  lemma SignedOutMakesNoCall(s: State, id: string, c1: Call<Body<Json>>, c2: Call<Body<Json>>, f1: Call<seq<Podcast>>, f2: Call<seq<Podcast>>)
    ensures Subscribe(s, false, c1, f1) == Subscribe(s, false, c2, f2) == Outcome(s, false)
    ensures Unsubscribe(s, false, id, c1) == Unsubscribe(s, false, id, c2) == Outcome(s, false)
  {
  }

  /** After an acknowledged unsubscription from `id` the podcast no longer
      counts as subscribed, and every other subscription still does. */
  lemma UnsubscribeEndsMembership(s: State, id: string, other: string, call: Call<Body<Json>>)
    requires Acknowledged(call)
    ensures !IsSubscribed(Unsubscribe(s, true, id, call).state.subscriptions, id)
    ensures other != id ==>
              (IsSubscribed(Unsubscribe(s, true, id, call).state.subscriptions, other) <==> IsSubscribed(s.subscriptions, other))
  {
    var before, after := s.subscriptions, Drop(s.subscriptions, id);
    if other != id {
      if IsSubscribed(before, other) {
        var i :| 0 <= i < |before| && before[i].id == other;
        assert before[i] in multiset(before);
        assert before[i] in multiset(after);
        var j :| 0 <= j < |after| && after[j] == before[i];
      }
      if IsSubscribed(after, other) {
        var j :| 0 <= j < |after| && after[j].id == other;
        assert after[j] in multiset(after);
        assert after[j] in multiset(before);
        var i :| 0 <= i < |before| && before[i] == after[j];
      }
    }
  }
}

=== FILE: subscriptions_page.dfy ===
/** The subscriptions page of app/subscriptions/page.tsx: the search filter,
    the three sort orders, the placeholder tab filters by position, and the
    marker of the podcast being unsubscribed. */
module SubscriptionsPage {
  import opened Common
  import opened Text
  import opened Seqs
  import opened ApiClient
  import opened SubscriptionsHook

  /** The search box matches the title or the author, ignoring case. */
  predicate MatchesSearch(p: Podcast, q: string) {
    Matches(p.title, q) || Matches(p.author, q)
  }

  /** `podcast.episodeCount || 0`. */
  function EpisodesOf(p: Podcast): int {
    p.episodeCount.GetOr(0)
  }

  /** The "name" order on podcasts, lifted from an order on titles. */
  function ByTitle(titleLeq: (string, string) -> bool): (Podcast, Podcast) -> bool {
    (a: Podcast, b: Podcast) => titleLeq(a.title, b.title)
  }

  lemma ByTitleOrders(titleLeq: (string, string) -> bool)
    requires Total(titleLeq) && Transitive(titleLeq)
    ensures Total(ByTitle(titleLeq)) && Transitive(ByTitle(titleLeq))
  {
    forall a: Podcast, b: Podcast ensures ByTitle(titleLeq)(a, b) || ByTitle(titleLeq)(b, a) {
      assert titleLeq(a.title, b.title) || titleLeq(b.title, a.title);
    }
    forall a: Podcast, b: Podcast, c: Podcast | ByTitle(titleLeq)(a, b) && ByTitle(titleLeq)(b, c)
      ensures ByTitle(titleLeq)(a, c)
    {
      assert titleLeq(a.title, b.title) && titleLeq(b.title, c.title);
    }
  }

  /** The sort picked by `sortBy`: newest id first for "recent", by title for
      "name", most episodes first for "most-episodes", and the list order for
      anything else (the comparator answers 0). `number` is `Number(id)` and
      `titleLeq` is `localeCompare(...) <= 0`. */
  function SortSubscriptions(matching: seq<Podcast>, sortBy: string, number: string -> int,
                             titleLeq: (string, string) -> bool): (r: seq<Podcast>)
    requires Total(titleLeq) && Transitive(titleLeq)
    ensures multiset(r) == multiset(matching) && |r| == |matching|
    ensures sortBy == "recent" ==> forall i, j :: 0 <= i < j < |r| ==> number(r[i].id) >= number(r[j].id)
    ensures sortBy == "name" ==> forall i, j :: 0 <= i < j < |r| ==> titleLeq(r[i].title, r[j].title)
    ensures sortBy == "most-episodes" ==> forall i, j :: 0 <= i < j < |r| ==> EpisodesOf(r[i]) >= EpisodesOf(r[j])
    ensures sortBy !in {"recent", "name", "most-episodes"} ==> r == matching
  {
    if sortBy == "recent" then SortDescending(matching, (p: Podcast) => number(p.id))
    else if sortBy == "name" then
      ByTitleOrders(titleLeq);
      var r := SortBy(matching, ByTitle(titleLeq));
      SortedIsOrdered(r, ByTitle(titleLeq));
      r
    else if sortBy == "most-episodes" then SortDescending(matching, EpisodesOf)
    else
      SortByAllEqual(matching, (a: Podcast, b: Podcast) => true);
      matching
  }

  /** `filteredSubscriptions`; `subscriptions` is absent when the hook's value is not an array. */
  function FilteredSubscriptions(subscriptions: Option<seq<Podcast>>, q: string, sortBy: string,
                                 number: string -> int, titleLeq: (string, string) -> bool): (r: seq<Podcast>)
    requires Total(titleLeq) && Transitive(titleLeq)
    ensures subscriptions.None? ==> r == []
    ensures subscriptions.Some? ==>
              forall p: Podcast :: multiset(r)[p] == if MatchesSearch(p, q) then multiset(subscriptions.value)[p] else 0
    ensures forall i :: 0 <= i < |r| ==> MatchesSearch(r[i], q)
  {
    match subscriptions
    case None => []
    case Some(all) =>
      var matching := Filter(all, (p: Podcast) => MatchesSearch(p, q));
      var r := SortSubscriptions(matching, sortBy, number, titleLeq);
      forall i | 0 <= i < |r| ensures MatchesSearch(r[i], q) {
        assert r[i] in multiset(matching);
      }
      r
  }

  /** The placeholder tab filters of `SubscriptionsList`, by position in the list. */
  predicate KeepsIndex(filter: string, i: nat) {
    if filter == "unplayed" then i % 3 != 0
    else if filter == "in-progress" then i % 4 == 0
    else if filter == "favorites" then i % 2 == 0
    else true
  }

  /** `subscriptions.filter((_, index) => KeepsIndex(filter, index))`. */
  function TabList(s: seq<Podcast>, filter: string): (r: seq<Podcast>)
    ensures |r| <= |s|
    ensures IsSubsequence(r, s)
  {
    if s == [] then []
    else
      var front := s[..|s| - 1];
      var rest := TabList(front, filter);
      assert s == front + [s[|s| - 1]];
      SubsequenceExtend(rest, front, s[|s| - 1]);
      if KeepsIndex(filter, |s| - 1) then rest + [s[|s| - 1]]
      else
        SubsequenceGrow(rest, front, s[|s| - 1]);
        rest
  }

  /** How many of the first `n` positions a tab keeps: every tab but the
      three placeholders keeps them all, "favorites" the even positions,
      "in-progress" every fourth and "unplayed" all but every third. */
  function Kept(filter: string, n: nat): nat {
    if filter == "unplayed" then n - (n + 2) / 3
    else if filter == "in-progress" then (n + 3) / 4
    else if filter == "favorites" then (n + 1) / 2
    else n
  }

  /** Position `n` adds one to the count exactly when the tab keeps it. */
  lemma KeptStep(filter: string, n: nat)
    ensures Kept(filter, n + 1) == Kept(filter, n) + if KeepsIndex(filter, n) then 1 else 0
  {
    if filter == "unplayed" {
      assert (n + 3) / 3 == (n + 2) / 3 + (if n % 3 == 0 then 1 else 0);
    } else if filter == "in-progress" {
      assert (n + 4) / 4 == (n + 3) / 4 + (if n % 4 == 0 then 1 else 0);
    } else if filter == "favorites" {
      assert (n + 2) / 2 == (n + 1) / 2 + (if n % 2 == 0 then 1 else 0);
    }
  }

  /** Each tab shows as many entries as it keeps positions. */
  lemma {:induction false} TabListLength(s: seq<Podcast>, filter: string)
    ensures |TabList(s, filter)| == Kept(filter, |s|)
  {
    if s != [] {
      TabListLength(s[..|s| - 1], filter);
      KeptStep(filter, |s| - 1);
    }
  }

  /** The "favorites" tab shows exactly the podcasts at even positions, in order. */
  lemma {:induction false} FavoritesAreEvenPositions(s: seq<Podcast>)
    ensures |TabList(s, "favorites")| == (|s| + 1) / 2
    ensures forall k :: 0 <= k < |TabList(s, "favorites")| ==> TabList(s, "favorites")[k] == s[2 * k]
  {
    TabListLength(s, "favorites");
    if s != [] {
      var front := s[..|s| - 1];
      FavoritesAreEvenPositions(front);
      forall k | 0 <= k < |TabList(s, "favorites")| ensures TabList(s, "favorites")[k] == s[2 * k] {
        if k < |TabList(front, "favorites")| {
          assert TabList(s, "favorites")[k] == TabList(front, "favorites")[k];
        }
      }
    }
  }

  /** The podcast whose unsubscription is in flight, if any. */
  type Marker = Option<string>

  /** `handleUnsubscribe(id)`: the marker names the podcast for the duration of
      the call and is cleared afterwards whatever the call answered. */
  function HandleUnsubscribe(s: State, signedIn: bool, id: string, call: Call<Body<Json>>): (r: (Marker, Outcome, Marker))
    ensures r.0 == Some(id) && r.2 == None
    ensures r.1 == SubscriptionsHook.Unsubscribe(s, signedIn, id, call)
  {
    (Some(id), SubscriptionsHook.Unsubscribe(s, signedIn, id, call), None)
  }

  /** A row's unsubscribe button is disabled while the marker names its podcast. */
  predicate ButtonDisabled(marker: Marker, p: Podcast) {
    marker == Some(p.id)
  }

  /** During the call only the rows of that podcast are disabled; afterwards none is. */
  lemma OnlyTheUnsubscribedRowIsDisabled(s: State, signedIn: bool, id: string, call: Call<Body<Json>>, p: Podcast)
    ensures var r := HandleUnsubscribe(s, signedIn, id, call);
            (ButtonDisabled(r.0, p) <==> p.id == id) && !ButtonDisabled(r.2, p)
  {
  }
}

=== FILE: text.dfy ===
/** String primitives the components rely on: JavaScript's `\s` class and
    `trim`, ASCII case mapping, `includes`, `startsWith`, and decimal
    rendering of integers with its inverse. */
module Text {

  /** The characters JavaScript's `\s` and `String.prototype.trim` treat as white space. */
  const SpaceChars: set<char> := {
    ' ', '\t', '\n', '\U{B}', '\U{C}', '\r', '\U{A0}', '\U{1680}',
    '\U{2000}', '\U{2001}', '\U{2002}', '\U{2003}', '\U{2004}', '\U{2005}',
    '\U{2006}', '\U{2007}', '\U{2008}', '\U{2009}', '\U{200A}',
    '\U{2028}', '\U{2029}', '\U{202F}', '\U{205F}', '\U{3000}', '\U{FEFF}'
  }

  predicate IsSpace(c: char) {
    c in SpaceChars
  }

  /** Every character is white space; `s.trim() === ""`, see TrimBlank. */
  predicate IsBlank(s: string) {
    forall i :: 0 <= i < |s| ==> IsSpace(s[i])
  }

  predicate NoSpace(s: string) {
    forall i :: 0 <= i < |s| ==> !IsSpace(s[i])
  }

  function TrimStart(s: string): (r: string)
    ensures |r| <= |s| && r == s[|s| - |r|..]
    ensures IsBlank(s[..|s| - |r|])
    ensures r == [] || !IsSpace(r[0])
  {
    if |s| > 0 && IsSpace(s[0]) then
      var r := TrimStart(s[1..]);
      assert s[..|s| - |r|] == [s[0]] + s[1..][..|s| - 1 - |r|];
      r
    else s
  }

  function TrimEnd(s: string): (r: string)
    ensures |r| <= |s| && r == s[..|r|]
    ensures IsBlank(s[|r|..])
    ensures r == [] || !IsSpace(r[|r| - 1])
  {
    if |s| > 0 && IsSpace(s[|s| - 1]) then
      var r := TrimEnd(s[..|s| - 1]);
      assert s[|r|..] == s[..|s| - 1][|r|..] + [s[|s| - 1]];
      r
    else s
  }

  /** `s.trim()`. */
  function Trim(s: string): (r: string)
  {
    TrimEnd(TrimStart(s))
  }

  /** Trimming removes exactly the leading and trailing white space: the
      result is a slice of the input with white space only around it, it
      neither starts nor ends with white space, and it is empty exactly when
      the input is blank. */
  lemma TrimBlank(s: string)
    ensures exists i, j :: 0 <= i <= j <= |s| && Trim(s) == s[i..j]
                           && IsBlank(s[..i]) && IsBlank(s[j..])
    ensures Trim(s) == [] || (!IsSpace(Trim(s)[0]) && !IsSpace(Trim(s)[|Trim(s)| - 1]))
    ensures Trim(s) == [] <==> IsBlank(s)
  {
    var a := TrimStart(s);
    var i := |s| - |a|;
    var j := i + |TrimEnd(a)|;
    assert Trim(s) == s[i..j];
    assert s[j..] == a[|TrimEnd(a)|..];
    if Trim(s) == [] {
      assert IsBlank(a[|TrimEnd(a)|..]);
      assert a[|TrimEnd(a)|..] == a;
      assert s == s[..i] + a;
    } else {
      assert !IsSpace(a[0]);
      assert Trim(s)[0] == a[0];
      assert !IsSpace(s[i]);
    }
  }

  function LowerChar(c: char): char {
    if 'A' <= c <= 'Z' then (c as int + 32) as char else c
  }

  function UpperChar(c: char): char {
    if 'a' <= c <= 'z' then (c as int - 32) as char else c
  }

  /** `s.toLowerCase()` on ASCII letters; every other character is kept. */
  function Lower(s: string): (r: string)
    ensures |r| == |s|
    ensures forall i :: 0 <= i < |s| ==> r[i] == LowerChar(s[i])
  {
    seq(|s|, i requires 0 <= i < |s| => LowerChar(s[i]))
  }

  /** `s.toUpperCase()` on ASCII letters; every other character is kept. */
  function Upper(s: string): (r: string)
    ensures |r| == |s|
    ensures forall i :: 0 <= i < |s| ==> r[i] == UpperChar(s[i])
  {
    seq(|s|, i requires 0 <= i < |s| => UpperChar(s[i]))
  }

  predicate IsLower(s: string) {
    forall i :: 0 <= i < |s| ==> !('A' <= s[i] <= 'Z')
  }

  /** `sub` occurs in `s` starting at index `i`. */
  predicate OccursAt(s: string, sub: string, i: int) {
    0 <= i <= |s| - |sub| && s[i..i + |sub|] == sub
  }

  /** `s.includes(sub)`. */
  predicate Contains(s: string, sub: string) {
    exists i :: 0 <= i <= |s| && OccursAt(s, sub, i)
  }

  /** `s.startsWith(p)`. */
  predicate StartsWith(s: string, p: string) {
    |p| <= |s| && s[..|p|] == p
  }

  /** Case-insensitive `includes` as the pages write it:
      `s.toLowerCase().includes(q.toLowerCase())`. */
  predicate Matches(s: string, q: string) {
    Contains(Lower(s), Lower(q))
  }

  /** The empty query matches every string. */
  lemma EmptyQueryMatches(s: string)
    ensures Matches(s, "")
  {
    assert Lower("") == [];
    assert OccursAt(Lower(s), Lower(""), 0);
  }

  predicate IsDigit(c: char) {
    '0' <= c <= '9'
  }

  function DigitChar(d: nat): (c: char)
    requires d < 10
    ensures IsDigit(c)
  {
    ('0' as int + d) as char
  }

  function DigitValue(c: char): nat
    requires IsDigit(c)
  {
    c as int - '0' as int
  }

  /** Decimal rendering of a natural number, as `${n}` prints it. */
  function NatToString(n: nat): (r: string)
    ensures |r| >= 1
    ensures forall i :: 0 <= i < |r| ==> IsDigit(r[i])
    ensures r[0] != '0' || n == 0
    ensures n < 10 <==> |r| == 1
  {
    if n < 10 then [DigitChar(n)] else NatToString(n / 10) + [DigitChar(n % 10)]
  }

  /** Decimal rendering of an integer, with a leading '-' when negative. */
  function IntToString(i: int): (r: string)
    ensures |r| >= 1
    ensures i >= 0 ==> r == NatToString(i)
    ensures i < 0 ==> r == "-" + NatToString(-i)
  {
    if i < 0 then "-" + NatToString(-i) else NatToString(i)
  }

  predicate AllDigits(s: string) {
    forall i :: 0 <= i < |s| ==> IsDigit(s[i])
  }

  /** Reads a string of decimal digits back as a number. */
  function ParseDigits(s: string): nat
    requires AllDigits(s)
  {
    if s == [] then 0 else ParseDigits(s[..|s| - 1]) * 10 + DigitValue(s[|s| - 1])
  }

  lemma {:induction false} ParseNatToString(n: nat)
    ensures ParseDigits(NatToString(n)) == n
  {
    if n >= 10 {
      var a := NatToString(n / 10);
      var r := NatToString(n);
      assert r == a + [DigitChar(n % 10)];
      assert r[..|r| - 1] == a;
      ParseNatToString(n / 10);
    }
  }

  /** Decimal rendering is injective: distinct numbers print differently. */
  lemma NatToStringInjective(m: nat, n: nat)
    requires NatToString(m) == NatToString(n)
    ensures m == n
  {
    ParseNatToString(m);
    ParseNatToString(n);
  }

  /** The index of the first `c` in `s`. */
  function IndexOf(s: string, c: char): (i: nat)
    requires c in s
    ensures i < |s| && s[i] == c && c !in s[..i]
  {
    if s[0] == c then 0
    else
      assert c in s[1..] by { assert s == [s[0]] + s[1..]; }
      var j := IndexOf(s[1..], c);
      assert s[..j + 1] == [s[0]] + s[1..][..j];
      j + 1
  }
}

=== FILE: trending_podcasts.dfy ===
/** The trending-podcasts widget of components/TrendingPodcasts.tsx: its
    fetch, and the adapter that copies each podcast's fields and picks its
    image. */
module TrendingPodcasts {
  import opened Common
  import opened ApiClient

  const LoadFailed := "无法加载热门播客数据"

  /** An adapted podcast; every field is absent when the source lacks it. */
  datatype Adapted = Adapted(
    id: Option<Json>,
    title: Option<Json>,
    description: Option<Json>,
    image: Option<Json>,
    author: Option<Json>,
    categories: Option<Json>,
    trendScore: Option<Json>,
    url: Option<Json>)

  /** The adapter for one entry; reading a member of `null` throws (`None`). */
  function Adapt(item: Json): (r: Option<Adapted>)
    ensures r.None? <==> item.JNull?
    ensures r.Some? ==>
              && r.value.id == Member(Some(item), "id") && r.value.title == Member(Some(item), "title")
              && r.value.description == Member(Some(item), "description") && r.value.author == Member(Some(item), "author")
              && r.value.categories == Member(Some(item), "categories") && r.value.trendScore == Member(Some(item), "trendScore")
              && r.value.url == Member(Some(item), "url")
    ensures r.Some? && JsonTruthy(Member(Some(item), "image")) ==> r.value.image == Member(Some(item), "image")
    ensures r.Some? && !JsonTruthy(Member(Some(item), "image")) ==> r.value.image == Member(Some(item), "artwork")
  {
    if item.JNull? then None
    else
      var p := Some(item);
      Some(Adapted(Member(p, "id"), Member(p, "title"), Member(p, "description"),
                   if JsonTruthy(Member(p, "image")) then Member(p, "image") else Member(p, "artwork"),
                   Member(p, "author"), Member(p, "categories"), Member(p, "trendScore"), Member(p, "url")))
  }

  /** `data.map(adapt)`: absent when some entry makes the adapter throw. */
  function AdaptAll(items: seq<Json>): (r: Option<seq<Adapted>>)
    ensures r.Some? <==> forall i :: 0 <= i < |items| ==> !items[i].JNull?
    ensures r.Some? ==> |r.value| == |items| && forall i :: 0 <= i < |items| ==> Some(r.value[i]) == Adapt(items[i])
  {
    if items == [] then Some([])
    else
      var head, rest := Adapt(items[0]), AdaptAll(items[1..]);
      if head.Some? && rest.Some? then Some([head.value] + rest.value)
      else
        assert items[0].JNull? || exists i :: 0 <= i < |items[1..]| && items[1..][i].JNull?;
        None
  }

  datatype State = State(podcasts: seq<Adapted>, loading: bool, error: Option<string>)

  const Initial := State([], true, None)

  /** `fetchData()`: a success with data is adapted (when the data is no list,
      or an entry is null, the adapter throws and the network message is shown);
      a failure shows the server message or the default. */
  function FetchData(s: State, call: Call<Json>): (r: State)
    ensures !r.loading
    ensures Delivers(call) && call.response.data.value.JArr? && AdaptAll(call.response.data.value.items).Some? ==>
              r.podcasts == AdaptAll(call.response.data.value.items).value && r.error == s.error
    ensures Delivers(call) && JsonTruthy(call.response.data) && !call.response.data.value.JArr? ==>
              r == s.(loading := false, error := Some(NetworkError))
    ensures call.Returned? && !(call.response.success && JsonTruthy(call.response.data)) ==>
              r == s.(loading := false, error := Some(MessageOr(call, LoadFailed)))
    ensures call.Threw? ==> r == s.(loading := false, error := Some(NetworkError))
  {
    var settled :=
      match call
      case Threw => s.(error := Some(NetworkError))
      case Returned(resp) =>
        if resp.success && JsonTruthy(resp.data) then
          match resp.data.value
          case JArr(items) =>
            (match AdaptAll(items)
             case Some(adapted) => s.(podcasts := adapted)
             case None => s.(error := Some(NetworkError)))
          case _ => s.(error := Some(NetworkError))
        else s.(error := Some(OrElse(resp.message, LoadFailed)));
    settled.(loading := false)
  }

  /** The list shown changes only when an array arrived and every entry was
      adapted; then entry i shows item i's title, author and id, and its
      image is the item's `image` when truthy, else its `artwork`. */
  lemma FetchShowsAdaptedItems(s: State, call: Call<Json>)
    ensures var r := FetchData(s, call);
            r.podcasts != s.podcasts ==>
              Delivers(call) && call.response.data.value.JArr?
              && |r.podcasts| == |call.response.data.value.items|
    ensures var r := FetchData(s, call);
            Delivers(call) && call.response.data.value.JArr?
            && (forall i :: 0 <= i < |call.response.data.value.items| ==> !call.response.data.value.items[i].JNull?) ==>
              var items := call.response.data.value.items;
              |r.podcasts| == |items|
              && forall i :: 0 <= i < |items| ==>
                   && r.podcasts[i].id == Member(Some(items[i]), "id")
                   && r.podcasts[i].title == Member(Some(items[i]), "title")
                   && r.podcasts[i].author == Member(Some(items[i]), "author")
                   && r.podcasts[i].image
                      == if JsonTruthy(Member(Some(items[i]), "image")) then Member(Some(items[i]), "image")
                         else Member(Some(items[i]), "artwork")
  {
  }
}
